=== FILE: README.md ===
# mswkn bot core in Dafny

A model of the decision logic of the mswkn reddit bot. The bot watches comments for German securities identifiers (WKNs) and replies with a table describing each one. The model follows a comment through each stage of the bot's pipeline:

- **Scanner**: finds WKN candidates in a comment body, written either as `$WKN <six characters>` or as `$<six letters or digits>`. It also models the bare-token full scan.
- **Resolver**: looks every candidate up in the security repository. It then makes exactly one more pass over the underlyings of what it found.
- **Link enricher**: gets a link for every resolved security. It reads the link cache first and otherwise asks onvista.de, whose URL choice is modelled as well.
- **Responder**: builds one reply line per requested WKN.

Around that pipeline sit these parts:

- **Xetra reader**: turns the rows of the Deutsche Börse reference file into `Security` records.
- **Updater**: writes those records to the repository, either one by one or in batches.
- **Repositories**: the in-memory one, and the pure parts of the Postgres one.
- **Health status** and **configuration loader**.

Each Go package is one Dafny module:

| module | file | Go package |
|---|---|---|
| `Scanner` | `scanner.dfy` | `pkg/scanner` |
| `Xetra` | `xetra.dfy` | `pkg/data`, the reader |
| `Updater` | `updater.dfy` | `pkg/data`, the updater |
| `MemoryRepo` | `memory.dfy` | `pkg/db`, the in-memory repositories |
| `PgRepo` | `pg.dfy` | `pkg/db`, the Postgres repositories |
| `Resolver` | `securities.dfy` | `pkg/securities` |
| `InfoLinks` | `infolinks.dfy` | `pkg/infolinks` |
| `Onvista` | `onvista.dfy` | `pkg/onvista` |
| `Responder` | `responder.dfy` | `pkg/responder` |
| `Config` | `config.dfy` | `pkg/config` |
| `Instrumenting` | `instrumenting.dfy` | `pkg/instrumenting` |

Three modules support the others:

- `Domain` holds the records, enumeration codes and bus messages of `security.go`, `info_link.go` and `broker.go`.
- `Text` holds ASCII stand-ins for the Go `strings` and `strconv` functions the bot calls: `ToUpper`, `ReplaceAll`, `Split`, `TrimSpace` and `Atoi`.
- `Results` holds `Option` and `Result`.

Modelling choices:

- **Strings** are ASCII `seq<char>`, so `|s|` is Go's `len(s)`.
- **Enumerations** stay Go `int` codes, so an unknown code is representable and falls through to each table's default.
- **Outside inputs become parameters:**
  - the clock;
  - float and date parsing;
  - German number formatting and date formatting;
  - the HTTP exchange with onvista.de;
  - the repository lookup used by the resolver;
  - the iteration order of Go maps.
- **Panics** become error results. A malformed integer in the environment gives `Err`, and a WKN field shorter than three characters gives the parse end `Panicked`.
- **The updater's goroutine and channels** become a `Feed`: the records received, in order, plus how the stream ended (closed, loader error or cancelled).

## Model

| member | source | states |
|---|---|---|
| Text.UpperNoLower | pkg/scanner/scanner.go:86 | upper-cased text holds no lower-case ASCII letter |
| Text.UpperIdempotent | pkg/db/memory.go:30 | upper-casing twice is upper-casing once, so a stored key re-normalises to itself |
| Text.UpperAppend | pkg/scanner/scanner.go:86 | upper-casing works piecewise over a concatenation |
| Text.CollapseRun | pkg/scanner/scanner.go:89 | one `ReplaceAll("  ", " ")` pass turns a run of n spaces before a non-space into ceil(n/2) spaces |
| Text.CollapseAppend | pkg/scanner/scanner.go:89-90 | the replacement works piecewise wherever the boundary does not have a space on both sides |
| Text.CollapseKeepsChars | pkg/scanner/scanner.go:89-90 | the replacement introduces no character the text did not have |
| Text.Split | pkg/scanner/scanner.go:92 | `strings.Split` on one character: at least one piece, no piece contains the separator |
| Text.JoinSplit | pkg/config/config.go:80 | joining the pieces of a split with the separator gives back the text |
| Text.SplitJoin | pkg/config/config.go:80 | splitting separator-free pieces joined by the separator gives back the pieces |
| Text.SplitAround | pkg/scanner/scanner.go:92 | splitting around one separator splits both sides independently |
| Text.TrimSpaceInfix | pkg/scanner/scanner.go:115 | `TrimSpace` yields the infix after the leading white space, followed only by white space, with non-white ends |
| Text.TrimSpaceNoop | pkg/scanner/scanner.go:115 | text without white space at either end is not changed by trimming |
| Text.ParseDecimal | pkg/config/config.go:124 | `Atoi` accepts only values inside the int64 range and never the empty string |
| Text.ParseDecimalOfDecimalString | pkg/config/config.go:124 | every int64 written in decimal (with `-` when negative) parses back to itself |
| Text.ParseDecimalShape | pkg/config/config.go:124 | only an optional sign followed by one or more digits parses |
| Scanner.Normalize | pkg/scanner/scanner.go:86-90 | the text after upper-casing, newline and tab replacement and the two double-space passes is no longer than the body and holds no lower-case letter, newline or tab |
| Scanner.Tokens | pkg/scanner/scanner.go:86-92 | the split of the normalised text gives at least one token, none holding a space, and joining them with single spaces gives the normalised text back |
| Scanner.DollarWknTokenScan | pkg/scanner/scanner.go:81-109 | fails exactly on the empty body, with the empty-body error; a body without matches gives the empty set and never the no-tokens error |
| Scanner.SigilCapture | pkg/scanner/scanner.go:113-130 | a token is captured iff, trimmed, it is 7 characters, starts with `$` and the other six are `[A-Z0-9]`; the capture is those six |
| Scanner.SigilScan | pkg/scanner/scanner.go:113-130 | the sigil pass holds the capture of every token that has one, and every WKN in it is six `[A-Z0-9]` characters |
| Scanner.KeywordScan | pkg/scanner/scanner.go:132-153 | the keyword loop with its skip flag yields only six-character tokens; its exact capture set is `Scanner.KeywordScanCaptures` |
| Scanner.KeywordScanCaptures | pkg/scanner/scanner.go:132-153 | the keyword loop with its skip flag captures exactly the six-character token after each `$WKN` token that has one; the skip never changes the outcome |
| Scanner.ScanIsUnionOfPasses | pkg/scanner/scanner.go:94-108 | the result is the union of the keyword and sigil passes whatever the token count; the "more than one token" guard only skips a pass that could capture nothing |
| Scanner.ScanSoundness | pkg/scanner/scanner.go:81-130 | every WKN found has six characters, no lower-case letter and no space; one not from the keyword pass is `[A-Z0-9]` only |
| Scanner.SigilCompleteness | pkg/scanner/scanner.go:81-130 | `$` plus six letters or digits (either case), bounded by a separator or the body's edge, is always found, upper-cased |
| Scanner.KeywordCompleteness | pkg/scanner/scanner.go:81-153 | the keyword in any case, one space and a six-character separator-free word, bounded on both sides, always yields the upper-cased word, with no character-class check |
| Scanner.GapNormalize | pkg/scanner/scanner.go:86-90 | two words around a gap of n spaces normalise to the words around ceil(ceil(n/2)/2) spaces |
| Scanner.GapTokens | pkg/scanner/scanner.go:86-92 | gaps of up to four spaces tokenise as just the two words; gaps of five or more leave an empty token |
| Scanner.FullScanCapture | pkg/scanner/scanner.go:166-176 | a bare token is captured iff, trimmed, it is exactly six `[A-Z0-9]` characters; the capture is the trimmed token |
| Scanner.WknDollarFullScan | pkg/scanner/scanner.go:157-189 | fails exactly on the empty body; otherwise every result is six `[A-Z0-9]` characters |
| Scanner.FullScanCompleteness | pkg/scanner/scanner.go:157-189 | every space-bounded six-character word of letters and digits, in either case, is found upper-cased |
| Xetra.SecurityTypeOf | pkg/data/xetra.go:228-248 | the code is the index of the upper-cased name in the OPT..ETN table, undefined exactly for names outside it |
| Xetra.SecurityTypeNamesRecognised | pkg/data/xetra.go:228-248 | each table name is recognised in any letter case |
| Xetra.WarrantTypeOf | pkg/data/xetra.go:218-226 | call iff the upper-cased text is CALL, put iff PUT, undefined otherwise |
| Xetra.WarrantSubTypeOf | pkg/data/xetra.go:206-216 | knock-out iff exactly "60" or "50", open-end iff exactly "40", undefined otherwise |
| Xetra.ShortenWkn | pkg/data/xetra.go:250-253 | the result is the input without its three-character prefix |
| Xetra.MapRow | pkg/data/xetra.go:165-192 | name and underlying are verbatim; ISIN is upper-cased; the WKN is upper-cased and loses three characters; the three codes come from the tables; strike and expiry are set only from a non-empty field that parses |
| Xetra.ParseXetraCsv | pkg/data/xetra.go:137-204 | bounds only: no more records than rows; the row-by-row behaviour is stated by `Xetra.ParseOneRow`, `Xetra.ParseAppend` and `Xetra.ParseClosedIffClean` |
| Xetra.ParseOneRow | pkg/data/xetra.go:144-199 | per row: a read error fails, a wrong field count or the header row is skipped, a WKN under three characters crashes, any other row emits its record |
| Xetra.ParseAppend | pkg/data/xetra.go:137-204 | a clean prefix emits its records first, in row order, and the rest decides how the run ends |
| Xetra.ParseClosedIffClean | pkg/data/xetra.go:152-204 | the output is closed exactly when no row is a read error or a crashing row |
| Xetra.ParseStopsAtFailure | pkg/data/xetra.go:152-158 | a read error returns the records before it and that error, and nothing after it is read |
| Xetra.ParseSkipsRow | pkg/data/xetra.go:146-163 | removing a row with the wrong field count or the header row changes nothing |
| Updater.SourceFor | pkg/data/updater.go:93-111 | a local file exactly when the configured path is non-empty, that path; otherwise the download |
| Updater.FeedOf | pkg/data/updater.go:92-112 | the loader's feed carries the parsed records, closes on a clean parse, carries the parse error otherwise, and there is none after a crash |
| Updater.RunError | pkg/data/updater.go:163-201 | a run returns an error exactly for a loader error, and that error; cancellation returns nil |
| Updater.AddCalls | pkg/data/updater.go:127-155 | the add loop makes one call per record, call i being `Add` of record i |
| Updater.AddPath | pkg/data/updater.go:127-155 | call i is `Add` of the i-th received record, one call per record; the error as above |
| Updater.AddPathStoresAll | pkg/data/updater.go:114-155 | batch size 1 leaves the repository as if every received record had been added in arrival order |
| Updater.UpdateXetraFiles | pkg/data/updater.go:114-122 | batch size 1 makes only `Add` calls, any other size only `AddBulk` calls of at most that size; the error as above. For sizes of 2 or more it runs the corrected batch loop, not the source's (see Findings) |
| Updater.UpdateStoresAll | pkg/data/updater.go:114-203 | with the corrected batch loop, a closed run of any positive batch size stores every received record in arrival order |
| Updater.BulkFold | pkg/data/updater.go:180-197 | every mid-stream flush holds exactly b records, and the pending list at most b |
| Updater.BulkPath | pkg/data/updater.go:157-203 | the loop as written: the flushes, then one final `AddBulk` of exactly the pending list only if the stream closed; after an error or cancellation every flush is full |
| Updater.BulkFoldKeeps | pkg/data/updater.go:180-197 | the flushes and the pending list together are exactly the records whose 0-based position k has k mod (b+1) != b |
| Updater.BulkPathStoresKept | pkg/data/updater.go:157-203 | the loop as written, on a closed stream, stores exactly those kept records, in arrival order |
| Updater.BulkLosesThirdRecord | pkg/data/updater.go:180-197 | with b = 2 and three records, the calls are one batch of the first two and one empty batch |
| Updater.BulkFoldCorrected | pkg/data/updater.go:180-197 | with the arriving record kept, every flush still holds exactly b records |
| Updater.BulkFoldCorrectedLossless | pkg/data/updater.go:180-197 | with the arriving record kept, the flushes and the pending list are the records in order |
| Updater.BulkPathCorrected | pkg/data/updater.go:157-203 | the corrected batch run: the corrected loop's flushes, each of at most b records and exactly b after an error or cancellation, then one final `AddBulk` of exactly the pending list only if the stream closed; the error as above |
| Updater.BulkPathCorrectedStoresAll | pkg/data/updater.go:157-203 | with the arriving record kept, a closed batch run stores the same as the record-by-record path |
| Updater.RunUpdate | pkg/data/updater.go:65-83 | the status is set to the run's start time whether the update failed or succeeded |
| Updater.HealthAfterRun | pkg/data/updater.go:65-83 | after any run the health check passes exactly up to two hours after its start |
| MemoryRepo.Put | pkg/db/memory.go:30 | the key set gains the upper-cased WKN and every other entry is unchanged; keys stay upper-case |
| MemoryRepo.LookupAfterPut | pkg/db/memory.go:25-52 | a read after a write gives the written value for every spelling of its WKN and the old answer for every other WKN |
| MemoryRepo.LookupCaseInsensitive | pkg/db/memory.go:44-52 | every spelling of a WKN finds the same entry |
| MemoryRepo.AddSecurity | pkg/db/memory.go:25-32 | keyed by the upper-cased WKN only, overwriting, never failing |
| MemoryRepo.GetSecurity | pkg/db/memory.go:44-52 | found exactly when the upper-cased WKN is a key, that record; otherwise the not-found sentinel |
| MemoryRepo.GetAfterAddSecurity | pkg/db/memory.go:25-52 | the added record for every spelling of its WKN, the old answer for every other WKN |
| MemoryRepo.AddBulk | pkg/db/memory.go:34-42 | the bulk insert equals one `Add` per record in list order |
| MemoryRepo.AddAllLastWriter | pkg/db/memory.go:34-42 | after a bulk insert a WKN reads the last record of the list with that WKN |
| MemoryRepo.AddAllUntouched | pkg/db/memory.go:34-42 | a WKN not in the list keeps its old answer |
| MemoryRepo.AddAllWellKeyed | pkg/db/memory.go:34-42 | keys stay upper-case whatever is inserted |
| MemoryRepo.AddInfoLink | pkg/db/memory.go:67-72 | keyed by the link's upper-cased WKN, overwriting, never failing |
| MemoryRepo.GetInfoLink | pkg/db/memory.go:74-82 | found exactly when the upper-cased WKN is a key; otherwise the link not-found sentinel |
| MemoryRepo.GetAfterAddInfoLink | pkg/db/memory.go:67-82 | the added link for every spelling of its WKN, the old answer otherwise |
| Instrumenting.Since | pkg/instrumenting/instrumenting.go:18 | the elapsed time clamped to the int64 range, as Go's time subtraction saturates |
| Instrumenting.Healthy | pkg/instrumenting/instrumenting.go:17-20 | healthy iff now minus the last update is at most two hours, boundary included; the clamping never changes the answer |
| Instrumenting.SetDataUpdateStatus | pkg/instrumenting/instrumenting.go:27-31 | the next read returns the status set |
| Instrumenting.GetDataUpdateStatus | pkg/instrumenting/instrumenting.go:33-37 | returns the held status, which is all the holder keeps; with `Instrumenting.SetDataUpdateStatus` it reads back what was set |
| Instrumenting.SetWhatWasRead | pkg/instrumenting/instrumenting.go:27-37 | setting the status just read leaves the holder unchanged |
| Instrumenting.GetReturnsLastSet | pkg/instrumenting/instrumenting.go:27-37 | after any sequence of sets, a read returns the last one; nothing of earlier ones survives |
| Instrumenting.InitialStale | pkg/instrumenting/instrumenting.go:22-25 | the initial zero status is unhealthy at any real clock reading |
| Instrumenting.FreshForTwoHours | pkg/instrumenting/instrumenting.go:17-37 | a status set at t is healthy exactly up to t plus two hours |
| PgRepo.ToDbSec | pkg/db/pg.go:238-257 | id and timestamps 0, expiry valid iff present; reading the row back gives the record unchanged |
| PgRepo.FromDbSec | pkg/db/pg.go:259-277 | an invalid expiry becomes absent, a valid one keeps its time; the other fields are copied |
| PgRepo.RowRoundTrip | pkg/db/pg.go:238-277 | a row of the shape `toDbSec` writes is rebuilt exactly by converting back and forth |
| PgRepo.ColumnValue | pkg/db/pg.go:164-174 | the expiry column binds the nullable expiry; both timestamp columns bind the statement's clock reading |
| PgRepo.RowValues | pkg/db/pg.go:164-175 | a record binds eleven values, the j-th being its value for the j-th inserted column |
| PgRepo.RenderRowRoundTrip | pkg/db/pg.go:160 | every rendered VALUES tuple reads back as the cells it was made from |
| PgRepo.RowParameters | pkg/db/pg.go:158-162 | row k's tuple is DEFAULT followed by parameters 11k+1 to 11k+11 |
| PgRepo.BuildBulkInsert | pkg/db/pg.go:156-177 | 11 values per record at offset 11k in column order, and the VALUES text is the rows' tuples joined by commas |
| PgRepo.UpsertTargets | pkg/db/pg.go:127-220 | security upserts clash on the ISIN and info-link upserts on the WKN; the bulk upsert overwrites the WKN and never the id, the single one only renames |
| PgRepo.NoIdValue | pkg/db/pg.go:138-175 | the id column never receives a bound value |
| PgRepo.InfoLinkRow | pkg/db/pg.go:83-99 | an info link is written under its upper-cased WKN with its URL |
| PgRepo.InfoLinkKeyMatches | pkg/db/pg.go:83-114 | every spelling of a link's WKN queries the row the link was written as |
| PgRepo.GetSecurity | pkg/db/pg.go:227-236 | found exactly when some row's WKN equals the upper-cased query, and then the record is `fromDbSec` of such a row, with an upper-case WKN; otherwise not found |
| PgRepo.LowerCaseWknUnreachable | pkg/db/pg.go:227-257 | a security written with a lower-case letter in its WKN is found by no query, since inserts keep the case and lookups upper-case |
| Resolver.FetchSecurities | pkg/securities/securities.go:64-88 | every key was requested and is the lookup's answer; every WKN the lookup resolves is present; any failure skips it; underlyings are non-empty and no more than the requests |
| Resolver.UnderlyingsAppend | pkg/securities/securities.go:67-86 | underlyings are collected in request order: a pass over two lists gives the first list's, then the second's |
| Resolver.UnderlyingsOne | pkg/securities/securities.go:70-85 | one WKN contributes its record's underlying exactly when it resolves and the underlying is non-empty |
| Resolver.LookupCount | pkg/securities/securities.go:34-40 | a request costs at most twice as many lookups as WKNs |
| Resolver.Resolve | pkg/securities/securities.go:27-55 | name and WKN list pass through; every key is requested or a first-pass underlying and maps to its lookup's answer; every resolvable WKN and first-pass underlying is present |
| Resolver.OneLevelOnly | pkg/securities/securities.go:34-40 | for a chain A to B to C, a request for A resolves A and B but never C |
| InfoLinks.FetchInfoLink | pkg/infolinks/infolinks.go:71-110 | a hit returns the cached link without fetching; after a miss (any cache error) it succeeds iff the fetch gives a non-empty URL, and only then stores `{WKN, URL}` |
| InfoLinks.FetchWithStore | pkg/infolinks/infolinks.go:81-107 | the cache only grows and stays consistent; it fetches iff the upper-cased WKN was not cached; success leaves the WKN cached |
| InfoLinks.SecondLookupHits | pkg/infolinks/infolinks.go:81-107 | after a success, asking again with any spelling of the WKN is a hit that fetches nothing |
| InfoLinks.OnvistaFetchNeverEmpty | pkg/infolinks/infolinks.go:92-103 | with the onvista lookup as the fetch, a miss fails exactly when the lookup does; the empty-URL branch never fires |
| InfoLinks.EnrichAll | pkg/infolinks/infolinks.go:36-43 | links only for iterated keys; the cache only grows and stays consistent; at most one fetch per security (exact membership is `InfoLinks.EnrichExact`) |
| InfoLinks.EnrichedLinksMatch | pkg/infolinks/infolinks.go:36-43 | against a consistent cache every link found has its security's WKN up to case, and a URL |
| InfoLinks.EnrichCompleteness | pkg/infolinks/infolinks.go:36-43 | a key is missing from the result only if it was not cached and its fetch failed or came back empty |
| InfoLinks.EnrichExact | pkg/infolinks/infolinks.go:36-43 | when no two securities share a WKN up to case, a key has a link exactly when its WKN was cached or its fetch gave a non-empty URL: exactly the failed enrichments are skipped |
| InfoLinks.AllCachedNoFetch | pkg/infolinks/infolinks.go:36-43 | when every WKN is cached nothing is fetched |
| InfoLinks.Handle | pkg/infolinks/infolinks.go:30-61 | name, WKN list and securities pass through; links only for securities, and for every security whose fetch would succeed; with distinct WKNs, a link exactly for the securities that were cached or fetched successfully |
| Onvista.UrlTemplate | pkg/onvista/client.go:44-57 | stock, warrant or note, fund, and every other type each get their own page family, in both directions |
| Onvista.RequestUrl | pkg/onvista/client.go:58 | the template, a slash and the ISIN |
| Onvista.RequestUrlIsin | pkg/onvista/client.go:58 | the ISIN's case does not matter, and the last path segment is the upper-cased ISIN |
| Onvista.DoubledSlash | pkg/onvista/client.go:15-58 | stock and default URLs contain a doubled slash |
| Onvista.ChooseUrl | pkg/onvista/client.go:73-82 | the Location header wins, else the final request URL; an error iff both are empty; never an empty URL |
| Onvista.FetchUrl | pkg/onvista/client.go:43-90 | a failed exchange returns its error, otherwise the choice above; a success is never empty |
| Responder.InfoLinkUrl | pkg/responder/responder.go:178-183 | the bare text for an empty URL, otherwise a Markdown link four characters longer than text and URL together |
| Responder.ParseInfoLink | pkg/responder/responder.go:178-183 | a link to a non-empty URL whose text holds no `]` reads back as its text and URL |
| Responder.LinkInjective | pkg/responder/responder.go:178-183 | for non-empty URLs and texts without `]`, distinct texts or URLs give distinct links; a `]` in the text breaks this |
| Responder.TypeLabel | pkg/responder/responder.go:216-236 | the label table for the eight named codes, a dash for every other code |
| Responder.TypeLabelInjective | pkg/responder/responder.go:216-236 | distinct named types have distinct labels, none a dash |
| Responder.WarrantSubTypeText | pkg/responder/responder.go:196-204 | KO iff knock-out, OS iff open-end, dash otherwise |
| Responder.WarrantTypeText | pkg/responder/responder.go:206-214 | Call iff call, Put iff put, dash otherwise |
| Responder.TypeText | pkg/responder/responder.go:185-194 | warrants show sub-type, space and direction; other types their label, without a space |
| Responder.WarrantTextDecodes | pkg/responder/responder.go:185-214 | a warrant's text determines its sub-type and direction texts |
| Responder.BuildReplyLine | pkg/responder/responder.go:155-176 | link, name, type text and underlying copied; strike shown iff positive; expiry shown iff present and strictly before now plus 20 years |
| Responder.Placeholder | pkg/responder/responder.go:120-125 | the "nix gefunden" record with the requested WKN and nothing else |
| Responder.UnderlyingCell | pkg/responder/responder.go:135-148 | the resolved underlying's name and WKN, else the raw value; when the underlying has a link entry, that text passed through the link builder with the entry's URL (plain again for an empty URL) |
| Responder.LineFor | pkg/responder/responder.go:116-150 | the link or the bare WKN; the placeholder for a missing record; for a found record its name and type text, the strike iff positive, the expiry iff present and before the horizon; the underlying cell only for a non-blank underlying, the raw field otherwise |
| Responder.GetReplyLines | pkg/responder/responder.go:114-153 | exactly one line per requested WKN, in request order, duplicates included |
| Responder.UnknownWknLine | pkg/responder/responder.go:117-133 | a WKN with neither record nor link gets the bare placeholder line |
| Responder.ExampleRequestEntries | pkg/responder/responder_test.go:21-85 | the example request holds the records and links of the unit test |
| Responder.ExampleLinkedUnderlying | pkg/responder/responder_test.go:88-95 | the knock-out put on a linked, resolved stock gives the expected line |
| Responder.ExampleStockLine | pkg/responder/responder_test.go:96-103 | the stock gives the expected line, without strike or underlying |
| Responder.ExampleUnknownUnderlying | pkg/responder/responder_test.go:104-111 | a put with an unresolved underlying shows it raw |
| Responder.ExampleUnlinkedUnderlying | pkg/responder/responder_test.go:112-119 | a put with a resolved, unlinked underlying shows plain name and WKN |
| Config.FromEnvStr | pkg/config/config.go:109-116 | the fallback when unset, the value (even empty) when set |
| Config.FromEnvInt | pkg/config/config.go:118-129 | the fallback when unset, the parsed value when set to an int64 decimal, the start-up error otherwise |
| Config.FromEnvBool | pkg/config/config.go:131-146 | the fallback when unset; when set, true exactly for "1" and "true" |
| Config.LoadConfigFromEnv | pkg/config/config.go:62-107 | fails iff one of the four numeric variables is malformed, with the first one's message in reading order (queue length, queue port, database port, HTTP port); subreddits are the variable split at commas, never an empty list |
| Config.EmptyEnvDefaults | pkg/config/config.go:62-107 | an empty environment yields the documented defaults |
| Config.EmptySubReddits | pkg/config/config.go:79-80 | an unset or empty subreddit variable gives one empty name |
| Config.OnlyItsVariables | pkg/config/config.go:62-107 | variables the loader does not read change nothing |
| Config.IntTextReads | pkg/config/config.go:118-129 | a variable set to an integer's decimal text reads back as that integer |
| Config.ConfigRoundTrip | pkg/config/config.go:62-146 | every expressible configuration, written out as variables, loads back exactly |

## Left out

- Downloading the reference file, unzip, and the HTML link discovery of the download page: network and archive I/O.
- CSV tokenisation (`;` delimiter, RFC 4180 quoting): rows arrive already split, as `CsvRead` values.
- `strconv.ParseFloat`, `time.Parse`, the German number printer, date formatting and `time.Now`: these are function or integer parameters. The strike is a `real` and only its sign is inspected.
- Unicode upper-casing: `Text.Upper` changes only `a`-`z`, which matches Go's `strings.ToUpper` on ASCII text only.
- Goroutines, channels, `select`, context timeouts, the cron schedule and the two rate limiters. The updater's concurrency is reduced to a `Feed`, and locks around the in-memory maps are dropped because every operation is atomic here.
- Executing SQL, connection retry and the database-side effect of an upsert: `PgRepo` covers only the record conversion, the statement's parameter layout, conflict targets and the WKN spelling each statement writes and queries.
- The generated ORM package (`pkg/db/models`) is not part of this model.
- The message bus, the reddit listener and client, the HTTP server and health endpoint, application wiring and `main`, and the template that renders the reply text: transport and presentation.
- `FetchURLByWKN`, which only panics, and `DummyScanner`, which returns a constant.
- The integration load test: live download and memory statistics.
- Logging, including the `DEBUG_CONFIG_DUMP` dump of the configuration.
- Repository errors that the updater and enricher only log. The updater's calls never depend on them, and a failing cache store changes nothing the enricher returns.
- Updater.UpdateXetraFiles: for batch sizes of 2 or more, which include the sizes the application configures, it runs the corrected batch loop and not the source's, so it does not compute the calls the program as written makes; those are `Updater.BulkPath`. A negative batch size is not modelled (the size is a `nat`). A size of 0 keeps the loop as written, where every record triggers an empty flush and is dropped, because no correction of a zero-size batch is evident.
- Updater.BulkPathCorrected: requires a batch size of at least 1, since the corrected loop is only meaningful for a positive size.
- Resolver.Resolve: the merge of the second pass overwrites equal keys, but with one lookup function both passes answer a key alike, so the overwrite cannot be observed. A repository changing between the two passes is not modelled.
- MemoryRepo.GetSecurity, PgRepo.GetSecurity: storage failures other than "not found" are not produced here. The resolver and the enricher take the repository's answer as a parameter, so they do cover arbitrary errors.
- InfoLinks.Handle: the exact link set is stated only when no two securities share a WKN up to letter case. Otherwise a later security can hit the link an earlier one stored, and which one comes first depends on the map's iteration order.
- Xetra.ParseXetraCsv: its own contract bounds only the output length. The row-by-row behaviour is stated by `Xetra.ParseOneRow`, `Xetra.ParseAppend` and the lemmas after them.
- Two behaviours of the code worth knowing: the health status is stamped with the run's start time after a failed update as well, not only after a successful one; and the keyword pass's "skip the captured token" flag has no observable effect, which is proved in `Scanner.KeywordScanCaptures`.

## Findings

| source | as written | input that shows it | evidently intended | confidence | as-written member | corrected member |
|---|---|---|---|---|---|---|
| pkg/data/updater.go:180-197 | a record that arrives while the batch list is full triggers the flush and is itself never added to any list | bulk size 2 and a closed stream of records s0, s1, s2: the calls are `AddBulk([s0, s1])` and `AddBulk([])`, so s2 is never stored | flush the full list, then start the new list with the arriving record | not executed | Updater.BulkLosesThirdRecord | Updater.BulkPathCorrectedStoresAll |

The as-written loop is characterised in general by `Updater.BulkFoldKeeps` and `Updater.BulkPathStoresKept`: with batch size b, exactly the records at positions k with k mod (b+1) = b are lost. The corrected loop, `Updater.BulkFoldCorrected`, is lossless (`Updater.BulkFoldCorrectedLossless`). `Updater.BulkPathCorrectedStoresAll` proves that a closed batch run with the corrected loop leaves the repository exactly as the record-by-record path does. `Updater.UpdateXetraFiles` uses the corrected loop, and `Updater.UpdateStoresAll` states the resulting guarantee for every positive batch size.

=== FILE: config.dfy ===
/** The bot's configuration, read from environment variables with a
    fallback for each. The process environment is a map from variable name
    to value; a variable missing from the map is unset, which is different
    from set to the empty string. A malformed number aborts start-up, which
    the model returns as an error. */
module Config {
  import opened Results
  import opened Text

  type Env = map<string, string>

  datatype MemoryQueue = MemoryQueue(enabled: bool, size: int)
  datatype NatsQueue = NatsQueue(host: string, port: int, username: string, password: string)
  datatype Queue = Queue(memory: MemoryQueue, nats: NatsQueue)

  datatype Reddit = Reddit(
    agent: string,
    clientId: string,
    clientSecret: string,
    username: string,
    password: string,
    subReddits: seq<string>)

  datatype PgDatabase = PgDatabase(
    enabled: bool,
    host: string,
    port: int,
    database: string,
    username: string,
    password: string)

  datatype Database = Database(memoryEnabled: bool, pg: PgDatabase)

  datatype HttpServer = HttpServer(port: int, basicAuthDisabled: bool, username: string, password: string)

  datatype Config = Config(
    version: string,
    logLevel: string,
    logMode: string,
    mode: string,
    queue: Queue,
    reddit: Reddit,
    database: Database,
    xetraCsv: string,
    httpServer: HttpServer)

  // ---------------------------------------------------------------------
  // Single variables

  /** The value when the variable is set, even to the empty string; the
      fallback otherwise. */
  function FromEnvStr(env: Env, name: string, fallback: string): (v: string)
    ensures name !in env ==> v == fallback
    ensures name in env ==> v == env[name]
  {
    if name in env then env[name] else fallback
  }

  /** The message start-up aborts with for a malformed number. */
  function BadIntMessage(name: string, val: string): string {
    "the value '" + val + "' could not be parsed to an int value for " + name
  }

  /** A variable that is set to something that is not a 64-bit decimal. */
  predicate BadInt(env: Env, name: string) {
    name in env && ParseDecimal(env[name]).None?
  }

  /** The fallback when unset; the decimal value when set; an error for a
      set value that is not a 64-bit decimal (the empty string included). */
  function FromEnvInt(env: Env, name: string, fallback: int): (r: Result<int, string>)
    ensures r.Err? <==> BadInt(env, name)
    ensures r.Err? ==> r.error == BadIntMessage(name, env[name])
    ensures name !in env ==> r == Ok(fallback)
    ensures name in env && r.Ok? ==> Some(r.value) == ParseDecimal(env[name])
  {
    if name !in env then Ok(fallback)
    else match ParseDecimal(env[name])
      case None => Err(BadIntMessage(name, env[name]))
      case Some(n) => Ok(n)
  }

  /** The fallback when unset. A set value is true for exactly "1" and
      "true"; everything else, including "TRUE" and the empty string, is
      false. */
  function FromEnvBool(env: Env, name: string, fallback: bool): (b: bool)
    ensures name !in env ==> b == fallback
    ensures name in env ==> (b <==> env[name] == "1" || env[name] == "true")
  {
    if name !in env then fallback
    else if env[name] == "" || env[name] == "false" || env[name] == "0" then false
    else env[name] == "1" || env[name] == "true"
  }

  // ---------------------------------------------------------------------
  // The whole configuration

  /** Every variable the configuration reads. */
  const EnvNames: set<string> := {
    "LOG_LEVEL", "LOG_MODE", "MODE", "QUEUE_LENGTH",
    "REDDIT_AGENT", "REDDIT_CLIENT_ID", "REDDIT_CLIENT_SECRET", "REDDIT_USERNAME", "REDDIT_PASSWORD",
    "REDDIT_SUBREDDITS",
    "QUEUE_NATS_HOST", "QUEUE_NATS_PORT", "QUEUE_NATS_USERNAME", "QUEUE_NATS_PASSWORD",
    "DATABASE_MEMORY_ENABLED", "DATABASE_PG_ENABLED", "DATABASE_PG_HOST", "DATABASE_PG_PORT",
    "DATABASE_PG_DATABASE", "DATABASE_PG_USERNAME", "DATABASE_PG_PASSWORD",
    "DATA_XETRA_CSV",
    "HTTP_SERVER_PORT", "HTTP_SERVER_AUTH_DISABLED", "HTTP_SERVER_USERNAME", "HTTP_SERVER_PASSWORD"}

  /** The configuration from `env`. The first malformed number, in reading
      order (queue length, queue port, database port, HTTP port), aborts
      with its message. The in-memory queue's switch is never read and
      stays off; the subreddit list is the variable split at commas. */
  function LoadConfigFromEnv(env: Env, version: string): (r: Result<Config, string>)
    ensures r.Err? <==> (BadInt(env, "QUEUE_LENGTH") || BadInt(env, "QUEUE_NATS_PORT") ||
                         BadInt(env, "DATABASE_PG_PORT") || BadInt(env, "HTTP_SERVER_PORT"))
    ensures BadInt(env, "QUEUE_LENGTH") ==> r == Err(BadIntMessage("QUEUE_LENGTH", env["QUEUE_LENGTH"]))
    ensures !BadInt(env, "QUEUE_LENGTH") && BadInt(env, "QUEUE_NATS_PORT") ==>
      r == Err(BadIntMessage("QUEUE_NATS_PORT", env["QUEUE_NATS_PORT"]))
    ensures !BadInt(env, "QUEUE_LENGTH") && !BadInt(env, "QUEUE_NATS_PORT") && BadInt(env, "DATABASE_PG_PORT") ==>
      r == Err(BadIntMessage("DATABASE_PG_PORT", env["DATABASE_PG_PORT"]))
    ensures !BadInt(env, "QUEUE_LENGTH") && !BadInt(env, "QUEUE_NATS_PORT") && !BadInt(env, "DATABASE_PG_PORT") &&
            BadInt(env, "HTTP_SERVER_PORT") ==>
      r == Err(BadIntMessage("HTTP_SERVER_PORT", env["HTTP_SERVER_PORT"]))
    ensures r.Ok? ==> r.value.version == version && !r.value.queue.memory.enabled
    ensures r.Ok? ==> r.value.reddit.subReddits == Split(FromEnvStr(env, "REDDIT_SUBREDDITS", ""), ',')
    ensures r.Ok? ==> |r.value.reddit.subReddits| >= 1
  {
    var size :- FromEnvInt(env, "QUEUE_LENGTH", 20);
    var natsPort :- FromEnvInt(env, "QUEUE_NATS_PORT", 4222);
    var pgPort :- FromEnvInt(env, "DATABASE_PG_PORT", 5432);
    var httpPort :- FromEnvInt(env, "HTTP_SERVER_PORT", 3000);
    Ok(Config(
      version := version,
      logLevel := FromEnvStr(env, "LOG_LEVEL", "debug"),
      logMode := FromEnvStr(env, "LOG_MODE", "develop"),
      mode := FromEnvStr(env, "MODE", "prod"),
      queue := Queue(
        MemoryQueue(false, size),
        NatsQueue(
          FromEnvStr(env, "QUEUE_NATS_HOST", "localhost"),
          natsPort,
          FromEnvStr(env, "QUEUE_NATS_USERNAME", "mswkn"),
          FromEnvStr(env, "QUEUE_NATS_PASSWORD", "mswkn"))),
      reddit := Reddit(
        FromEnvStr(env, "REDDIT_AGENT", ""),
        FromEnvStr(env, "REDDIT_CLIENT_ID", ""),
        FromEnvStr(env, "REDDIT_CLIENT_SECRET", ""),
        FromEnvStr(env, "REDDIT_USERNAME", ""),
        FromEnvStr(env, "REDDIT_PASSWORD", ""),
        Split(FromEnvStr(env, "REDDIT_SUBREDDITS", ""), ',')),
      database := Database(
        FromEnvBool(env, "DATABASE_MEMORY_ENABLED", true),
        PgDatabase(
          FromEnvBool(env, "DATABASE_PG_ENABLED", false),
          FromEnvStr(env, "DATABASE_PG_HOST", "localhost"),
          pgPort,
          FromEnvStr(env, "DATABASE_PG_DATABASE", "mswkn"),
          FromEnvStr(env, "DATABASE_PG_USERNAME", "mswkn"),
          FromEnvStr(env, "DATABASE_PG_PASSWORD", "mswkn"))),
      xetraCsv := FromEnvStr(env, "DATA_XETRA_CSV", ""),
      httpServer := HttpServer(
        httpPort,
        FromEnvBool(env, "HTTP_SERVER_AUTH_DISABLED", false),
        FromEnvStr(env, "HTTP_SERVER_USERNAME", ""),
        FromEnvStr(env, "HTTP_SERVER_PASSWORD", ""))))
  }

  /** The documented defaults. */
  function Defaults(version: string): (c: Config)
    ensures c.version == version
  {
    Config(version, "debug", "develop", "prod",
      Queue(MemoryQueue(false, 20), NatsQueue("localhost", 4222, "mswkn", "mswkn")),
      Reddit("", "", "", "", "", [""]),
      Database(true, PgDatabase(false, "localhost", 5432, "mswkn", "mswkn", "mswkn")),
      "",
      HttpServer(3000, false, "", ""))
  }

  /** An empty environment yields the defaults. */
  lemma EmptyEnvDefaults(version: string)
    ensures LoadConfigFromEnv(map[], version) == Ok(Defaults(version))
  {
    assert Split("", ',') == [""];
  }

  /** An unset or empty subreddit variable yields one empty subreddit name,
      not an empty list. */
  lemma EmptySubReddits(env: Env, version: string)
    requires "REDDIT_SUBREDDITS" !in env || env["REDDIT_SUBREDDITS"] == ""
    requires LoadConfigFromEnv(env, version).Ok?
    ensures LoadConfigFromEnv(env, version).value.reddit.subReddits == [""]
  {
  }

  /** Variables the configuration does not read change nothing. */
  lemma OnlyItsVariables(env: Env, version: string, name: string, val: string)
    requires name !in EnvNames
    ensures LoadConfigFromEnv(env[name := val], version) == LoadConfigFromEnv(env, version)
  {
    var env' := env[name := val];
    forall n | n in EnvNames
      ensures (n in env' <==> n in env) && (n in env ==> env'[n] == env[n])
    {
    }
  }

  // ---------------------------------------------------------------------
  // Writing a configuration back as an environment

  /** A 64-bit integer in decimal, as `strconv.Itoa` writes it. */
  function IntText(n: int): (s: string)
    requires MinInt64 <= n <= MaxInt64
    ensures ParseDecimal(s) == Some(n)
  {
    ParseDecimalOfDecimalString(n);
    if n >= 0 then DecimalString(n) else "-" + DecimalString(-n)
  }

  function BoolText(b: bool): (s: string)
    ensures s != "" && (b <==> s == "1" || s == "true")
  {
    if b then "true" else "false"
  }

  /** A configuration the environment can express: numbers in 64 bits, the
      in-memory queue switched off, and subreddit names without commas. */
  predicate Expressible(c: Config) {
    && MinInt64 <= c.queue.memory.size <= MaxInt64
    && MinInt64 <= c.queue.nats.port <= MaxInt64
    && MinInt64 <= c.database.pg.port <= MaxInt64
    && MinInt64 <= c.httpServer.port <= MaxInt64
    && !c.queue.memory.enabled
    && |c.reddit.subReddits| >= 1
    && forall i :: 0 <= i < |c.reddit.subReddits| ==> ',' !in c.reddit.subReddits[i]
  }

  /** `name` is set to `val`. */
  predicate SetTo(env: Env, name: string, val: string) {
    name in env && env[name] == val
  }

  /** `env` sets the numeric and switch variables to the text of the
      fields of `c`. */
  predicate DescribesScalars(env: Env, c: Config)
    requires Expressible(c)
  {
    && SetTo(env, "QUEUE_LENGTH", IntText(c.queue.memory.size))
    && SetTo(env, "QUEUE_NATS_PORT", IntText(c.queue.nats.port))
    && SetTo(env, "DATABASE_PG_PORT", IntText(c.database.pg.port))
    && SetTo(env, "HTTP_SERVER_PORT", IntText(c.httpServer.port))
    && SetTo(env, "DATABASE_MEMORY_ENABLED", BoolText(c.database.memoryEnabled))
    && SetTo(env, "DATABASE_PG_ENABLED", BoolText(c.database.pg.enabled))
    && SetTo(env, "HTTP_SERVER_AUTH_DISABLED", BoolText(c.httpServer.basicAuthDisabled))
  }

  /** `env` sets the text variables to the fields of `c`. */
  predicate DescribesTexts(env: Env, c: Config) {
    && SetTo(env, "LOG_LEVEL", c.logLevel)
    && SetTo(env, "LOG_MODE", c.logMode)
    && SetTo(env, "MODE", c.mode)
    && SetTo(env, "REDDIT_AGENT", c.reddit.agent)
    && SetTo(env, "REDDIT_CLIENT_ID", c.reddit.clientId)
    && SetTo(env, "REDDIT_CLIENT_SECRET", c.reddit.clientSecret)
    && SetTo(env, "REDDIT_USERNAME", c.reddit.username)
    && SetTo(env, "REDDIT_PASSWORD", c.reddit.password)
    && SetTo(env, "REDDIT_SUBREDDITS", Join(c.reddit.subReddits, ','))
    && SetTo(env, "QUEUE_NATS_HOST", c.queue.nats.host)
    && SetTo(env, "QUEUE_NATS_USERNAME", c.queue.nats.username)
    && SetTo(env, "QUEUE_NATS_PASSWORD", c.queue.nats.password)
    && SetTo(env, "DATABASE_PG_HOST", c.database.pg.host)
    && SetTo(env, "DATABASE_PG_DATABASE", c.database.pg.database)
    && SetTo(env, "DATABASE_PG_USERNAME", c.database.pg.username)
    && SetTo(env, "DATABASE_PG_PASSWORD", c.database.pg.password)
    && SetTo(env, "DATA_XETRA_CSV", c.xetraCsv)
    && SetTo(env, "HTTP_SERVER_USERNAME", c.httpServer.username)
    && SetTo(env, "HTTP_SERVER_PASSWORD", c.httpServer.password)
  }

  /** A variable set to an integer's decimal text reads back as it. */
  lemma IntTextReads(env: Env, name: string, fallback: int, n: int)
    requires MinInt64 <= n <= MaxInt64
    requires SetTo(env, name, IntText(n))
    ensures FromEnvInt(env, name, fallback) == Ok(n)
  {
  }

  /** Every expressible configuration survives being written out and read
      back: any environment that sets each variable to the text of the
      matching field (numbers in decimal, switches as "true" or "false",
      subreddits joined with commas) yields exactly that configuration. */
  lemma ConfigRoundTrip(env: Env, c: Config)
    requires Expressible(c) && DescribesScalars(env, c) && DescribesTexts(env, c)
    ensures LoadConfigFromEnv(env, c.version) == Ok(c)
  {
    IntTextReads(env, "QUEUE_LENGTH", 20, c.queue.memory.size);
    IntTextReads(env, "QUEUE_NATS_PORT", 4222, c.queue.nats.port);
    IntTextReads(env, "DATABASE_PG_PORT", 5432, c.database.pg.port);
    IntTextReads(env, "HTTP_SERVER_PORT", 3000, c.httpServer.port);
    SplitJoin(c.reddit.subReddits, ',');
  }
}

=== FILE: domain.dfy ===
/** The bot's records, enumeration codes and bus messages. The enumerations
    stay Go `int` codes, as in the original structs, so a code outside the
    named ones is representable and falls through to the defaults. */
module Domain {
  import opened Results

  // Security.Type codes
  const TypeUndefined: int := 0
  const TypeOption: int := 1
  const TypeFuture: int := 2
  const TypeBond: int := 3
  const TypeCommonStock: int := 4
  const TypeExchangeTradedFund: int := 5
  const TypeExchangeTradedCommodity: int := 6
  const TypeWarrant: int := 7
  const TypeExchangeTradedNote: int := 8

  // Security.WarrantType codes
  const WarrantTypeUndefined: int := 0
  const WarrantTypeCall: int := 1
  const WarrantTypePut: int := 2

  // Security.WarrantSubType codes
  const WarrantSubTypeUndefined: int := 0
  const WarrantSubTypeKnockout: int := 1
  const WarrantSubTypeOS: int := 2

  /** A reference-data record. `strike` is 0 when absent; `expire` is a
      time in unix seconds, `None` where Go has nil. */
  datatype Security = Security(
    name: string,
    isin: string,
    wkn: string,
    underlying: string,
    secType: int,
    warrantType: int,
    warrantSubType: int,
    strike: real,
    expire: Option<int>)

  /** A cached link; an empty `url` is allowed in the record itself. */
  datatype InfoLink = InfoLink(wkn: string, url: string)

  /** The errors a repository reports: the two sentinel "not found" errors
      and any other storage failure. */
  datatype RepoError = SecurityNotFound | InfoLinkNotFound | RepoFailure(reason: string)

  /** Bus message from the scanner to the security resolver. */
  datatype SecuritiesRequest = SecuritiesRequest(name: string, wkns: seq<string>)

  /** Bus message from the resolver to the link enricher. */
  datatype InfoLinksRequest = InfoLinksRequest(
    name: string,
    wkns: seq<string>,
    securities: map<string, Security>,
    responseErrors: map<string, string>)

  /** Bus message from the link enricher to the reply renderer. */
  datatype ReplyRequest = ReplyRequest(
    name: string,
    wkns: seq<string>,
    securities: map<string, Security>,
    infoLinks: map<string, InfoLink>)
}

=== FILE: infolinks.dfy ===
/** The link enricher: for every resolved security, a link to its page,
    read from the link cache or else fetched and cached. The URL fetch is a
    parameter (the onvista lookup is one instance); the cache is the
    in-memory link repository. */
module InfoLinks {
  import opened Results
  import opened Text
  import opened Domain
  import opened MemoryRepo
  import Onvista

  /** The external URL lookup for a security. */
  type UrlFetch = Security -> Result<string, string>

  /** What one enrichment does: its answer, whether it fetched, and the
      link it asks the cache to store. */
  datatype LinkOutcome = LinkOutcome(result: Result<InfoLink, string>, fetched: bool, store: Option<InfoLink>)

  /** Cache-aside for one security, given the cache's answer for its WKN. A
      hit is returned as is, without fetching; any cache error counts as a
      miss. After a miss, a failed fetch or an empty URL is an error (the
      latter wraps a nil error, which Go prints as `%!w(<nil>)`) and
      nothing is stored; otherwise the link `{WKN, URL}` is stored and
      returned (a failing store is only logged, so it changes nothing). */
  function FetchInfoLink(cached: Result<InfoLink, RepoError>, sec: Security, fetch: UrlFetch): (o: LinkOutcome)
    ensures cached.Ok? ==> o == LinkOutcome(Ok(cached.value), false, None)
    ensures cached.Err? ==> o.fetched
    ensures cached.Err? ==> (o.result.Ok? <==> fetch(sec).Ok? && fetch(sec).value != "")
    ensures o.store.Some? <==> o.fetched && o.result.Ok?
    ensures o.store.Some? ==> o.result == Ok(o.store.value) && o.store.value == InfoLink(sec.wkn, fetch(sec).value)
  {
    if cached.Ok? then LinkOutcome(Ok(cached.value), false, None)
    else match fetch(sec)
      case Err(e) => LinkOutcome(Err("could not fetch a link from onvista: " + e), true, None)
      case Ok(url) =>
        if url == "" then LinkOutcome(Err("url was empty from onvista: %!w(<nil>)"), true, None)
        else
          var il := InfoLink(sec.wkn, url);
          LinkOutcome(Ok(il), true, Some(il))
  }

  /** Every cached link sits under its own upper-cased WKN and has a URL. */
  predicate Consistent(repo: InfoLinkRepo) {
    forall k :: k in repo.entries ==> k == Upper(repo.entries[k].wkn) && repo.entries[k].url != ""
  }

  /** One enrichment against the in-memory cache: the outcome and the cache
      afterwards. */
  function FetchWithStore(repo: InfoLinkRepo, sec: Security, fetch: UrlFetch): (r: (LinkOutcome, InfoLinkRepo))
    ensures repo.entries.Keys <= r.1.entries.Keys <= repo.entries.Keys + {Upper(sec.wkn)}
    ensures Consistent(repo) ==> Consistent(r.1)
    ensures Consistent(repo) && r.0.result.Ok? ==>
      Upper(r.0.result.value.wkn) == Upper(sec.wkn) && r.0.result.value.url != ""
    ensures r.0.result.Ok? ==> Upper(sec.wkn) in r.1.entries
    ensures r.0.fetched <==> Upper(sec.wkn) !in repo.entries
  {
    var o := FetchInfoLink(GetInfoLink(repo, sec.wkn), sec, fetch);
    var next := if o.store.Some? then AddInfoLink(repo, o.store.value) else repo;
    (o, next)
  }

  /** After a successful enrichment the link is cached: asking again, with
      the same WKN in any letter case, is a hit that fetches nothing and
      returns the same link. */
  lemma SecondLookupHits(repo: InfoLinkRepo, sec: Security, again: Security, fetch: UrlFetch)
    requires Upper(again.wkn) == Upper(sec.wkn)
    ensures var (o1, r1) := FetchWithStore(repo, sec, fetch);
      o1.result.Ok? ==> FetchWithStore(r1, again, fetch) == (LinkOutcome(o1.result, false, None), r1)
  {
    var (o1, r1) := FetchWithStore(repo, sec, fetch);
    if o1.result.Ok? {
      if o1.store.Some? {
        GetAfterAddInfoLink(repo, o1.store.value, again.wkn);
      } else {
        LookupCaseInsensitive(repo, sec.wkn, again.wkn);
      }
    }
  }

  /** With the onvista lookup as the fetch, the empty-URL branch never
      fires: after a miss, enrichment fails exactly when the lookup does. */
  lemma OnvistaFetchNeverEmpty(cached: Result<InfoLink, RepoError>, sec: Security,
                               exchange: string -> Result<Onvista.HttpResponse, string>)
    requires cached.Err?
    ensures var fetch := (s: Security) => Onvista.FetchUrl(s, exchange);
      FetchInfoLink(cached, sec, fetch).result.Ok? <==> Onvista.FetchUrl(sec, exchange).Ok?
  {
  }

  // ---------------------------------------------------------------------
  // The handler loop

  /** The links found, the cache afterwards, and the number of fetches. */
  datatype Enriched = Enriched(links: map<string, InfoLink>, repo: InfoLinkRepo, fetches: nat)

  /** No key twice. */
  predicate Distinct(order: seq<string>) {
    forall i, j :: 0 <= i < j < |order| ==> order[i] != order[j]
  }

  /** The loop over the resolved securities in `order` (the map's iteration
      order, which the runtime leaves open); a failed enrichment skips its
      key. */
  function EnrichAll(repo: InfoLinkRepo, secs: map<string, Security>, order: seq<string>, fetch: UrlFetch): (r: Enriched)
    requires forall i :: 0 <= i < |order| ==> order[i] in secs
    ensures forall k :: k in r.links ==> k in order
    ensures repo.entries.Keys <= r.repo.entries.Keys
    ensures r.fetches <= |order|
    ensures Consistent(repo) ==> Consistent(r.repo)
    decreases |order|
  {
    if |order| == 0 then Enriched(map[], repo, 0)
    else
      var k := order[0];
      var (o, next) := FetchWithStore(repo, secs[k], fetch);
      var rest := EnrichAll(next, secs, order[1..], fetch);
      var links := if o.result.Ok? then rest.links[k := o.result.value] else rest.links;
      Enriched(links, rest.repo, rest.fetches + (if o.fetched then 1 else 0))
  }

  /** Against a consistent cache, every link found belongs to its security:
      same WKN up to letter case, and a URL. */
  lemma {:induction false} EnrichedLinksMatch(repo: InfoLinkRepo, secs: map<string, Security>,
                                              order: seq<string>, fetch: UrlFetch)
    requires forall i :: 0 <= i < |order| ==> order[i] in secs
    requires Consistent(repo)
    ensures var r := EnrichAll(repo, secs, order, fetch);
      forall k :: k in r.links ==> Upper(r.links[k].wkn) == Upper(secs[k].wkn) && r.links[k].url != ""
    decreases |order|
  {
    if |order| > 0 {
      var (o, next) := FetchWithStore(repo, secs[order[0]], fetch);
      EnrichedLinksMatch(next, secs, order[1..], fetch);
    }
  }

  /** A key misses from the result only if its WKN was not cached and its
      fetch failed or came back empty. */
  lemma {:induction false} EnrichCompleteness(repo: InfoLinkRepo, secs: map<string, Security>,
                                              order: seq<string>, fetch: UrlFetch, k: string)
    requires forall i :: 0 <= i < |order| ==> order[i] in secs
    requires k in order
    requires Upper(secs[k].wkn) in repo.entries || (fetch(secs[k]).Ok? && fetch(secs[k]).value != "")
    ensures k in EnrichAll(repo, secs, order, fetch).links
    decreases |order|
  {
    var (o, next) := FetchWithStore(repo, secs[order[0]], fetch);
    if order[0] != k {
      EnrichCompleteness(next, secs, order[1..], fetch, k);
    }
  }

  /** No two securities in `order` share a WKN up to letter case, so no
      enrichment reads what an earlier one stored. */
  predicate DistinctWkns(secs: map<string, Security>, order: seq<string>)
    requires forall i :: 0 <= i < |order| ==> order[i] in secs
  {
    forall i, j :: 0 <= i < j < |order| ==> Upper(secs[order[i]].wkn) != Upper(secs[order[j]].wkn)
  }

  /** With distinct WKNs, a key is in the result exactly when its WKN was
      cached or its fetch gave a URL: the loop drops exactly the
      securities whose enrichment failed. */
  lemma {:induction false} EnrichExact(repo: InfoLinkRepo, secs: map<string, Security>,
                                       order: seq<string>, fetch: UrlFetch, k: string)
    requires forall i :: 0 <= i < |order| ==> order[i] in secs
    requires DistinctWkns(secs, order)
    requires k in order
    ensures k in EnrichAll(repo, secs, order, fetch).links <==>
      Upper(secs[k].wkn) in repo.entries || (fetch(secs[k]).Ok? && fetch(secs[k]).value != "")
    decreases |order|
  {
    var (o, next) := FetchWithStore(repo, secs[order[0]], fetch);
    var rest := EnrichAll(next, secs, order[1..], fetch);
    if order[0] == k {
      assert k !in order[1..] by {
        forall j | 1 <= j < |order| ensures order[j] != k {
          assert Upper(secs[order[0]].wkn) != Upper(secs[order[j]].wkn);
        }
      }
      assert k !in rest.links;
    } else {
      assert DistinctWkns(secs, order[1..]) by {
        forall i, j | 0 <= i < j < |order| - 1
          ensures Upper(secs[order[1..][i]].wkn) != Upper(secs[order[1..][j]].wkn)
        {
          assert order[1..][i] == order[i + 1] && order[1..][j] == order[j + 1];
        }
      }
      var m :| 1 <= m < |order| && order[m] == k;
      assert Upper(secs[order[0]].wkn) != Upper(secs[k].wkn);
      assert k in order[1..] by { assert order[1..][m - 1] == k; }
      EnrichExact(next, secs, order[1..], fetch, k);
    }
  }

  /** When every WKN is already cached, nothing is fetched. */
  lemma {:induction false} AllCachedNoFetch(repo: InfoLinkRepo, secs: map<string, Security>,
                                            order: seq<string>, fetch: UrlFetch)
    requires forall i :: 0 <= i < |order| ==> order[i] in secs
    requires forall i :: 0 <= i < |order| ==> Upper(secs[order[i]].wkn) in repo.entries
    ensures EnrichAll(repo, secs, order, fetch).fetches == 0
    decreases |order|
  {
    if |order| > 0 {
      var (o, next) := FetchWithStore(repo, secs[order[0]], fetch);
      AllCachedNoFetch(next, secs, order[1..], fetch);
    }
  }

  /** The handler: the reply request carries the name, the WKN list and the
      securities through unchanged, and a link for each security whose
      enrichment succeeded. */
  function Handle(repo: InfoLinkRepo, req: InfoLinksRequest, order: seq<string>, fetch: UrlFetch)
    : (out: (ReplyRequest, InfoLinkRepo))
    requires forall i :: 0 <= i < |order| ==> order[i] in req.securities
    requires forall k :: k in req.securities ==> k in order
    requires Distinct(order)
    ensures out.0.name == req.name && out.0.wkns == req.wkns && out.0.securities == req.securities
    ensures out.0.infoLinks.Keys <= req.securities.Keys
    ensures forall k :: k in req.securities && fetch(req.securities[k]).Ok? && fetch(req.securities[k]).value != "" ==>
      k in out.0.infoLinks
    ensures DistinctWkns(req.securities, order) ==>
      forall k :: k in req.securities ==>
        (k in out.0.infoLinks <==>
         Upper(req.securities[k].wkn) in repo.entries || (fetch(req.securities[k]).Ok? && fetch(req.securities[k]).value != ""))
  {
    var r := EnrichAll(repo, req.securities, order, fetch);
    forall k | DistinctWkns(req.securities, order) && k in req.securities
      ensures k in r.links <==>
        Upper(req.securities[k].wkn) in repo.entries || (fetch(req.securities[k]).Ok? && fetch(req.securities[k]).value != "")
    {
      EnrichExact(repo, req.securities, order, fetch, k);
    }
    forall k | k in req.securities && fetch(req.securities[k]).Ok? && fetch(req.securities[k]).value != ""
      ensures k in r.links
    {
      EnrichCompleteness(repo, req.securities, order, fetch, k);
    }
    (ReplyRequest(req.name, req.wkns, req.securities, r.links), r.repo)
  }
}

=== FILE: instrumenting.dfy ===
/** The data-update health status. Times are nanoseconds counted from Go's
    zero time (January 1, year 1, UTC), so the zero `time.Time` is 0 and a
    present-day clock reading is far beyond the `int64` nanosecond range. */
module Instrumenting {
  import opened Text

  const Hour: int := 3_600_000_000_000

  /** The freshness window: a status at most this old is healthy. */
  const TwoHours: int := 2 * Hour

  const ZeroTime: int := 0

  datatype DataUpdateStatus = DataUpdateStatus(lastUpdated: int)

  /** The time elapsed since `t`, as a duration: the difference clamped to
      the `int64` range, as Go's time subtraction does on overflow. */
  function Since(now: int, t: int): (d: int)
    ensures MinInt64 <= d <= MaxInt64
    ensures MinInt64 <= now - t <= MaxInt64 ==> d == now - t
    ensures now - t > MaxInt64 ==> d == MaxInt64
    ensures now - t < MinInt64 ==> d == MinInt64
    ensures d <= now - t <==> now - t >= MinInt64
  {
    var diff := now - t;
    if diff > MaxInt64 then MaxInt64
    else if diff < MinInt64 then MinInt64
    else diff
  }

  /** Healthy when the last update is at most two hours old, the boundary
      included. The clamping of the elapsed time never changes the answer. */
  function Healthy(status: DataUpdateStatus, now: int): (ok: bool)
    ensures ok <==> now - status.lastUpdated <= TwoHours
  {
    Since(now, status.lastUpdated) <= TwoHours
  }

  /** The process-wide holder of the current status. */
  datatype StatusHolder = StatusHolder(current: DataUpdateStatus)

  /** The holder as the process starts: a zero status. */
  const InitialHolder: StatusHolder := StatusHolder(DataUpdateStatus(ZeroTime))

  /** Replaces the held status wholesale. */
  function SetDataUpdateStatus(holder: StatusHolder, status: DataUpdateStatus): (h: StatusHolder)
    ensures GetDataUpdateStatus(h) == status
  {
    StatusHolder(status)
  }

  /** Returns the held status; the holder keeps nothing else. */
  function GetDataUpdateStatus(holder: StatusHolder): (s: DataUpdateStatus)
    ensures StatusHolder(s) == holder
  {
    holder.current
  }

  /** Setting the status just read leaves the holder as it was. */
  lemma SetWhatWasRead(holder: StatusHolder)
    ensures SetDataUpdateStatus(holder, GetDataUpdateStatus(holder)) == holder
  {
  }

  /** The status read is always the last one set; nothing of the earlier
      ones survives. */
  lemma {:induction false} GetReturnsLastSet(holder: StatusHolder, sets: seq<DataUpdateStatus>)
    requires |sets| > 0
    ensures GetDataUpdateStatus(SetAll(holder, sets)) == sets[|sets| - 1]
    decreases |sets|
  {
    if |sets| > 1 {
      GetReturnsLastSet(SetDataUpdateStatus(holder, sets[0]), sets[1..]);
    }
  }

  function SetAll(holder: StatusHolder, sets: seq<DataUpdateStatus>): StatusHolder
    decreases |sets|
  {
    if |sets| == 0 then holder else SetAll(SetDataUpdateStatus(holder, sets[0]), sets[1..])
  }

  /** Before any update the health check fails once more than two hours
      have passed since the zero time, which is every real clock reading. */
  lemma InitialStale(now: int)
    requires now > TwoHours
    ensures !Healthy(GetDataUpdateStatus(InitialHolder), now)
  {
  }

  /** A status set at `start` is healthy for exactly two hours after it. */
  lemma FreshForTwoHours(start: int, now: int)
    ensures Healthy(GetDataUpdateStatus(SetDataUpdateStatus(InitialHolder, DataUpdateStatus(start))), now)
        <==> now <= start + TwoHours
  {
  }
}

=== FILE: memory.dfy ===
/** The in-memory repositories: securities and info links, each a map keyed
    by the upper-cased WKN. Neither ever reports a storage failure; the
    lock around each map is left out, since every operation here is atomic. */
module MemoryRepo {
  import opened Results
  import opened Text
  import opened Domain

  /** A map whose keys are upper-cased WKNs. */
  datatype Store<T> = Store(entries: map<string, T>)

  function EmptyStore<T>(): (s: Store<T>)
    ensures s.entries == map[]
  {
    Store(map[])
  }

  /** Every key is already upper-case. */
  predicate WellKeyed<T>(s: Store<T>) {
    forall k :: k in s.entries ==> NoLower(k)
  }

  /** Stores `v` under the upper-cased `wkn`, replacing what was there. */
  function Put<T>(s: Store<T>, wkn: string, v: T): (r: Store<T>)
    ensures r.entries.Keys == s.entries.Keys + {Upper(wkn)}
    ensures forall k :: k in s.entries && k != Upper(wkn) ==> r.entries[k] == s.entries[k]
    ensures WellKeyed(s) ==> WellKeyed(r)
  {
    UpperNoLower(wkn);
    Store(s.entries[Upper(wkn) := v])
  }

  /** The entry for `wkn` in any letter case. */
  function Lookup<T>(s: Store<T>, wkn: string): (r: Option<T>)
    ensures r.Some? <==> Upper(wkn) in s.entries
  {
    if Upper(wkn) in s.entries then Some(s.entries[Upper(wkn)]) else None
  }

  /** Reading after a write: the written value for every spelling of its
      WKN, the old answer for every other WKN. */
  lemma LookupAfterPut<T>(s: Store<T>, wkn: string, v: T, x: string)
    ensures Lookup(Put(s, wkn, v), x) == if Upper(x) == Upper(wkn) then Some(v) else Lookup(s, x)
  {
  }

  /** Every spelling of a stored WKN finds the same entry. */
  lemma LookupCaseInsensitive<T>(s: Store<T>, x: string, y: string)
    requires Upper(x) == Upper(y)
    ensures Lookup(s, x) == Lookup(s, y)
  {
  }

  // ---------------------------------------------------------------------
  // Securities

  type SecurityRepo = Store<Security>

  /** Keyed by WKN only; the ISIN plays no part. Never fails. */
  function AddSecurity(repo: SecurityRepo, sec: Security): (r: SecurityRepo)
    ensures r.entries.Keys == repo.entries.Keys + {Upper(sec.wkn)}
    ensures r.entries[Upper(sec.wkn)] == sec
  {
    Put(repo, sec.wkn, sec)
  }

  /** The record stored under `wkn` in any letter case, or the not-found
      sentinel; no other error is possible. */
  function GetSecurity(repo: SecurityRepo, wkn: string): (r: Result<Security, RepoError>)
    ensures r.Ok? <==> Upper(wkn) in repo.entries
    ensures r.Ok? ==> r.value == repo.entries[Upper(wkn)]
    ensures r.Err? ==> r.error == SecurityNotFound
  {
    match Lookup(repo, wkn)
    case Some(sec) => Ok(sec)
    case None => Err(SecurityNotFound)
  }

  /** Reading a security after adding one. */
  lemma GetAfterAddSecurity(repo: SecurityRepo, sec: Security, x: string)
    ensures GetSecurity(AddSecurity(repo, sec), x)
         == if Upper(x) == Upper(sec.wkn) then Ok(sec) else GetSecurity(repo, x)
  {
    LookupAfterPut(repo, sec.wkn, sec, x);
  }

  /** One `Add` after another, in list order. */
  function AddAll(repo: SecurityRepo, secs: seq<Security>): SecurityRepo
    decreases |secs|
  {
    if |secs| == 0 then repo else AddSecurity(AddAll(repo, secs[..|secs| - 1]), secs[|secs| - 1])
  }

  /** The bulk insert: every record of the list is stored in list order, so
      it equals one `Add` per record. */
  method AddBulk(repo: SecurityRepo, secs: seq<Security>) returns (r: SecurityRepo)
    ensures r == AddAll(repo, secs)
  {
    r := repo;
    var i := 0;
    while i < |secs|
      invariant 0 <= i <= |secs|
      invariant r == AddAll(repo, secs[..i])
    {
      assert secs[..i + 1][..i] == secs[..i];
      r := AddSecurity(r, secs[i]);
      i := i + 1;
    }
    assert secs[..i] == secs;
  }

  /** The outcome of a bulk insert, position by position: the last record
      of the list with a matching WKN wins. */
  lemma {:induction false} AddAllLastWriter(repo: SecurityRepo, secs: seq<Security>, x: string)
    ensures forall i :: 0 <= i < |secs| && Upper(secs[i].wkn) == Upper(x)
                        && (forall j :: i < j < |secs| ==> Upper(secs[j].wkn) != Upper(x))
                        ==> GetSecurity(AddAll(repo, secs), x) == Ok(secs[i])
    decreases |secs|
  {
    if |secs| > 0 {
      var n := |secs| - 1;
      var init := secs[..n];
      AddAllLastWriter(repo, init, x);
      GetAfterAddSecurity(AddAll(repo, init), secs[n], x);
      forall i | 0 <= i < |secs| && Upper(secs[i].wkn) == Upper(x)
                 && (forall j :: i < j < |secs| ==> Upper(secs[j].wkn) != Upper(x))
        ensures GetSecurity(AddAll(repo, secs), x) == Ok(secs[i])
      {
        if i < n {
          assert init[i] == secs[i];
          forall j | i < j < |init|
            ensures Upper(init[j].wkn) != Upper(x)
          {
            assert init[j] == secs[j];
          }
        }
      }
    }
  }

  /** A WKN not in the list keeps its old answer after a bulk insert. */
  lemma {:induction false} AddAllUntouched(repo: SecurityRepo, secs: seq<Security>, x: string)
    requires forall i :: 0 <= i < |secs| ==> Upper(secs[i].wkn) != Upper(x)
    ensures GetSecurity(AddAll(repo, secs), x) == GetSecurity(repo, x)
    decreases |secs|
  {
    if |secs| > 0 {
      var n := |secs| - 1;
      var init := secs[..n];
      forall i | 0 <= i < |init|
        ensures Upper(init[i].wkn) != Upper(x)
      {
        assert init[i] == secs[i];
      }
      AddAllUntouched(repo, init, x);
      GetAfterAddSecurity(AddAll(repo, init), secs[n], x);
    }
  }

  /** Keys stay upper-case whatever is added. */
  lemma {:induction false} AddAllWellKeyed(repo: SecurityRepo, secs: seq<Security>)
    requires WellKeyed(repo)
    ensures WellKeyed(AddAll(repo, secs))
    decreases |secs|
  {
    if |secs| > 0 {
      AddAllWellKeyed(repo, secs[..|secs| - 1]);
    }
  }

  // ---------------------------------------------------------------------
  // Info links

  type InfoLinkRepo = Store<InfoLink>

  /** Keyed by the upper-cased WKN of the link. Never fails. */
  function AddInfoLink(repo: InfoLinkRepo, il: InfoLink): (r: InfoLinkRepo)
    ensures r.entries.Keys == repo.entries.Keys + {Upper(il.wkn)}
    ensures r.entries[Upper(il.wkn)] == il
  {
    Put(repo, il.wkn, il)
  }

  /** The link stored under `wkn` in any letter case, or the link
      not-found sentinel. */
  function GetInfoLink(repo: InfoLinkRepo, wkn: string): (r: Result<InfoLink, RepoError>)
    ensures r.Ok? <==> Upper(wkn) in repo.entries
    ensures r.Ok? ==> r.value == repo.entries[Upper(wkn)]
    ensures r.Err? ==> r.error == InfoLinkNotFound
  {
    match Lookup(repo, wkn)
    case Some(il) => Ok(il)
    case None => Err(InfoLinkNotFound)
  }

  /** Reading a link after adding one. */
  lemma GetAfterAddInfoLink(repo: InfoLinkRepo, il: InfoLink, x: string)
    ensures GetInfoLink(AddInfoLink(repo, il), x)
         == if Upper(x) == Upper(il.wkn) then Ok(il) else GetInfoLink(repo, x)
  {
    LookupAfterPut(repo, il.wkn, il, x);
  }
}

=== FILE: onvista.dfy ===
/** The link lookup at onvista.de: the request URL is chosen from the
    security type and ISIN; the answer is the redirect target or, failing
    that, the URL the client finally requested. The HTTP exchange itself is
    a parameter. */
module Onvista {
  import opened Results
  import opened Text
  import opened Domain

  const BaseUrl: string := "https://www.onvista.de"
  const BaseUrlCommonStock: string := BaseUrl + "/aktien/"
  const BaseUrlWarrant: string := BaseUrl + "/derivate/snapshot"
  const BaseUrlEtf: string := BaseUrl + "/fonds/snapshot"
  const BaseUrlDefault: string := BaseUrl + "/"

  /** Stocks, warrants and notes, funds, and everything else each have
      their own page family. */
  function UrlTemplate(secType: int): (t: string)
    ensures t == BaseUrlCommonStock <==> secType == TypeCommonStock
    ensures t == BaseUrlWarrant <==> secType == TypeWarrant || secType == TypeExchangeTradedNote
    ensures t == BaseUrlEtf <==> secType == TypeExchangeTradedFund
    ensures t == BaseUrlDefault <==>
      secType !in {TypeCommonStock, TypeWarrant, TypeExchangeTradedNote, TypeExchangeTradedFund}
  {
    if secType == TypeCommonStock then BaseUrlCommonStock
    else if secType == TypeWarrant || secType == TypeExchangeTradedNote then BaseUrlWarrant
    else if secType == TypeExchangeTradedFund then BaseUrlEtf
    else BaseUrlDefault
  }

  /** The template, a slash, and the upper-cased ISIN. */
  function RequestUrl(sec: Security): (u: string)
    ensures |u| == |UrlTemplate(sec.secType)| + 1 + |sec.isin|
    ensures u[..|UrlTemplate(sec.secType)|] == UrlTemplate(sec.secType)
  {
    UrlTemplate(sec.secType) + "/" + Upper(sec.isin)
  }

  /** The ISIN's letter case does not matter, and for an ISIN without a
      slash the last path segment is the upper-cased ISIN. */
  lemma RequestUrlIsin(sec: Security, other: Security)
    requires '/' !in sec.isin
    requires other.secType == sec.secType && Upper(other.isin) == Upper(sec.isin)
    ensures RequestUrl(other) == RequestUrl(sec)
    ensures var parts := Split(RequestUrl(sec), '/'); parts[|parts| - 1] == Upper(sec.isin)
  {
    var t := UrlTemplate(sec.secType);
    var isin := Upper(sec.isin);
    assert '/' !in isin by {
      forall i | 0 <= i < |isin|
        ensures isin[i] != '/'
      {
        assert sec.isin[i] in sec.isin;
      }
    }
    assert RequestUrl(sec) == t + ['/'] + isin;
    SplitAround(t, isin, '/');
    SplitNoSep(isin, '/');
  }

  /** Stock and default URLs carry a doubled slash after the page family. */
  lemma DoubledSlash(sec: Security)
    requires sec.secType !in {TypeWarrant, TypeExchangeTradedNote, TypeExchangeTradedFund}
    ensures sec.secType == TypeCommonStock ==>
      RequestUrl(sec) == BaseUrl + "/aktien//" + Upper(sec.isin)
    ensures sec.secType != TypeCommonStock ==>
      RequestUrl(sec) == BaseUrl + "//" + Upper(sec.isin)
  {
  }

  /** What the client learns from a finished exchange: the Location header
      (empty when absent) and the URL of the request that produced the
      final response, when the response records one. */
  datatype HttpResponse = HttpResponse(location: string, finalUrl: Option<string>)

  /** The redirect target wins; otherwise the final request URL; an answer
      without either is an error. The result is never empty. */
  function ChooseUrl(resp: HttpResponse): (r: Result<string, string>)
    ensures resp.location != "" ==> r == Ok(resp.location)
    ensures resp.location == "" && resp.finalUrl.Some? ==>
      r == (if resp.finalUrl.value != "" then Ok(resp.finalUrl.value) else Err("could not guess an URL"))
    ensures r.Err? <==> resp.location == "" && (resp.finalUrl.None? || resp.finalUrl.value == "")
    ensures r.Ok? ==> r.value != ""
  {
    var loc := if resp.location == "" && resp.finalUrl.Some? then resp.finalUrl.value else resp.location;
    if loc == "" then Err("could not guess an URL") else Ok(loc)
  }

  /** The whole lookup. `exchange` performs the GET on a URL (redirects
      followed) and either fails or answers. */
  function FetchUrl(sec: Security, exchange: string -> Result<HttpResponse, string>): (r: Result<string, string>)
    ensures exchange(RequestUrl(sec)).Err? ==> r == Err(exchange(RequestUrl(sec)).error)
    ensures exchange(RequestUrl(sec)).Ok? ==> r == ChooseUrl(exchange(RequestUrl(sec)).value)
    ensures r.Ok? ==> r.value != ""
  {
    match exchange(RequestUrl(sec))
    case Err(e) => Err(e)
    case Ok(resp) => ChooseUrl(resp)
  }
}

=== FILE: pg.dfy ===
/** The pure parts of the Postgres repositories: the conversion between the
    domain record and the table row, the text and bound values of the bulk
    insert, and the WKN spelling each statement stores and queries. Running
    the statements is outside the model. */
module PgRepo {
  import opened Results
  import opened Text
  import opened Domain

  /** A nullable timestamp column value. */
  datatype NullTime = NullTime(time: int, valid: bool)

  const NullTimeNull: NullTime := NullTime(0, false)

  /** A row of the securities table. Timestamps are in the same unit as
      `Security.expire`; 0 stands for an unset timestamp. */
  datatype DbSecurity = DbSecurity(
    id: int,
    name: string,
    isin: string,
    wkn: string,
    underlying: string,
    secType: int,
    warrantType: int,
    warrantSubType: int,
    updatedAt: int,
    createdAt: int,
    strike: real,
    expire: NullTime)

  /** Back from a row: an invalid expiry becomes an absent one. */
  function FromDbSec(row: DbSecurity): (sec: Security)
    ensures sec.expire.None? <==> !row.expire.valid
    ensures sec.expire.Some? ==> sec.expire.value == row.expire.time
    ensures sec.name == row.name && sec.isin == row.isin && sec.wkn == row.wkn
  {
    Security(
      name := row.name,
      isin := row.isin,
      wkn := row.wkn,
      underlying := row.underlying,
      secType := row.secType,
      warrantType := row.warrantType,
      warrantSubType := row.warrantSubType,
      strike := row.strike,
      expire := if row.expire.valid then Some(row.expire.time) else None)
  }

  /** A new row for a record: id 0 (the database assigns one), zero
      timestamps, the expiry valid exactly when the record has one. Reading
      the row back gives the record unchanged. */
  function ToDbSec(sec: Security): (row: DbSecurity)
    ensures row.id == 0 && row.updatedAt == 0 && row.createdAt == 0
    ensures row.expire.valid <==> sec.expire.Some?
    ensures !row.expire.valid ==> row.expire == NullTimeNull
    ensures FromDbSec(row) == sec
  {
    DbSecurity(
      id := 0,
      name := sec.name,
      isin := sec.isin,
      wkn := sec.wkn,
      underlying := sec.underlying,
      secType := sec.secType,
      warrantType := sec.warrantType,
      warrantSubType := sec.warrantSubType,
      updatedAt := 0,
      createdAt := 0,
      strike := sec.strike,
      expire := if sec.expire.Some? then NullTime(sec.expire.value, true) else NullTimeNull)
  }

  /** The other direction: a row that could have come from `ToDbSec` is
      rebuilt exactly. */
  lemma RowRoundTrip(row: DbSecurity)
    requires row.id == 0 && row.updatedAt == 0 && row.createdAt == 0
    requires !row.expire.valid ==> row.expire == NullTimeNull
    ensures ToDbSec(FromDbSec(row)) == row
  {
  }

  // ---------------------------------------------------------------------
  // Bulk insert

  /** The column list of the bulk insert. */
  const InsertColumns: seq<string> :=
    ["id", "name", "isin", "wkn", "underlying", "type", "warrant_type",
     "warrant_sub_type", "strike", "expire", "updated_at", "created_at"]

  /** The columns that receive a bound value: all but `id`. */
  const ValueColumns: seq<string> := InsertColumns[1..]

  /** A bound parameter value. The expiry is bound as a nullable time. */
  datatype SqlValue = SqlText(text: string) | SqlInt(n: int) | SqlReal(r: real) | SqlTime(t: Option<int>)

  /** The value a record contributes to a column, looked up by the column's
      name; `now` fills both timestamps. */
  function ColumnValue(sec: Security, column: string, now: int): (v: SqlValue)
    requires column in ValueColumns
    ensures column == "expire" ==> v == SqlTime(sec.expire)
    ensures column == "updated_at" || column == "created_at" ==> v == SqlTime(Some(now))
  {
    if column == "name" then SqlText(sec.name)
    else if column == "isin" then SqlText(sec.isin)
    else if column == "wkn" then SqlText(sec.wkn)
    else if column == "underlying" then SqlText(sec.underlying)
    else if column == "type" then SqlInt(sec.secType)
    else if column == "warrant_type" then SqlInt(sec.warrantType)
    else if column == "warrant_sub_type" then SqlInt(sec.warrantSubType)
    else if column == "strike" then SqlReal(sec.strike)
    else if column == "expire" then SqlTime(sec.expire)
    else SqlTime(Some(now))
  }

  /** The eleven values of one record, in the order they are appended. */
  function RowValues(sec: Security, now: int): (vs: seq<SqlValue>)
    ensures |vs| == |ValueColumns|
    ensures forall j :: 0 <= j < |vs| ==> vs[j] == ColumnValue(sec, ValueColumns[j], now)
  {
    [SqlText(sec.name), SqlText(sec.isin), SqlText(sec.wkn), SqlText(sec.underlying),
     SqlInt(sec.secType), SqlInt(sec.warrantType), SqlInt(sec.warrantSubType),
     SqlReal(sec.strike), SqlTime(sec.expire), SqlTime(Some(now)), SqlTime(Some(now))]
  }

  /** One entry of a VALUES tuple. */
  datatype Cell = DefaultCell | Param(n: nat)

  /** The tuple of a row whose first parameter is `first`: DEFAULT for the
      id, then eleven consecutive parameters. */
  function RowCells(first: nat): (cells: seq<Cell>)
    ensures |cells| == |InsertColumns| && cells[0] == DefaultCell
  {
    [DefaultCell] + seq(11, j requires 0 <= j < 11 => Param(first + j))
  }

  function RenderCell(c: Cell): (s: string)
    ensures ',' !in s && s != [] && !IsSpace(s[0]) && !IsSpace(s[|s| - 1])
  {
    match c
    case DefaultCell => "DEFAULT"
    case Param(n) =>
      var d := DecimalString(n);
      assert !IsSpace(d[|d| - 1]) by { assert IsDigit(d[|d| - 1]); }
      assert forall i :: 0 <= i < |d| ==> d[i] != ',';
      "$" + d
  }

  /** The pieces of a tuple between its commas: the first cell as is,
      every other one after a space. */
  function CellTexts(cells: seq<Cell>): (parts: seq<string>)
    ensures |parts| == |cells|
    ensures forall i :: 0 <= i < |parts| ==> parts[i] == (if i == 0 then "" else " ") + RenderCell(cells[i])
  {
    seq(|cells|, i requires 0 <= i < |cells| => (if i == 0 then "" else " ") + RenderCell(cells[i]))
  }

  /** The tuple text, as in `(DEFAULT, $1, $2)`. */
  function RenderRow(cells: seq<Cell>): string {
    "(" + Join(CellTexts(cells), ',') + ")"
  }

  /** Reads a cell back. */
  function ParseCell(s: string): (c: Option<Cell>)
  {
    if s == "DEFAULT" then Some(DefaultCell)
    else if |s| >= 2 && s[0] == '$' && AllDigits(s[1..]) then Some(Param(DigitsValue(s[1..])))
    else None
  }

  function ParseCells(parts: seq<string>): Option<seq<Cell>>
    decreases |parts|
  {
    if |parts| == 0 then Some([])
    else match (ParseCell(TrimSpace(parts[0])), ParseCells(parts[1..]))
      case (Some(c), Some(cs)) => Some([c] + cs)
      case _ => None
  }

  /** Reads a tuple text back: parentheses around comma-separated cells. */
  function ParseRow(s: string): Option<seq<Cell>> {
    if |s| >= 2 && s[0] == '(' && s[|s| - 1] == ')' then ParseCells(Split(s[1..|s| - 1], ','))
    else None
  }

  lemma ParseRenderCell(c: Cell, prefix: string)
    requires prefix == "" || prefix == " "
    ensures ParseCell(TrimSpace(prefix + RenderCell(c))) == Some(c)
  {
    TrimPrefix(prefix, RenderCell(c));
    ParseCellOfRender(c);
  }

  /** A cell's text reads back as the cell. */
  lemma ParseCellOfRender(c: Cell)
    ensures ParseCell(RenderCell(c)) == Some(c)
  {
    if c.Param? {
      var s := RenderCell(c);
      DigitsValueOfDecimalString(c.n);
      assert s[1..] == DecimalString(c.n);
    }
  }

  /** Trimming drops the separator space in front of a cell. */
  lemma TrimPrefix(prefix: string, s: string)
    requires prefix == "" || prefix == " "
    requires s != [] && !IsSpace(s[0]) && !IsSpace(s[|s| - 1])
    ensures TrimSpace(prefix + s) == s
  {
    if prefix == " " {
      assert (prefix + s)[1..] == s;
      assert TrimLeft(prefix + s) == TrimLeft(s);
    } else {
      assert prefix + s == s;
    }
    TrimSpaceNoop(s);
  }

  /** A piece of a tuple text: the rendered cell, with or without the space
      that follows a comma. */
  predicate RendersAs(part: string, c: Cell) {
    part == RenderCell(c) || part == " " + RenderCell(c)
  }

  lemma {:induction false} ParseCellTexts(cells: seq<Cell>, parts: seq<string>)
    requires |parts| == |cells|
    requires forall i :: 0 <= i < |parts| ==> RendersAs(parts[i], cells[i])
    ensures ParseCells(parts) == Some(cells)
    decreases |parts|
  {
    if |parts| > 0 {
      forall i | 0 <= i < |parts[1..]|
        ensures RendersAs(parts[1..][i], cells[1..][i])
      {
        assert parts[1..][i] == parts[i + 1] && cells[1..][i] == cells[i + 1];
      }
      ParseCellTexts(cells[1..], parts[1..]);
      ParseCellsStep(cells, parts);
    }
  }

  /** One more piece in front of pieces that read back. */
  lemma ParseCellsStep(cells: seq<Cell>, parts: seq<string>)
    requires |parts| == |cells| > 0 && RendersAs(parts[0], cells[0])
    requires ParseCells(parts[1..]) == Some(cells[1..])
    ensures ParseCells(parts) == Some(cells)
  {
    if parts[0] == RenderCell(cells[0]) {
      ParseRenderCell(cells[0], "");
      assert "" + RenderCell(cells[0]) == parts[0];
    } else {
      ParseRenderCell(cells[0], " ");
    }
    assert [cells[0]] + cells[1..] == cells;
  }

  /** No piece of a tuple holds a comma, and each is a rendered cell with
      or without its leading space. */
  lemma CellTextsShape(cells: seq<Cell>)
    ensures forall i :: 0 <= i < |cells| ==> ',' !in CellTexts(cells)[i]
    ensures forall i :: 0 <= i < |cells| ==> RendersAs(CellTexts(cells)[i], cells[i])
  {
    var parts := CellTexts(cells);
    forall i | 0 <= i < |parts|
      ensures ',' !in parts[i]
    {
      var r := RenderCell(cells[i]);
      if i > 0 {
        assert parts[i] == " " + r;
        assert ',' !in r;
      }
    }
  }

  /** Every rendered tuple reads back as the cells it was made from. */
  lemma RenderRowRoundTrip(cells: seq<Cell>)
    requires |cells| >= 1
    ensures ParseRow(RenderRow(cells)) == Some(cells)
  {
    var parts := CellTexts(cells);
    var s := RenderRow(cells);
    assert s[1..|s| - 1] == Join(parts, ',');
    CellTextsShape(cells);
    SplitJoin(parts, ',');
    ParseCellTexts(cells, parts);
  }

  /** The statement's VALUES list and bound values for a batch. Row `k`
      holds DEFAULT and then parameters 11k+1 to 11k+11, the rows are
      comma-joined, and the values follow the column order of the insert,
      eleven per record. */
  method BuildBulkInsert(secs: seq<Security>, now: int) returns (values: string, args: seq<SqlValue>)
    ensures |args| == 11 * |secs|
    ensures forall k :: 0 <= k < |secs| ==>
      args[11 * k .. 11 * k + 11] == RowValues(secs[k], now)
    ensures exists rows: seq<string> ::
      |rows| == |secs| && values == Join(rows, ',') &&
      forall k :: 0 <= k < |secs| ==> rows[k] == RenderRow(RowCells(11 * k + 1))
  {
    var rows: seq<string> := [];
    args := [];
    var i := 1;
    var idx := 0;
    while idx < |secs|
      invariant 0 <= idx <= |secs|
      invariant i == 11 * idx + 1
      invariant |rows| == idx && |args| == 11 * idx
      invariant forall k :: 0 <= k < idx ==> rows[k] == RenderRow(RowCells(11 * k + 1))
      invariant forall k :: 0 <= k < idx ==> args[11 * k .. 11 * k + 11] == RowValues(secs[k], now)
    {
      AppendRowValues(args, secs, now, idx);
      rows := rows + [RenderRow(RowCells(i))];
      args := args + RowValues(secs[idx], now);
      i := i + 11;
      idx := idx + 1;
    }
    values := Join(rows, ',');
  }

  /** Appending the next record's values keeps every earlier record's
      eleven values in place. */
  lemma AppendRowValues(before: seq<SqlValue>, secs: seq<Security>, now: int, idx: nat)
    requires idx < |secs| && |before| == 11 * idx
    requires forall k :: 0 <= k < idx ==> before[11 * k .. 11 * k + 11] == RowValues(secs[k], now)
    ensures var args := before + RowValues(secs[idx], now);
      forall k :: 0 <= k < idx + 1 ==> args[11 * k .. 11 * k + 11] == RowValues(secs[k], now)
  {
    var args := before + RowValues(secs[idx], now);
    forall k | 0 <= k < idx + 1
      ensures args[11 * k .. 11 * k + 11] == RowValues(secs[k], now)
    {
      if k < idx {
        SliceInFront(before, RowValues(secs[idx], now), 11 * k, 11 * k + 11);
      } else {
        SliceBehind(before, RowValues(secs[idx], now));
      }
    }
  }

  /** A slice within the front part of a concatenation. */
  lemma SliceInFront<T>(a: seq<T>, b: seq<T>, i: nat, j: nat)
    requires i <= j <= |a|
    ensures (a + b)[i..j] == a[i..j]
  {
  }

  /** The back part of a concatenation, as a slice. */
  lemma SliceBehind<T>(a: seq<T>, b: seq<T>)
    ensures (a + b)[|a|..|a| + |b|] == b
  {
  }

  /** Each tuple names its own eleven parameters, so across a batch every
      parameter number from 1 to 11 times the batch size is used once. */
  lemma RowParameters(k: nat, j: nat)
    requires 1 <= j < |InsertColumns|
    ensures RowCells(11 * k + 1)[j] == Param(11 * k + j)
    ensures ParseRow(RenderRow(RowCells(11 * k + 1))) == Some(RowCells(11 * k + 1))
  {
    RenderRowRoundTrip(RowCells(11 * k + 1));
  }

  // ---------------------------------------------------------------------
  // Keys and conflict targets

  /** The upsert a statement performs: the column whose clash turns the
      insert into an update, and the columns that update then sets. */
  datatype Upsert = Upsert(conflict: string, updates: seq<string>)

  /** Single security insert: clashes on the ISIN and then only renames. */
  const SecurityAddUpsert: Upsert := Upsert("isin", ["name"])

  /** Bulk insert: clashes on the ISIN and then overwrites every inserted
      column but the id. */
  const SecurityBulkUpsert: Upsert := Upsert("isin", ValueColumns)

  /** Info-link insert: clashes on the WKN, then updates the URL and the
      update time. */
  const InfoLinkUpsert: Upsert := Upsert("wkn", ["url", "updated_at"])

  /** The security statements clash on the ISIN, not the key lookups use;
      the bulk one overwrites the WKN while the single one keeps it. */
  lemma UpsertTargets()
    ensures SecurityAddUpsert.conflict == SecurityBulkUpsert.conflict == "isin"
    ensures InfoLinkUpsert.conflict == "wkn"
    ensures "wkn" in SecurityBulkUpsert.updates && "wkn" !in SecurityAddUpsert.updates
    ensures "id" !in SecurityBulkUpsert.updates
  {
    assert ValueColumns[2] == "wkn";
    NoIdValue();
  }

  /** The key column never receives a bound value. */
  lemma NoIdValue()
    ensures forall j :: 0 <= j < |ValueColumns| ==> ValueColumns[j] != "id"
  {
    forall j | 0 <= j < |ValueColumns|
      ensures ValueColumns[j] != "id"
    {
      assert ValueColumns[j] == InsertColumns[j + 1];
    }
  }

  /** The WKN a security row is written with: as given. */
  function StoredSecurityWkn(sec: Security): (w: string)
    ensures w == ToDbSec(sec).wkn
  {
    sec.wkn
  }

  /** The row an info-link insert writes: the WKN upper-cased. */
  function InfoLinkRow(il: InfoLink): (row: InfoLink)
    ensures row.wkn == Upper(il.wkn) && row.url == il.url
  {
    InfoLink(Upper(il.wkn), il.url)
  }

  /** A security lookup: the first row whose WKN equals the upper-cased
      query, or the not-found sentinel. */
  function GetSecurity(rows: seq<DbSecurity>, wkn: string): (r: Result<Security, RepoError>)
    ensures r.Ok? <==> exists i :: 0 <= i < |rows| && rows[i].wkn == Upper(wkn)
    ensures r.Ok? ==> r.value.wkn == Upper(wkn) && NoLower(r.value.wkn)
    ensures r.Ok? ==> exists i :: 0 <= i < |rows| && rows[i].wkn == Upper(wkn) && r.value == FromDbSec(rows[i])
    ensures r.Err? ==> r.error == SecurityNotFound
    decreases |rows|
  {
    UpperNoLower(wkn);
    if |rows| == 0 then Err(SecurityNotFound)
    else if rows[0].wkn == Upper(wkn) then Ok(FromDbSec(rows[0]))
    else
      var r := GetSecurity(rows[1..], wkn);
      assert r.Ok? ==> exists i :: 0 <= i < |rows| && rows[i].wkn == Upper(wkn) && r.value == FromDbSec(rows[i]) by {
        if r.Ok? {
          var i :| 0 <= i < |rows[1..]| && rows[1..][i].wkn == Upper(wkn) && r.value == FromDbSec(rows[1..][i]);
          assert rows[i + 1] == rows[1..][i];
        }
      }
      assert (exists i :: 0 <= i < |rows| && rows[i].wkn == Upper(wkn)) ==> r.Ok? by {
        if exists i :: 0 <= i < |rows| && rows[i].wkn == Upper(wkn) {
          var i :| 0 <= i < |rows| && rows[i].wkn == Upper(wkn);
          assert rows[1..][i - 1].wkn == Upper(wkn);
        }
      }
      r
  }

  /** Security inserts keep the WKN's letter case while lookups upper-case
      the query, so a record written with a lower-case letter in its WKN
      is never found by any query. */
  lemma LowerCaseWknUnreachable(rows: seq<DbSecurity>, sec: Security, x: string)
    requires !NoLower(sec.wkn)
    requires forall i :: 0 <= i < |rows| ==> rows[i].wkn == StoredSecurityWkn(sec)
    ensures GetSecurity(rows, x) == Err(SecurityNotFound)
  {
    UpperNoLower(x);
  }

  /** Info links are written and read under the upper-cased WKN, so every
      spelling of a WKN reaches the stored link. */
  lemma InfoLinkKeyMatches(il: InfoLink, x: string)
    ensures InfoLinkRow(il).wkn == Upper(x) <==> Upper(x) == Upper(il.wkn)
  {
  }
}

=== FILE: responder.dfy ===
/** The reply renderer's table rows: one line per requested WKN, built from
    the resolved securities and links. The German number format, the date
    format and the clock are parameters; the template that prints the lines
    is outside the model. */
module Responder {
  import opened Results
  import opened Text
  import opened Domain

  /** The name shown for a WKN nothing was found for. */
  const NotFoundName: string := "nix gefunden"

  /** Expiry dates this far ahead or more are hidden (20 years of 365
      days, in seconds). */
  const ExpireHorizon: int := 20 * 365 * 24 * 3600

  datatype ReplyLine = ReplyLine(
    secUrl: string,
    name: string,
    typeText: string,
    strike: string,
    expire: string,
    underlying: string)

  /** A Markdown link when there is a URL, the bare text otherwise. */
  function InfoLinkUrl(text: string, url: string): (r: string)
    ensures url == "" ==> r == text
    ensures url != "" ==> |r| == |text| + |url| + 4
  {
    if url != "" then "[" + text + "](" + url + ")" else text
  }

  /** The first closing bracket at or after `i`, or the end. */
  function CloseBracket(s: string, i: nat): (j: nat)
    requires i <= |s|
    ensures i <= j <= |s|
    ensures forall k :: i <= k < j ==> s[k] != ']'
    ensures j < |s| ==> s[j] == ']'
    decreases |s| - i
  {
    if i == |s| || s[i] == ']' then i else CloseBracket(s, i + 1)
  }

  /** Reads a Markdown link back into its text and URL: the text runs to
      the first closing bracket, which must be followed by the opening
      parenthesis of the URL. */
  function ParseLink(r: string): (p: Option<(string, string)>)
    ensures p.Some? ==> |r| == |p.value.0| + |p.value.1| + 4 && ']' !in p.value.0
  {
    if |r| >= 4 && r[0] == '[' && r[|r| - 1] == ')' then
      var j := CloseBracket(r, 1);
      if j + 1 < |r| - 1 && r[j + 1] == '(' then
        assert forall c :: c in r[1..j] ==> c != ']';
        Some((r[1..j], r[j + 2..|r| - 1]))
      else None
    else None
  }

  /** A link to a non-empty URL whose text holds no closing bracket reads
      back as that text and URL. */
  lemma ParseInfoLink(text: string, url: string)
    requires url != "" && ']' !in text
    ensures ParseLink(InfoLinkUrl(text, url)) == Some((text, url))
  {
    var r := InfoLinkUrl(text, url);
    assert r == "[" + text + "](" + url + ")";
    assert forall k :: 1 <= k <= |text| ==> r[k] == text[k - 1];
    var j := CloseBracket(r, 1);
    assert r[|text| + 1] == ']';
    assert j == |text| + 1;
    assert r[1..j] == text;
    assert r[j + 2..|r| - 1] == url;
  }

  /** Distinct texts or URLs give distinct links. */
  lemma LinkInjective(t1: string, u1: string, t2: string, u2: string)
    requires u1 != "" && u2 != "" && ']' !in t1 && ']' !in t2
    requires InfoLinkUrl(t1, u1) == InfoLinkUrl(t2, u2)
    ensures t1 == t2 && u1 == u2
  {
    ParseInfoLink(t1, u1);
    ParseInfoLink(t2, u2);
  }

  // ---------------------------------------------------------------------
  // Fixed label tables

  /** The type labels, indexed by type code; code 0 and unknown codes show
      a dash. */
  const TypeLabels: seq<string> := ["-", "Option", "Future", "Bond", "Stock", "ETF", "ETC", "Warrant", "ETN"]

  function TypeLabel(code: int): (t: string)
    ensures 1 <= code < |TypeLabels| ==> t == TypeLabels[code]
    ensures !(1 <= code < |TypeLabels|) ==> t == "-"
  {
    if code == TypeOption then "Option"
    else if code == TypeFuture then "Future"
    else if code == TypeBond then "Bond"
    else if code == TypeCommonStock then "Stock"
    else if code == TypeExchangeTradedFund then "ETF"
    else if code == TypeExchangeTradedCommodity then "ETC"
    else if code == TypeWarrant then "Warrant"
    else if code == TypeExchangeTradedNote then "ETN"
    else "-"
  }

  /** Distinct named types have distinct labels, none of them a dash. */
  lemma TypeLabelInjective(a: int, b: int)
    requires 1 <= a < |TypeLabels| && 1 <= b < |TypeLabels|
    ensures TypeLabel(a) != "-"
    ensures TypeLabel(a) == TypeLabel(b) ==> a == b
  {
  }

  function WarrantSubTypeText(code: int): (t: string)
    ensures t == "KO" <==> code == WarrantSubTypeKnockout
    ensures t == "OS" <==> code == WarrantSubTypeOS
    ensures t == "-" <==> code != WarrantSubTypeKnockout && code != WarrantSubTypeOS
  {
    if code == WarrantSubTypeKnockout then "KO"
    else if code == WarrantSubTypeOS then "OS"
    else "-"
  }

  function WarrantTypeText(code: int): (t: string)
    ensures t == "Call" <==> code == WarrantTypeCall
    ensures t == "Put" <==> code == WarrantTypePut
    ensures t == "-" <==> code != WarrantTypeCall && code != WarrantTypePut
  {
    if code == WarrantTypeCall then "Call"
    else if code == WarrantTypePut then "Put"
    else "-"
  }

  /** Warrants show `<sub-type> <direction>`, all else the type label. */
  function TypeText(sec: Security): (t: string)
    ensures sec.secType == TypeWarrant ==>
      t == WarrantSubTypeText(sec.warrantSubType) + " " + WarrantTypeText(sec.warrantType)
    ensures sec.secType != TypeWarrant ==> t == TypeLabel(sec.secType) && ' ' !in t
  {
    if sec.secType == TypeWarrant then
      WarrantSubTypeText(sec.warrantSubType) + " " + WarrantTypeText(sec.warrantType)
    else TypeLabel(sec.secType)
  }

  /** The warrant text names sub-type and direction unambiguously, and a
      warrant's text never equals a label of another type. */
  lemma WarrantTextDecodes(a: Security, b: Security)
    requires a.secType == TypeWarrant && b.secType == TypeWarrant
    requires TypeText(a) == TypeText(b)
    ensures WarrantSubTypeText(a.warrantSubType) == WarrantSubTypeText(b.warrantSubType)
    ensures WarrantTypeText(a.warrantType) == WarrantTypeText(b.warrantType)
  {
    var sa, sb := WarrantSubTypeText(a.warrantSubType), WarrantSubTypeText(b.warrantSubType);
    var ta, tb := WarrantTypeText(a.warrantType), WarrantTypeText(b.warrantType);
    assert TypeText(a) == sa + " " + ta && TypeText(b) == sb + " " + tb;
    assert (sa + " " + ta)[0] == sa[0] && (sb + " " + tb)[0] == sb[0];
    assert sa == sb;
    assert (sa + " " + ta)[|sa| + 1..] == ta && (sb + " " + tb)[|sb| + 1..] == tb;
  }

  // ---------------------------------------------------------------------
  // Lines

  /** The line for a security and its link. The strike shows only when
      positive; the expiry only when present and strictly before the
      horizon from `now` (unix seconds). `formatStrike` stands for the
      German two-decimal format, `formatDate` for the ISO date format. */
  function BuildReplyLine(sec: Security, il: InfoLink, now: int,
                          formatStrike: real -> string, formatDate: int -> string): (line: ReplyLine)
    ensures line.secUrl == InfoLinkUrl(il.wkn, il.url)
    ensures line.name == sec.name && line.typeText == TypeText(sec) && line.underlying == sec.underlying
    ensures line.strike != "" ==> sec.strike > 0.0
    ensures sec.strike > 0.0 ==> line.strike == formatStrike(sec.strike)
    ensures sec.expire.None? || sec.expire.value >= now + ExpireHorizon ==> line.expire == ""
    ensures sec.expire.Some? && sec.expire.value < now + ExpireHorizon ==> line.expire == formatDate(sec.expire.value)
  {
    ReplyLine(
      secUrl := InfoLinkUrl(il.wkn, il.url),
      name := sec.name,
      typeText := TypeText(sec),
      strike := if sec.strike > 0.0 then formatStrike(sec.strike) else "",
      expire := if sec.expire.Some? && sec.expire.value < now + ExpireHorizon then formatDate(sec.expire.value) else "",
      underlying := sec.underlying)
  }

  /** The record shown for a WKN nothing was found for. */
  function Placeholder(wkn: string): (sec: Security)
    ensures sec.name == NotFoundName && sec.wkn == wkn && sec.underlying == ""
    ensures sec.strike == 0.0 && sec.expire.None? && sec.secType == TypeUndefined
  {
    Security(NotFoundName, "", wkn, "", TypeUndefined, WarrantTypeUndefined, WarrantSubTypeUndefined, 0.0, None)
  }

  /** The underlying cell: the resolved underlying's name and WKN, else
      the raw value; wrapped in a link when the underlying has one. */
  function UnderlyingCell(req: ReplyRequest, underlying: string): (cell: string)
    ensures underlying !in req.securities && underlying !in req.infoLinks ==> cell == underlying
    ensures underlying in req.securities && underlying !in req.infoLinks ==>
      cell == req.securities[underlying].name + " " + req.securities[underlying].wkn
    ensures underlying in req.securities && underlying in req.infoLinks ==>
      cell == InfoLinkUrl(req.securities[underlying].name + " " + req.securities[underlying].wkn,
                          req.infoLinks[underlying].url)
    ensures underlying !in req.securities && underlying in req.infoLinks ==>
      cell == InfoLinkUrl(underlying, req.infoLinks[underlying].url)
  {
    var text := if underlying in req.securities then
        req.securities[underlying].name + " " + req.securities[underlying].wkn
      else underlying;
    if underlying in req.infoLinks then InfoLinkUrl(text, req.infoLinks[underlying].url) else text
  }

  /** The line for one requested WKN. */
  function LineFor(req: ReplyRequest, wkn: string, now: int,
                   formatStrike: real -> string, formatDate: int -> string): (line: ReplyLine)
    ensures wkn !in req.infoLinks ==> line.secUrl == wkn
    ensures wkn in req.infoLinks ==> line.secUrl == InfoLinkUrl(req.infoLinks[wkn].wkn, req.infoLinks[wkn].url)
    ensures wkn !in req.securities ==>
      line.name == NotFoundName && line.typeText == "-" && line.strike == "" && line.expire == "" && line.underlying == ""
    ensures wkn in req.securities ==> line.name == req.securities[wkn].name
    ensures wkn in req.securities ==> line.typeText == TypeText(req.securities[wkn])
    ensures wkn in req.securities ==> (line.strike != "" ==> req.securities[wkn].strike > 0.0)
    ensures wkn in req.securities && req.securities[wkn].strike > 0.0 ==>
      line.strike == formatStrike(req.securities[wkn].strike)
    ensures wkn in req.securities && (req.securities[wkn].expire.None? || req.securities[wkn].expire.value >= now + ExpireHorizon) ==>
      line.expire == ""
    ensures wkn in req.securities && req.securities[wkn].expire.Some? && req.securities[wkn].expire.value < now + ExpireHorizon ==>
      line.expire == formatDate(req.securities[wkn].expire.value)
    ensures wkn in req.securities && TrimSpace(req.securities[wkn].underlying) == "" ==>
      line.underlying == req.securities[wkn].underlying
    ensures wkn in req.securities && TrimSpace(req.securities[wkn].underlying) != "" ==>
      line.underlying == UnderlyingCell(req, req.securities[wkn].underlying)
  {
    var sec := if wkn in req.securities then req.securities[wkn] else Placeholder(wkn);
    var il := if wkn in req.infoLinks then req.infoLinks[wkn] else InfoLink(wkn, "");
    var line := BuildReplyLine(sec, il, now, formatStrike, formatDate);
    if TrimSpace(sec.underlying) != "" then line.(underlying := UnderlyingCell(req, sec.underlying))
    else line
  }

  /** The loop over the requested WKNs: exactly one line per entry, in
      request order, duplicates included. */
  method GetReplyLines(req: ReplyRequest, now: int, formatStrike: real -> string, formatDate: int -> string)
    returns (lines: seq<ReplyLine>)
    ensures |lines| == |req.wkns|
    ensures forall i :: 0 <= i < |lines| ==> lines[i] == LineFor(req, req.wkns[i], now, formatStrike, formatDate)
  {
    lines := [];
    var i := 0;
    while i < |req.wkns|
      invariant 0 <= i <= |req.wkns|
      invariant |lines| == i
      invariant forall j :: 0 <= j < i ==> lines[j] == LineFor(req, req.wkns[j], now, formatStrike, formatDate)
    {
      lines := lines + [LineFor(req, req.wkns[i], now, formatStrike, formatDate)];
      i := i + 1;
    }
  }

  /** A WKN with neither record nor link gets the bare placeholder line. */
  lemma UnknownWknLine(req: ReplyRequest, wkn: string, now: int,
                       formatStrike: real -> string, formatDate: int -> string)
    requires wkn !in req.securities && wkn !in req.infoLinks
    ensures LineFor(req, wkn, now, formatStrike, formatDate) == ReplyLine(wkn, NotFoundName, "-", "", "", "")
  {
  }

  /** The example request of the responder's unit test: a knock-out put on a linked,
      resolved stock, the stock itself, a put whose underlying is unknown,
      and a put whose resolved underlying has no link. */
  function ExampleRequest(): (req: ReplyRequest)
    ensures |req.wkns| == 4
  {
    ReplyRequest("foo", ["AABBCC", "CCCCCC", "DDDDDD", "GGGGGG"],
      map["AABBCC" := ExamplePut("a", "AABBCC", "CCCCCC"), "CCCCCC" := ExampleStock("c", "CCCCCC"),
          "DDDDDD" := ExamplePut("d", "DDDDDD", "FFFFFF"), "GGGGGG" := ExamplePut("g", "GGGGGG", "HHHHHH"),
          "HHHHHH" := ExampleStock("h", "HHHHHH")],
      map["AABBCC" := InfoLink("AABBCC", "AABBCC-URL"), "CCCCCC" := InfoLink("CCCCCC", "CCCCCC-URL"),
          "DDDDDD" := InfoLink("DDDDDD", "DDDDDD-URL"), "GGGGGG" := InfoLink("GGGGGG", "GGGGGG-URL")])
  }

  function ExamplePut(name: string, wkn: string, underlying: string): Security {
    Security(name, "", wkn, underlying, TypeWarrant, WarrantTypePut, WarrantSubTypeKnockout, 100.0, None)
  }

  function ExampleStock(name: string, wkn: string): Security {
    Security(name, "", wkn, "", TypeCommonStock, WarrantTypeUndefined, WarrantSubTypeUndefined, 0.0, None)
  }

  /** What the example request records under each WKN. */
  predicate ExampleEntries(req: ReplyRequest) {
    && "AABBCC" in req.securities && req.securities["AABBCC"] == ExamplePut("a", "AABBCC", "CCCCCC")
    && "AABBCC" in req.infoLinks && req.infoLinks["AABBCC"] == InfoLink("AABBCC", "AABBCC-URL")
    && "CCCCCC" in req.securities && req.securities["CCCCCC"] == ExampleStock("c", "CCCCCC")
    && "CCCCCC" in req.infoLinks && req.infoLinks["CCCCCC"] == InfoLink("CCCCCC", "CCCCCC-URL")
    && "DDDDDD" in req.securities && req.securities["DDDDDD"] == ExamplePut("d", "DDDDDD", "FFFFFF")
    && "DDDDDD" in req.infoLinks && req.infoLinks["DDDDDD"] == InfoLink("DDDDDD", "DDDDDD-URL")
    && "FFFFFF" !in req.securities && "FFFFFF" !in req.infoLinks
    && "GGGGGG" in req.securities && req.securities["GGGGGG"] == ExamplePut("g", "GGGGGG", "HHHHHH")
    && "GGGGGG" in req.infoLinks && req.infoLinks["GGGGGG"] == InfoLink("GGGGGG", "GGGGGG-URL")
    && "HHHHHH" in req.securities && req.securities["HHHHHH"] == ExampleStock("h", "HHHHHH")
    && "HHHHHH" !in req.infoLinks
  }

  lemma ExampleRequestEntries()
    ensures ExampleEntries(ExampleRequest())
  {
  }

  /** The links the example lines show. */
  lemma ExampleLinks()
    ensures InfoLinkUrl("AABBCC", "AABBCC-URL") == "[AABBCC](AABBCC-URL)"
    ensures InfoLinkUrl("CCCCCC", "CCCCCC-URL") == "[CCCCCC](CCCCCC-URL)"
    ensures InfoLinkUrl("DDDDDD", "DDDDDD-URL") == "[DDDDDD](DDDDDD-URL)"
    ensures InfoLinkUrl("GGGGGG", "GGGGGG-URL") == "[GGGGGG](GGGGGG-URL)"
  {
    ExampleLink("AABBCC");
    ExampleLink("CCCCCC");
    ExampleLink("DDDDDD");
    ExampleLink("GGGGGG");
  }

  lemma ExampleLink(w: string)
    ensures InfoLinkUrl(w, w + "-URL") == "[" + w + "](" + w + "-URL)"
  {
  }

  /** The remaining text facts the example lines rest on. */
  lemma ExampleTexts()
    ensures InfoLinkUrl("c" + " " + "CCCCCC", "CCCCCC-URL") == "[c CCCCCC](CCCCCC-URL)"
    ensures "h" + " " + "HHHHHH" == "h HHHHHH"
    ensures TypeText(ExamplePut("a", "AABBCC", "CCCCCC")) == "KO Put"
    ensures TypeText(ExampleStock("c", "CCCCCC")) == "Stock"
  {
    assert "c" + " " + "CCCCCC" == "c CCCCCC";
  }

  /** The example's WKNs carry no surrounding white space. */
  lemma ExampleTrim(w: string)
    requires |w| > 0 && 'A' <= w[0] <= 'Z' && 'A' <= w[|w| - 1] <= 'Z'
    ensures TrimSpace(w) == w
  {
    TrimSpaceNoop(w);
  }

  /** A put on a resolved, linked underlying: the underlying cell links
      the underlying's name and WKN. */
  lemma ExampleLinkedUnderlying(req: ReplyRequest, now: int, formatStrike: real -> string, formatDate: int -> string)
    requires ExampleEntries(req) && formatStrike(100.0) == "100,00"
    ensures LineFor(req, "AABBCC", now, formatStrike, formatDate)
         == ReplyLine("[AABBCC](AABBCC-URL)", "a", "KO Put", "100,00", "", "[c CCCCCC](CCCCCC-URL)")
  {
    ExampleLinks();
    ExampleTexts();
    ExampleTrim("CCCCCC");
  }

  /** The stock itself: no strike, no underlying. */
  lemma ExampleStockLine(req: ReplyRequest, now: int, formatStrike: real -> string, formatDate: int -> string)
    requires ExampleEntries(req)
    ensures LineFor(req, "CCCCCC", now, formatStrike, formatDate)
         == ReplyLine("[CCCCCC](CCCCCC-URL)", "c", "Stock", "", "", "")
  {
    ExampleLinks();
    ExampleTexts();
    TrimSpaceNoop("");
  }

  /** An underlying that resolves to nothing is shown raw. */
  lemma ExampleUnknownUnderlying(req: ReplyRequest, now: int, formatStrike: real -> string, formatDate: int -> string)
    requires ExampleEntries(req) && formatStrike(100.0) == "100,00"
    ensures LineFor(req, "DDDDDD", now, formatStrike, formatDate)
         == ReplyLine("[DDDDDD](DDDDDD-URL)", "d", "KO Put", "100,00", "", "FFFFFF")
  {
    ExampleLinks();
    ExampleTexts();
    ExampleTrim("FFFFFF");
  }

  /** A resolved underlying without a link is shown as plain name and WKN. */
  lemma ExampleUnlinkedUnderlying(req: ReplyRequest, now: int, formatStrike: real -> string, formatDate: int -> string)
    requires ExampleEntries(req) && formatStrike(100.0) == "100,00"
    ensures LineFor(req, "GGGGGG", now, formatStrike, formatDate)
         == ReplyLine("[GGGGGG](GGGGGG-URL)", "g", "KO Put", "100,00", "", "h HHHHHH")
  {
    ExampleLinks();
    ExampleTexts();
    ExampleTrim("HHHHHH");
  }
}

=== FILE: results.dfy ===
/** Failure-carrying values used across the model: Go's `(value, error)`
    pairs become `Result`, values that may be nil become `Option`. */
module Results {

  datatype Option<+T> = None | Some(value: T)

  datatype Result<+T, +E> = Ok(value: T) | Err(error: E) {
    predicate IsFailure() { Err? }

    function PropagateFailure<U>(): Result<U, E>
      requires Err?
    {
      Err(error)
    }

    function Extract(): T
      requires Ok?
    {
      value
    }
  }
}

=== FILE: scanner.dfy ===
/** The token scanner: finds candidate WKNs in a comment body, either as
    the keyword form `$WKN <six characters>` or as the sigil form
    `$<six letters or digits>`. Results are sets, because the original
    returns them in map iteration order. */
module Scanner {
  import opened Results
  import opened Text

  /** The keyword that announces a WKN in the following token. */
  const BotKeyword: string := "$WKN"

  datatype ScanError = EmptyBodyText | NoTokens

  /** Characters the normalisation turns into token separators. */
  predicate IsSeparator(c: char) { c == ' ' || c == '\n' || c == '\t' }

  predicate NoSeparator(s: string) {
    forall i :: 0 <= i < |s| ==> !IsSeparator(s[i])
  }

  /** Upper-casing followed by newline and tab replacement. */
  function Blank(text: string): string {
    ReplaceChar(ReplaceChar(Upper(text), '\n', ' '), '\t', ' ')
  }

  /** No lower-case letter, newline or tab. */
  predicate Blanked(s: string) {
    forall i :: 0 <= i < |s| ==> !IsLower(s[i]) && s[i] != '\n' && s[i] != '\t'
  }

  lemma BlankIsBlanked(text: string)
    ensures Blanked(Blank(text))
  {
    UpperNoLower(text);
  }

  /** Collapsing spaces keeps a text blanked. */
  lemma CollapseBlanked(s: string)
    requires Blanked(s)
    ensures Blanked(CollapseDoubleSpaces(s))
  {
    CollapseKeepsChars(s);
    var r := CollapseDoubleSpaces(s);
    forall i | 0 <= i < |r|
      ensures !IsLower(r[i]) && r[i] != '\n' && r[i] != '\t'
    {
      var j :| 0 <= j < |s| && s[j] == r[i];
    }
  }

  /** The text the scanner tokenises: blanked, then two passes that replace
      two spaces by one. It is no longer than the body and holds no
      lower-case letter, newline or tab. */
  function Normalize(text: string): (n: string)
    ensures |n| <= |text|
    ensures Blanked(n)
  {
    var b := Blank(text);
    BlankIsBlanked(text);
    CollapseBlanked(b);
    CollapseBlanked(CollapseDoubleSpaces(b));
    CollapseDoubleSpaces(CollapseDoubleSpaces(b))
  }

  /** The tokens of a comment body: the normalised text split on single
      spaces. There is at least one token, none holds a space, and joined
      with single spaces they give the normalised text back. */
  function Tokens(text: string): (toks: seq<string>)
    ensures |toks| >= 1
    ensures forall i :: 0 <= i < |toks| ==> ' ' !in toks[i]
    ensures Join(toks, ' ') == Normalize(text)
  {
    JoinSplit(Normalize(text), ' ');
    Split(Normalize(text), ' ')
  }

  // ---------------------------------------------------------------------
  // The two recognisers

  /** Sigil form: a token that, trimmed, is seven characters long, starts
      with `$` and has six characters of `[A-Z0-9]` after it. */
  function SigilCapture(token: string): (r: Option<string>)
    ensures r.Some? <==> var t := TrimSpace(token);
      |t| == 7 && t[0] == '$' && AllUpperAlnum(t[1..])
    ensures r.Some? ==> |r.value| == 6 && AllUpperAlnum(r.value)
  {
    var t := TrimSpace(token);
    if |t| == 7 && t[0] == '$' && AllUpperAlnum(t[1..]) then Some(t[1..]) else None
  }

  /** The sigil pass: every sigil capture of every token. */
  function SigilScan(tokens: seq<string>): (found: set<string>)
    ensures forall w :: w in found ==> |w| == 6 && AllUpperAlnum(w)
    ensures forall i :: 0 <= i < |tokens| && SigilCapture(tokens[i]).Some? ==> SigilCapture(tokens[i]).value in found
  {
    set i | 0 <= i < |tokens| && SigilCapture(tokens[i]).Some? :: SigilCapture(tokens[i]).value
  }

  /** Keyword position `j`: the token is the keyword and a token of exactly
      six characters follows it. */
  predicate KeywordAt(tokens: seq<string>, j: int) {
    0 <= j && j + 1 < |tokens| && tokens[j] == BotKeyword && |tokens[j + 1]| == 6
  }

  /** What the keyword pass captures from position `i` on, stated without
      the loop's skip flag. */
  function KeywordCaptures(tokens: seq<string>, i: nat): set<string> {
    set j | i <= j < |tokens| && KeywordAt(tokens, j) :: tokens[j + 1]
  }

  /** The keyword pass as written: walking the tokens with a flag that
      skips the token just captured. */
  function KeywordScan(tokens: seq<string>, i: nat, skipNext: bool): (found: set<string>)
    requires i <= |tokens|
    ensures forall w :: w in found ==> |w| == 6
    decreases |tokens| - i
  {
    if i == |tokens| then {}
    else if skipNext then KeywordScan(tokens, i + 1, false)
    else if tokens[i] == BotKeyword && i + 1 < |tokens| && |tokens[i + 1]| == 6 then
      {tokens[i + 1]} + KeywordScan(tokens, i + 1, true)
    else KeywordScan(tokens, i + 1, false)
  }

  /** The skip flag never changes the outcome: a skipped token has six
      characters and so can never be the four-character keyword. The pass
      therefore captures exactly the token after each keyword that is
      followed by a six-character token. */
  lemma {:induction false} KeywordScanCaptures(tokens: seq<string>, i: nat, skipNext: bool)
    requires i <= |tokens|
    requires skipNext && i < |tokens| ==> |tokens[i]| == 6
    ensures KeywordScan(tokens, i, skipNext) == KeywordCaptures(tokens, i)
    decreases |tokens| - i
  {
    if i < |tokens| {
      var here: set<string> := if KeywordAt(tokens, i) then {tokens[i + 1]} else {};
      assert KeywordCaptures(tokens, i) == here + KeywordCaptures(tokens, i + 1) by {
        forall w | w in KeywordCaptures(tokens, i)
          ensures w in here + KeywordCaptures(tokens, i + 1)
        {
          var j :| i <= j < |tokens| && KeywordAt(tokens, j) && w == tokens[j + 1];
          if j > i {
            assert w in KeywordCaptures(tokens, i + 1);
          }
        }
      }
      if skipNext {
        assert tokens[i] != BotKeyword;
        KeywordScanCaptures(tokens, i + 1, false);
      } else if KeywordAt(tokens, i) {
        KeywordScanCaptures(tokens, i + 1, true);
      } else {
        KeywordScanCaptures(tokens, i + 1, false);
      }
    }
  }

  // ---------------------------------------------------------------------
  // The two scan entry points

  /** Scans a comment body for WKNs. Fails only on an empty body; a body
      without matches gives the empty set. The keyword pass runs only when
      there are at least two tokens. */
  function DollarWknTokenScan(text: string): (r: Result<set<string>, ScanError>)
    ensures r.Err? <==> text == ""
    ensures r.Err? ==> r.error == EmptyBodyText
  {
    if text == "" then Err(EmptyBodyText)
    else
      var tokens := Tokens(text);
      var keyword := if |tokens| > 1 then KeywordScan(tokens, 0, false) else {};
      Ok(keyword + SigilScan(tokens))
  }

  /** The result is the union of both passes whatever the token count: the
      `more than one token` guard only skips a pass that could not capture
      anything. */
  lemma ScanIsUnionOfPasses(text: string)
    requires text != ""
    ensures DollarWknTokenScan(text)
         == Ok(KeywordCaptures(Tokens(text), 0) + SigilScan(Tokens(text)))
  {
    var tokens := Tokens(text);
    KeywordScanCaptures(tokens, 0, false);
    if |tokens| <= 1 {
      assert KeywordCaptures(tokens, 0) == {};
    }
  }

  /** Every WKN found has six characters and no lower-case letter, and one
      found by the sigil form is made of `[A-Z0-9]` only. */
  lemma ScanSoundness(text: string, w: string)
    requires text != "" && w in DollarWknTokenScan(text).value
    ensures |w| == 6 && NoLower(w) && ' ' !in w
    ensures w !in KeywordCaptures(Tokens(text), 0) ==> AllUpperAlnum(w)
  {
    var tokens := Tokens(text);
    ScanIsUnionOfPasses(text);
    assert forall c :: c in Normalize(text) ==> !IsLower(c);
    SplitChars(Normalize(text), ' ');
    if w in KeywordCaptures(tokens, 0) {
      var j :| 0 <= j < |tokens| && KeywordAt(tokens, j) && w == tokens[j + 1];
      assert tokens[j + 1] in tokens;
      forall k | 0 <= k < |w|
        ensures !IsLower(w[k])
      {
        assert w[k] in tokens[j + 1];
      }
    } else {
      assert w in SigilScan(tokens);
    }
  }

  /** `WKNDollarFullScan`: a capture is a space-separated token that,
      trimmed, is exactly six characters of `[A-Z0-9]`. */
  function FullScanCapture(token: string): (r: Option<string>)
    ensures r.Some? <==> var t := TrimSpace(token); |t| == 6 && AllUpperAlnum(t)
    ensures r.Some? ==> r.value == TrimSpace(token)
  {
    var t := TrimSpace(token);
    if |t| == 6 && AllUpperAlnum(t) then Some(t) else None
  }

  /** Scans a body for bare six-character WKNs. Splits on single spaces
      only; newlines and tabs are not normalised, but trimming each token
      removes them at token ends. */
  function WknDollarFullScan(text: string): (r: Result<set<string>, ScanError>)
    ensures r.Err? <==> text == ""
    ensures r.Err? ==> r.error == EmptyBodyText
    ensures r.Ok? ==> forall w :: w in r.value ==> |w| == 6 && AllUpperAlnum(w)
  {
    if text == "" then Err(EmptyBodyText)
    else
      var tokens := Split(Upper(text), ' ');
      Ok(set i | 0 <= i < |tokens| && FullScanCapture(tokens[i]).Some? :: FullScanCapture(tokens[i]).value)
  }

  // ---------------------------------------------------------------------
  // Completeness: what the normalisation keeps intact

  predicate LeftBounded(a: string) { a == [] || IsSeparator(a[|a| - 1]) }

  predicate RightBounded(b: string) { b == [] || IsSeparator(b[0]) }

  lemma BlankAppend(a: string, b: string)
    ensures Blank(a + b) == Blank(a) + Blank(b)
  {
  }

  /** A separator-free word is only upper-cased. */
  lemma BlankWord(w: string)
    requires NoSeparator(w)
    ensures Blank(w) == Upper(w) && ' ' !in Upper(w)
  {
  }

  lemma BlankBounds(a: string, b: string)
    requires LeftBounded(a) && RightBounded(b)
    ensures var x := Blank(a); x == [] || x[|x| - 1] == ' '
    ensures var y := Blank(b); y == [] || y[0] == ' '
  {
  }

  /** The two replacement passes of the normalisation. */
  function Collapse2(s: string): string {
    CollapseDoubleSpaces(CollapseDoubleSpaces(s))
  }

  lemma NormalizeIsCollapse2(text: string)
    ensures Normalize(text) == Collapse2(Blank(text))
  {
  }

  /** Two replacement passes keep an end space an end space. */
  lemma Collapse2Bounds(x: string, y: string)
    requires x == [] || x[|x| - 1] == ' '
    requires y == [] || y[0] == ' '
    ensures var x2 := Collapse2(x); x2 == [] || x2[|x2| - 1] == ' '
    ensures var y2 := Collapse2(y); y2 == [] || y2[0] == ' '
  {
    if x != [] {
      CollapseKeepsLast(x);
      CollapseKeepsLast(CollapseDoubleSpaces(x));
    }
    if y != [] {
      CollapseKeepsFirst(y);
      CollapseKeepsFirst(CollapseDoubleSpaces(y));
    }
  }

  lemma Collapse2AroundWord(x: string, m: string, y: string)
    requires m != [] && ' ' !in m
    ensures Collapse2(x + m + y) == Collapse2(x) + m + Collapse2(y)
  {
    CollapseAroundWord(x, m, y);
    CollapseAroundWord(CollapseDoubleSpaces(x), m, CollapseDoubleSpaces(y));
  }

  /** A keyword, one space and a word pass both replacement passes intact. */
  lemma Collapse2AroundPair(x: string, kw: string, w: string, y: string)
    requires kw != [] && ' ' !in kw && w != [] && ' ' !in w
    ensures Collapse2(x + kw + " " + w + y) == Collapse2(x) + kw + " " + w + Collapse2(y)
  {
    assert x + kw + " " + w + y == x + kw + (" " + w + y);
    Collapse2AroundWord(x, kw, " " + w + y);
    Collapse2SpaceWord(w, y);
    assert Collapse2(x) + kw + (" " + w + Collapse2(y)) == Collapse2(x) + kw + " " + w + Collapse2(y);
  }

  /** One space and a word in front pass both passes intact. */
  lemma Collapse2SpaceWord(w: string, y: string)
    requires w != [] && ' ' !in w
    ensures Collapse2(" " + w + y) == " " + w + Collapse2(y)
  {
    Collapse2AroundWord(" ", w, y);
    assert CollapseDoubleSpaces(" ") == " ";
  }

  /** A space-free word between space-bounded parts is a token. */
  lemma WordIsToken(a: string, m: string, b: string) returns (i: nat)
    requires ' ' !in m
    requires a == [] || a[|a| - 1] == ' '
    requires b == [] || b[0] == ' '
    ensures i < |Split(a + m + b, ' ')| && Split(a + m + b, ' ')[i] == m
  {
    var tail := SplitWordThen(m, b);
    assert a + m + b == a + (m + b);
    var pre := SplitAfterSpace(a, m + b);
    i := |pre|;
  }

  /** Text that is empty or ends in a space contributes whole pieces. */
  lemma SplitAfterSpace(a: string, rest: string) returns (pre: seq<string>)
    requires a == [] || a[|a| - 1] == ' '
    ensures Split(a + rest, ' ') == pre + Split(rest, ' ')
  {
    if a == [] {
      assert a + rest == rest;
      pre := [];
    } else {
      var a0 := a[..|a| - 1];
      assert a + rest == a0 + [' '] + rest;
      SplitAround(a0, rest, ' ');
      pre := Split(a0, ' ');
    }
  }

  /** Splitting a space-free word followed by a space-bounded rest starts
      with the word. */
  lemma SplitWordThen(m: string, b: string) returns (tail: seq<string>)
    requires ' ' !in m
    requires b == [] || b[0] == ' '
    ensures Split(m + b, ' ') == [m] + tail
  {
    SplitNoSep(m, ' ');
    if b == [] {
      assert m + b == m;
      tail := [];
    } else {
      assert m + b == m + [' '] + b[1..];
      SplitAround(m, b[1..], ' ');
      tail := Split(b[1..], ' ');
    }
  }

  lemma BlankSigil(a: string, w: string, b: string)
    requires forall i :: 0 <= i < |w| ==> IsUpperAlnum(UpperChar(w[i]))
    ensures Blank(a + "$" + w + b) == Blank(a) + ("$" + Upper(w)) + Blank(b)
  {
    BlankAppend(a, "$" + w + b);
    assert a + "$" + w + b == a + ("$" + w + b);
    BlankAppend("$" + w, b);
    assert Blank("$" + w) == "$" + Upper(w);
  }

  /** A standalone sigil token is always found: if the body contains `$`
      followed by six letters or digits (either case), with a separator or
      the body's edge on both sides, the upper-cased six characters are in
      the result. */
  lemma SigilCompleteness(a: string, w: string, b: string)
    requires |w| == 6
    requires forall i :: 0 <= i < 6 ==> IsUpperAlnum(UpperChar(w[i]))
    requires LeftBounded(a) && RightBounded(b)
    ensures Upper(w) in DollarWknTokenScan(a + "$" + w + b).value
  {
    var text := a + "$" + w + b;
    var m := "$" + Upper(w);
    var i := SigilToken(a, w, b);
    var tokens := Tokens(text);
    TrimSpaceNoop(m);
    assert m[1..] == Upper(w);
    assert SigilCapture(tokens[i]) == Some(Upper(w));
    assert Upper(w) in SigilScan(tokens);
  }

  /** The upper-cased sigil word is one of the tokens. */
  lemma SigilToken(a: string, w: string, b: string) returns (i: nat)
    requires |w| == 6
    requires forall i :: 0 <= i < 6 ==> IsUpperAlnum(UpperChar(w[i]))
    requires LeftBounded(a) && RightBounded(b)
    ensures i < |Tokens(a + "$" + w + b)| && Tokens(a + "$" + w + b)[i] == "$" + Upper(w)
  {
    var text := a + "$" + w + b;
    var m := "$" + Upper(w);
    BlankSigil(a, w, b);
    NormalizeIsCollapse2(text);
    Collapse2AroundWord(Blank(a), m, Blank(b));
    BlankBounds(a, b);
    Collapse2Bounds(Blank(a), Blank(b));
    i := WordIsToken(Collapse2(Blank(a)), m, Collapse2(Blank(b)));
  }

  lemma BlankKeyword(a: string, k: string, w: string, b: string)
    requires NoSeparator(k) && NoSeparator(w)
    ensures Blank(a + k + " " + w + b) == Blank(a) + Upper(k) + " " + Upper(w) + Blank(b)
  {
    BlankWord(k);
    BlankWord(w);
    assert a + k + " " + w + b == a + (k + (" " + (w + b)));
    BlankAppend(a, k + (" " + (w + b)));
    BlankAppend(k, " " + (w + b));
    BlankAppend(" ", w + b);
    BlankAppend(w, b);
  }

  /** The keyword form is always found: if the body contains the keyword in
      any case, one space, then a six-character separator-free word, with a
      separator or the body's edge around them, the upper-cased word is in
      the result, whatever its characters are. */
  lemma KeywordCompleteness(a: string, k: string, w: string, b: string)
    requires Upper(k) == BotKeyword
    requires |w| == 6 && NoSeparator(w)
    requires LeftBounded(a) && RightBounded(b)
    ensures Upper(w) in DollarWknTokenScan(a + k + " " + w + b).value
  {
    var text := a + k + " " + w + b;
    var kw := BotKeyword;
    var uw := Upper(w);
    assert NoSeparator(k) by {
      forall i | 0 <= i < |k|
        ensures !IsSeparator(k[i])
      {
        assert UpperChar(k[i]) == kw[i];
      }
    }
    BlankKeyword(a, k, w, b);
    BlankWord(w);
    NormalizeIsCollapse2(text);
    Collapse2AroundPair(Blank(a), kw, uw, Blank(b));
    BlankBounds(a, b);
    Collapse2Bounds(Blank(a), Blank(b));
    var j := KeywordPairIsTokens(Collapse2(Blank(a)), kw, uw, Collapse2(Blank(b)));
    var tokens := Tokens(text);
    assert KeywordAt(tokens, j);
    assert uw in KeywordCaptures(tokens, 0);
    ScanIsUnionOfPasses(text);
  }

  /** The keyword and its word, joined by one space between space-bounded
      parts, are adjacent tokens. */
  lemma KeywordPairIsTokens(a: string, kw: string, w: string, b: string) returns (j: nat)
    requires ' ' !in kw && ' ' !in w
    requires a == [] || a[|a| - 1] == ' '
    requires b == [] || b[0] == ' '
    ensures var tokens := Split(a + kw + " " + w + b, ' ');
      j + 1 < |tokens| && tokens[j] == kw && tokens[j + 1] == w
  {
    var rest := kw + [' '] + (w + b);
    var tail := PairTokens(kw, w, b);
    assert a + kw + " " + w + b == a + rest;
    var pre := SplitAfterSpace(a, rest);
    j := |pre|;
  }

  lemma PairTokens(kw: string, w: string, b: string) returns (tail: seq<string>)
    requires ' ' !in kw && ' ' !in w
    requires b == [] || b[0] == ' '
    ensures Split(kw + [' '] + (w + b), ' ') == [kw, w] + tail
  {
    tail := SplitWordThen(w, b);
    SplitNoSep(kw, ' ');
    SplitAround(kw, w + b, ' ');
  }

  // ---------------------------------------------------------------------
  // The two-pass bound of the space normalisation

  function Empties(k: nat): (r: seq<string>)
    ensures |r| == k && forall i :: 0 <= i < k ==> r[i] == ""
  {
    seq(k, _ => "")
  }

  lemma {:induction false} SplitLeadingSpaces(k: nat, v: string)
    ensures Split(Spaces(k) + v, ' ') == Empties(k) + Split(v, ' ')
    decreases k
  {
    if k > 0 {
      assert Spaces(k) + v == [] + [' '] + (Spaces(k - 1) + v);
      SplitAround([], Spaces(k - 1) + v, ' ');
      SplitLeadingSpaces(k - 1, v);
      assert Empties(k) == [""] + Empties(k - 1);
      assert [] + [' '] + (Spaces(k - 1) + v) == Spaces(k) + v;
    } else {
      assert Spaces(k) + v == v;
      assert Empties(k) + Split(v, ' ') == Split(v, ' ');
    }
  }

  /** One replacement pass halves (rounding up) a run of spaces between two
      space-free words. */
  lemma CollapseGap(u: string, n: nat, v: string)
    requires u != [] && ' ' !in u && ' ' !in v
    ensures CollapseDoubleSpaces(u + Spaces(n) + v) == u + Spaces((n + 1) / 2) + v
  {
    assert u + Spaces(n) + v == u + (Spaces(n) + v);
    CollapseAppend(u, Spaces(n) + v);
    CollapseNoSpace(u);
    CollapseNoSpace(v);
    CollapseRun(n, v);
  }

  /** Two words separated by a run of `n >= 1` spaces (after upper-casing)
      tokenise as the two words with `ceil(ceil(n/2)/2) - 1` empty tokens
      between them: runs of up to four spaces disappear, runs of five or
      more leave empty tokens behind. */
  lemma GapTokens(u: string, n: nat, v: string)
    requires u != [] && NoSeparator(u) && NoSeparator(v) && n >= 1
    ensures Tokens(u + Spaces(n) + v)
         == [Upper(u)] + Empties(((n + 1) / 2 + 1) / 2 - 1) + [Upper(v)]
    ensures n <= 4 ==> Tokens(u + Spaces(n) + v) == [Upper(u), Upper(v)]
    ensures n >= 5 ==> "" in Tokens(u + Spaces(n) + v)
  {
    var c2 := ((n + 1) / 2 + 1) / 2;
    GapNormalize(u, n, v);
    GapSplit(Upper(u), c2, Upper(v));
    var tokens := Tokens(u + Spaces(n) + v);
    if n >= 5 {
      assert tokens[1] == "";
    }
  }

  /** Normalising two words around a gap of `n` spaces leaves the gap
      halved twice, rounding up. */
  lemma GapNormalize(u: string, n: nat, v: string)
    requires u != [] && NoSeparator(u) && NoSeparator(v) && n >= 1
    ensures Normalize(u + Spaces(n) + v) == Upper(u) + Spaces(((n + 1) / 2 + 1) / 2) + Upper(v)
  {
    var text := u + Spaces(n) + v;
    var uu := Upper(u);
    var uv := Upper(v);
    BlankWord(u);
    BlankWord(v);
    assert Blank(Spaces(n)) == Spaces(n);
    BlankAppend(u, Spaces(n) + v);
    BlankAppend(Spaces(n), v);
    assert text == u + (Spaces(n) + v);
    assert Blank(text) == uu + Spaces(n) + uv;
    var c1 := (n + 1) / 2;
    CollapseGap(uu, n, uv);
    CollapseGap(uu, c1, uv);
    NormalizeIsCollapse2(text);
  }

  /** Two words around `c` spaces split into the words with `c - 1` empty
      tokens between them. */
  lemma GapSplit(uu: string, c: nat, uv: string)
    requires c >= 1 && ' ' !in uu && ' ' !in uv
    ensures Split(uu + Spaces(c) + uv, ' ') == [uu] + Empties(c - 1) + [uv]
  {
    assert uu + Spaces(c) + uv == uu + [' '] + (Spaces(c - 1) + uv);
    SplitAround(uu, Spaces(c - 1) + uv, ' ');
    SplitNoSep(uu, ' ');
    SplitNoSep(uv, ' ');
    SplitLeadingSpaces(c - 1, uv);
  }

  /** `WknDollarFullScan` finds every space-separated six-character word of
      letters and digits, in either case. */
  lemma FullScanCompleteness(a: string, w: string, b: string)
    requires |w| == 6 && forall i :: 0 <= i < 6 ==> IsUpperAlnum(UpperChar(w[i]))
    requires a == [] || a[|a| - 1] == ' '
    requires b == [] || b[0] == ' '
    ensures Upper(w) in WknDollarFullScan(a + w + b).value
  {
    var uw := Upper(w);
    UpperAppend(a, w + b);
    UpperAppend(w, b);
    assert a + w + b == a + (w + b);
    var ua := Upper(a);
    var ub := Upper(b);
    assert Upper(a + w + b) == ua + uw + ub;
    var i := WordIsToken(ua, uw, ub);
    TrimSpaceNoop(uw);
    var tokens := Split(Upper(a + w + b), ' ');
    assert FullScanCapture(tokens[i]) == Some(uw);
  }
}

=== FILE: securities.dfy ===
/** The security resolver: looks up every requested WKN, then, once, the
    underlyings of what it found, and forwards the merged map. The
    repository is any lookup function, so every kind of repository error is
    covered; the map is keyed by the WKN exactly as it was asked for. */
module Resolver {
  import opened Results
  import opened Domain
  import opened Text

  /** A repository lookup, with its not-found and failure answers. */
  type Lookup = string -> Result<Security, RepoError>

  /** One pass: the records found, by WKN as asked, and the non-empty
      underlyings of the found records in request order, duplicates kept. */
  datatype Pass = Pass(found: map<string, Security>, underlyings: seq<string>)

  /** One pass over `wkns`. A failed lookup, whatever the error, skips that
      WKN and the pass goes on. */
  function FetchSecurities(get: Lookup, wkns: seq<string>): (p: Pass)
    ensures forall k :: k in p.found ==> k in wkns && get(k) == Ok(p.found[k])
    ensures forall w :: w in wkns && get(w).Ok? ==> w in p.found
    ensures |p.underlyings| <= |wkns|
    ensures forall i :: 0 <= i < |p.underlyings| ==> p.underlyings[i] != ""
    decreases |wkns|
  {
    if |wkns| == 0 then Pass(map[], [])
    else
      var n := |wkns| - 1;
      var prev := FetchSecurities(get, wkns[..n]);
      var w := wkns[n];
      assert wkns == wkns[..n] + [w];
      match get(w)
      case Err(_) => prev
      case Ok(sec) =>
        var us := if sec.underlying != "" then prev.underlyings + [sec.underlying] else prev.underlyings;
        Pass(prev.found[w := sec], us)
  }

  /** The underlyings of a pass split along its input: a pass over two
      lists collects the first list's underlyings, then the second's. */
  lemma {:induction false} UnderlyingsAppend(get: Lookup, xs: seq<string>, ys: seq<string>)
    ensures FetchSecurities(get, xs + ys).underlyings
         == FetchSecurities(get, xs).underlyings + FetchSecurities(get, ys).underlyings
    decreases |ys|
  {
    if |ys| == 0 {
      assert xs + ys == xs;
    } else {
      var n := |ys| - 1;
      UnderlyingsAppend(get, xs, ys[..n]);
      SnocSplit(xs, ys);
      UnderlyingsAppendStep(get, xs, ys[..n], ys[n]);
    }
  }

  /** The underlyings one WKN adds at the end of a pass. */
  function Contribution(get: Lookup, w: string): (us: seq<string>)
    ensures |us| <= 1
  {
    if get(w).Ok? && get(w).value.underlying != "" then [get(w).value.underlying] else []
  }

  /** A pass over a list with one more WKN at the end. */
  lemma FetchSnoc(get: Lookup, init: seq<string>, w: string)
    ensures FetchSecurities(get, init + [w]).underlyings
         == FetchSecurities(get, init).underlyings + Contribution(get, w)
  {
    var zs := init + [w];
    assert zs[..|zs| - 1] == init && zs[|zs| - 1] == w;
  }

  /** The inductive step of `UnderlyingsAppend`: one more WKN at the end. */
  lemma UnderlyingsAppendStep(get: Lookup, xs: seq<string>, init: seq<string>, w: string)
    requires FetchSecurities(get, xs + init).underlyings
          == FetchSecurities(get, xs).underlyings + FetchSecurities(get, init).underlyings
    ensures FetchSecurities(get, (xs + init) + [w]).underlyings
         == FetchSecurities(get, xs).underlyings + FetchSecurities(get, init + [w]).underlyings
  {
    FetchSnoc(get, xs + init, w);
    FetchSnoc(get, init, w);
    AppendAssoc(FetchSecurities(get, xs).underlyings, FetchSecurities(get, init).underlyings,
                Contribution(get, w));
  }

  /** A non-empty list is its front and its last element, also behind
      another list. */
  lemma SnocSplit<T>(xs: seq<T>, ys: seq<T>)
    requires |ys| > 0
    ensures ys == ys[..|ys| - 1] + [ys[|ys| - 1]]
    ensures xs + ys == (xs + ys[..|ys| - 1]) + [ys[|ys| - 1]]
  {
  }

  /** What a single WKN contributes to the underlyings list. */
  lemma UnderlyingsOne(get: Lookup, w: string)
    ensures FetchSecurities(get, [w]).underlyings
         == if get(w).Ok? && get(w).value.underlying != "" then [get(w).value.underlying] else []
  {
    assert [w][..0] == [];
  }

  /** The number of repository lookups a request costs. */
  function LookupCount(get: Lookup, wkns: seq<string>): (n: nat)
    ensures n <= 2 * |wkns|
  {
    var first := FetchSecurities(get, wkns);
    |wkns| + (if |first.underlyings| > 0 then |first.underlyings| else 0)
  }

  /** The handler: the second pass runs only when the first found
      underlyings, its own underlyings are dropped, and its results are
      merged over the first map. Name and WKN list pass through. */
  function Resolve(get: Lookup, req: SecuritiesRequest): (out: InfoLinksRequest)
    ensures out.name == req.name && out.wkns == req.wkns && out.responseErrors == map[]
    ensures forall k :: k in out.securities ==>
      (k in req.wkns || k in FetchSecurities(get, req.wkns).underlyings) && get(k) == Ok(out.securities[k])
    ensures forall w :: w in req.wkns && get(w).Ok? ==> w in out.securities
    ensures forall u :: u in FetchSecurities(get, req.wkns).underlyings && get(u).Ok? ==> u in out.securities
  {
    var first := FetchSecurities(get, req.wkns);
    var secs := if |first.underlyings| > 0 then first.found + FetchSecurities(get, first.underlyings).found
                else first.found;
    InfoLinksRequest(req.name, req.wkns, secs, map[])
  }

  /** Exactly one level of expansion: for a chain where A's underlying is
      B and B's underlying is C, the request for A alone resolves A and B
      but never C, unless C is A itself or B itself. */
  lemma OneLevelOnly(get: Lookup, a: string, b: string, c: string, name: string)
    requires get(a).Ok? && get(a).value.underlying == b && b != ""
    requires get(b).Ok? && get(b).value.underlying == c
    requires c != a && c != b
    ensures var out := Resolve(get, SecuritiesRequest(name, [a]));
      a in out.securities && b in out.securities && c !in out.securities
  {
    UnderlyingsOne(get, a);
  }
}

=== FILE: text.dfy ===
/** ASCII text helpers standing in for the parts of Go's `strings` and
    `strconv` packages the bot relies on. Text is ASCII `seq<char>`, so one
    character is one byte and `|s|` is Go's `len(s)`. */
module Text {
  import opened Results

  const MinInt64: int := -0x8000_0000_0000_0000
  const MaxInt64: int := 0x7fff_ffff_ffff_ffff

  /** The ASCII white space `strings.TrimSpace` removes. */
  predicate IsSpace(c: char) {
    c == ' ' || c == '\t' || c == '\n' || c == '\U{B}' || c == '\U{C}' || c == '\r'
  }

  predicate IsLower(c: char) { 'a' <= c <= 'z' }

  predicate IsDigit(c: char) { '0' <= c <= '9' }

  /** The character class `[A-Z0-9]` used by the scanner's patterns. */
  predicate IsUpperAlnum(c: char) { 'A' <= c <= 'Z' || IsDigit(c) }

  predicate NoLower(s: string) {
    forall i :: 0 <= i < |s| ==> !IsLower(s[i])
  }

  predicate AllDigits(s: string) {
    forall i :: 0 <= i < |s| ==> IsDigit(s[i])
  }

  predicate AllUpperAlnum(s: string) {
    forall i :: 0 <= i < |s| ==> IsUpperAlnum(s[i])
  }

  function Spaces(n: nat): (r: string)
    ensures |r| == n && forall i :: 0 <= i < n ==> r[i] == ' '
  {
    seq(n, _ => ' ')
  }

  // ---------------------------------------------------------------------
  // Upper-casing (`strings.ToUpper` on ASCII)

  function UpperChar(c: char): char {
    if IsLower(c) then (c as int - 32) as char else c
  }

  function Upper(s: string): (r: string)
    ensures |r| == |s|
    ensures forall i :: 0 <= i < |s| ==> r[i] == UpperChar(s[i])
  {
    seq(|s|, i requires 0 <= i < |s| => UpperChar(s[i]))
  }

  /** Upper-cased text holds no lower-case letter. */
  lemma UpperNoLower(s: string)
    ensures NoLower(Upper(s))
  {
  }

  /** Text without lower-case letters is its own upper-case form, so
      upper-casing is idempotent. */
  lemma UpperFixesNoLower(s: string)
    requires NoLower(s)
    ensures Upper(s) == s
  {
  }

  lemma UpperIdempotent(s: string)
    ensures Upper(Upper(s)) == Upper(s)
  {
    UpperNoLower(s);
    UpperFixesNoLower(Upper(s));
  }

  lemma UpperAppend(a: string, b: string)
    ensures Upper(a + b) == Upper(a) + Upper(b)
  {
  }

  // ---------------------------------------------------------------------
  // Replacement (`strings.ReplaceAll`)

  /** `strings.ReplaceAll(s, from, to)` for one-character `from` and `to`. */
  function ReplaceChar(s: string, from: char, to: char): (r: string)
    ensures |r| == |s|
    ensures forall i :: 0 <= i < |s| ==> r[i] == (if s[i] == from then to else s[i])
  {
    seq(|s|, i requires 0 <= i < |s| => if s[i] == from then to else s[i])
  }

  lemma ReplaceCharAppend(a: string, b: string, from: char, to: char)
    ensures ReplaceChar(a + b, from, to) == ReplaceChar(a, from, to) + ReplaceChar(b, from, to)
  {
  }

  /** `strings.ReplaceAll(s, "  ", " ")`: leftmost, non-overlapping
      occurrences of two spaces become one space. */
  function CollapseDoubleSpaces(s: string): (r: string)
    ensures |r| <= |s|
    decreases |s|
  {
    if |s| == 0 then ""
    else if |s| >= 2 && s[0] == ' ' && s[1] == ' ' then " " + CollapseDoubleSpaces(s[2..])
    else [s[0]] + CollapseDoubleSpaces(s[1..])
  }

  /** The replacement introduces no character the text did not have. */
  lemma {:induction false} CollapseKeepsChars(s: string)
    ensures forall i :: 0 <= i < |CollapseDoubleSpaces(s)| ==> CollapseDoubleSpaces(s)[i] in s
    decreases |s|
  {
    if |s| >= 2 && s[0] == ' ' && s[1] == ' ' {
      CollapseKeepsChars(s[2..]);
      var r := CollapseDoubleSpaces(s[2..]);
      forall i | 0 <= i < |r| ensures r[i] in s {
        assert r[i] in s[2..];
      }
    } else if |s| > 0 {
      CollapseKeepsChars(s[1..]);
      var r := CollapseDoubleSpaces(s[1..]);
      forall i | 0 <= i < |r| ensures r[i] in s {
        assert r[i] in s[1..];
      }
    }
  }

  /** Text without spaces is left alone. */
  lemma {:induction false} CollapseNoSpace(s: string)
    requires ' ' !in s
    ensures CollapseDoubleSpaces(s) == s
    decreases |s|
  {
    if |s| > 0 {
      assert ' ' !in s[1..];
      CollapseNoSpace(s[1..]);
    }
  }

  /** The replacement never pairs a space across a boundary that does not
      have a space on both sides, so it works piecewise. */
  lemma {:induction false} CollapseAppend(x: string, y: string)
    requires x == [] || y == [] || x[|x| - 1] != ' ' || y[0] != ' '
    ensures CollapseDoubleSpaces(x + y) == CollapseDoubleSpaces(x) + CollapseDoubleSpaces(y)
    decreases |x|
  {
    if x == [] {
      assert x + y == y;
    } else if |x| >= 2 && x[0] == ' ' && x[1] == ' ' {
      CollapseAppend(x[2..], y);
      CollapsePairStep(x, y);
    } else if |x| == 1 {
      assert (x + y)[1..] == y;
      assert x[1..] == [];
    } else {
      CollapseAppend(x[1..], y);
      CollapseCharStep(x, y);
    }
  }

  /** `CollapseAppend` for text opening with two spaces, given the rest. */
  lemma CollapsePairStep(x: string, y: string)
    requires |x| >= 2 && x[0] == ' ' && x[1] == ' '
    requires CollapseDoubleSpaces(x[2..] + y) == CollapseDoubleSpaces(x[2..]) + CollapseDoubleSpaces(y)
    ensures CollapseDoubleSpaces(x + y) == CollapseDoubleSpaces(x) + CollapseDoubleSpaces(y)
  {
    assert (x + y)[2..] == x[2..] + y;
    AppendAssoc(" ", CollapseDoubleSpaces(x[2..]), CollapseDoubleSpaces(y));
  }

  /** `CollapseAppend` for text of two or more characters not opening with
      two spaces, given the rest. */
  lemma CollapseCharStep(x: string, y: string)
    requires |x| >= 2 && !(x[0] == ' ' && x[1] == ' ')
    requires CollapseDoubleSpaces(x[1..] + y) == CollapseDoubleSpaces(x[1..]) + CollapseDoubleSpaces(y)
    ensures CollapseDoubleSpaces(x + y) == CollapseDoubleSpaces(x) + CollapseDoubleSpaces(y)
  {
    assert (x + y)[1..] == x[1..] + y;
    AppendAssoc([x[0]], CollapseDoubleSpaces(x[1..]), CollapseDoubleSpaces(y));
  }

  /** Concatenation is associative. */
  lemma AppendAssoc<T>(a: seq<T>, b: seq<T>, c: seq<T>)
    ensures a + (b + c) == (a + b) + c
  {
  }

  /** A run of `n` spaces in front of a non-space becomes `ceil(n/2)` spaces. */
  lemma {:induction false} CollapseRun(n: nat, y: string)
    requires y == [] || y[0] != ' '
    ensures CollapseDoubleSpaces(Spaces(n) + y) == Spaces((n + 1) / 2) + CollapseDoubleSpaces(y)
    decreases n
  {
    if n == 0 {
      assert Spaces(0) + y == y;
    } else if n == 1 {
      assert (Spaces(1) + y)[1..] == y;
    } else {
      CollapseRun(n - 2, y);
      CollapseRunStep(n, y);
    }
  }

  /** The inductive step of `CollapseRun`: two more spaces in front. */
  lemma CollapseRunStep(n: nat, y: string)
    requires n >= 2
    requires CollapseDoubleSpaces(Spaces(n - 2) + y) == Spaces((n - 1) / 2) + CollapseDoubleSpaces(y)
    ensures CollapseDoubleSpaces(Spaces(n) + y) == Spaces((n + 1) / 2) + CollapseDoubleSpaces(y)
  {
    assert (Spaces(n) + y)[2..] == Spaces(n - 2) + y;
    assert Spaces((n + 1) / 2) == " " + Spaces((n - 1) / 2);
    AppendAssoc(" ", Spaces((n - 1) / 2), CollapseDoubleSpaces(y));
  }

  /** The first character survives the replacement. */
  lemma CollapseKeepsFirst(s: string)
    requires s != []
    ensures CollapseDoubleSpaces(s) != [] && CollapseDoubleSpaces(s)[0] == s[0]
  {
  }

  /** The last character survives the replacement. */
  lemma {:induction false} CollapseKeepsLast(s: string)
    requires s != []
    ensures var r := CollapseDoubleSpaces(s); r != [] && r[|r| - 1] == s[|s| - 1]
    decreases |s|
  {
    if |s| >= 2 && s[0] == ' ' && s[1] == ' ' {
      if |s| > 2 {
        CollapseKeepsLast(s[2..]);
      }
    } else if |s| > 1 {
      CollapseKeepsLast(s[1..]);
    }
  }

  /** A non-empty word without spaces passes through unchanged and splits
      the replacement into the parts before and after it. */
  lemma CollapseAroundWord(a: string, m: string, b: string)
    requires m != [] && ' ' !in m
    ensures CollapseDoubleSpaces(a + m + b)
         == CollapseDoubleSpaces(a) + m + CollapseDoubleSpaces(b)
  {
    assert m[0] in m && m[|m| - 1] in m;
    assert (m + b)[0] == m[0];
    CollapseAppend(a, m + b);
    CollapseAppend(m, b);
    CollapseNoSpace(m);
    AppendAssoc(a, m, b);
    AppendAssoc(CollapseDoubleSpaces(a), m, CollapseDoubleSpaces(b));
  }

  // ---------------------------------------------------------------------
  // Splitting and joining (`strings.Split`, `strings.Join`)

  /** `strings.Split(s, sep)` for a one-character separator: the pieces
      between separators, one more piece than there are separators. */
  function Split(s: string, sep: char): (parts: seq<string>)
    ensures |parts| >= 1
    ensures forall i :: 0 <= i < |parts| ==> sep !in parts[i]
    decreases |s|
  {
    if |s| == 0 then [""]
    else if s[0] == sep then [""] + Split(s[1..], sep)
    else
      var rest := Split(s[1..], sep);
      [[s[0]] + rest[0]] + rest[1..]
  }

  function Join(parts: seq<string>, sep: char): string
    decreases |parts|
  {
    if |parts| == 0 then ""
    else if |parts| == 1 then parts[0]
    else parts[0] + [sep] + Join(parts[1..], sep)
  }

  /** Joining the pieces with the separator gives back the text. */
  lemma {:induction false} JoinSplit(s: string, sep: char)
    ensures Join(Split(s, sep), sep) == s
    decreases |s|
  {
    if |s| == 0 {
    } else if s[0] == sep {
      JoinSplit(s[1..], sep);
      var rest := Split(s[1..], sep);
      assert Split(s, sep) == [""] + rest;
      assert ([""] + rest)[1..] == rest;
    } else {
      JoinSplit(s[1..], sep);
      var rest := Split(s[1..], sep);
      var parts := [[s[0]] + rest[0]] + rest[1..];
      assert Split(s, sep) == parts;
      if |rest| == 1 {
        assert rest == [rest[0]];
      } else {
        assert parts[1..] == rest[1..];
        assert Join(rest, sep) == rest[0] + [sep] + Join(rest[1..], sep);
      }
    }
  }

  /** Splitting joined separator-free pieces gives back the pieces. */
  lemma {:induction false} SplitJoin(parts: seq<string>, sep: char)
    requires |parts| >= 1
    requires forall i :: 0 <= i < |parts| ==> sep !in parts[i]
    ensures Split(Join(parts, sep), sep) == parts
    decreases |parts|
  {
    if |parts| == 1 {
      SplitNoSep(parts[0], sep);
    } else {
      SplitJoin(parts[1..], sep);
      SplitNoSep(parts[0], sep);
      SplitAround(parts[0], Join(parts[1..], sep), sep);
      assert [parts[0]] + parts[1..] == parts;
    }
  }

  /** A separator-free text is a single piece. */
  lemma {:induction false} SplitNoSep(w: string, sep: char)
    requires sep !in w
    ensures Split(w, sep) == [w]
    decreases |w|
  {
    if |w| > 0 {
      assert sep !in w[1..];
      SplitNoSep(w[1..], sep);
      assert [w[0]] + w[1..] == w;
    }
  }

  /** Splitting around one separator splits both sides independently. */
  lemma {:induction false} SplitAround(x: string, y: string, sep: char)
    ensures Split(x + [sep] + y, sep) == Split(x, sep) + Split(y, sep)
    decreases |x|
  {
    var s := x + [sep] + y;
    if |x| == 0 {
      assert s == [sep] + y;
      assert s[1..] == y;
    } else {
      assert s[1..] == x[1..] + [sep] + y;
      SplitAround(x[1..], y, sep);
      if x[0] == sep {
        SplitAroundSeparator(x, y, sep);
      } else {
        SplitAroundLetter(x, y, sep);
      }
    }
  }

  /** The step of `SplitAround` for a text starting with the separator. */
  lemma SplitAroundSeparator(x: string, y: string, sep: char)
    requires |x| > 0 && x[0] == sep
    requires Split(x[1..] + [sep] + y, sep) == Split(x[1..], sep) + Split(y, sep)
    ensures Split(x + [sep] + y, sep) == Split(x, sep) + Split(y, sep)
  {
    var s := x + [sep] + y;
    assert s[0] == sep && s[1..] == x[1..] + [sep] + y;
    PrependPiece("", Split(x[1..], sep), Split(y, sep));
  }

  /** Prepending a piece commutes with appending more pieces. */
  lemma PrependPiece(p: string, a: seq<string>, b: seq<string>)
    ensures [p] + (a + b) == ([p] + a) + b
  {
  }

  /** The step of `SplitAround` for a text starting with another letter. */
  lemma SplitAroundLetter(x: string, y: string, sep: char)
    requires |x| > 0 && x[0] != sep
    requires Split(x[1..] + [sep] + y, sep) == Split(x[1..], sep) + Split(y, sep)
    ensures Split(x + [sep] + y, sep) == Split(x, sep) + Split(y, sep)
  {
    var t := x[1..] + [sep] + y;
    assert x + [sep] + y == [x[0]] + t;
    assert x == [x[0]] + x[1..];
    SplitLetter(x[0], t, sep);
    SplitLetter(x[0], x[1..], sep);
    ExtendFirst([x[0]], Split(x[1..], sep), Split(y, sep));
  }

  /** Splitting a text that starts with a non-separator glues that letter
      to the first piece. */
  lemma SplitLetter(c: char, t: string, sep: char)
    requires c != sep
    ensures Split([c] + t, sep) == [[c] + Split(t, sep)[0]] + Split(t, sep)[1..]
  {
    var s := [c] + t;
    assert s[0] == c && s[1..] == t;
  }

  /** Prefixing the first piece commutes with appending more pieces. */
  lemma ExtendFirst(p: string, a: seq<string>, b: seq<string>)
    requires |a| >= 1
    ensures [p + (a + b)[0]] + (a + b)[1..] == ([p + a[0]] + a[1..]) + b
  {
    assert (a + b)[0] == a[0];
    assert (a + b)[1..] == a[1..] + b;
  }

  /** Every character of a piece is a character of the text. */
  lemma {:induction false} SplitChars(s: string, sep: char)
    ensures forall i, c :: 0 <= i < |Split(s, sep)| && c in Split(s, sep)[i] ==> c in s
    decreases |s|
  {
    if |s| > 0 {
      SplitChars(s[1..], sep);
      var parts := Split(s, sep);
      var rest := Split(s[1..], sep);
      forall i, c | 0 <= i < |parts| && c in parts[i]
        ensures c in s
      {
        if s[0] == sep {
          assert parts[i] == if i == 0 then "" else rest[i - 1];
        } else if i == 0 {
          assert parts[0] == [s[0]] + rest[0];
          assert c == s[0] || c in rest[0];
        } else {
          assert parts[i] == rest[i];
        }
        assert c == s[0] || c in s[1..];
        assert s == [s[0]] + s[1..];
      }
    }
  }

  // ---------------------------------------------------------------------
  // Trimming (`strings.TrimSpace`)

  /** How many white-space characters `s` starts with. */
  function LeadingSpaces(s: string): (n: nat)
    ensures n <= |s|
    ensures forall i :: 0 <= i < n ==> IsSpace(s[i])
    ensures n == |s| || !IsSpace(s[n])
    decreases |s|
  {
    if |s| > 0 && IsSpace(s[0]) then 1 + LeadingSpaces(s[1..]) else 0
  }

  /** How many white-space characters `s` ends with. */
  function TrailingSpaces(s: string): (n: nat)
    ensures n <= |s|
    ensures forall i :: |s| - n <= i < |s| ==> IsSpace(s[i])
    ensures n == |s| || !IsSpace(s[|s| - n - 1])
    decreases |s|
  {
    if |s| > 0 && IsSpace(s[|s| - 1]) then 1 + TrailingSpaces(s[..|s| - 1]) else 0
  }

  function TrimLeft(s: string): string {
    s[LeadingSpaces(s)..]
  }

  function TrimRight(s: string): string {
    s[..|s| - TrailingSpaces(s)]
  }

  /** `strings.TrimSpace` on ASCII text. */
  function TrimSpace(s: string): string {
    TrimRight(TrimLeft(s))
  }

  /** Trimming removes white space at both ends and nothing else: the result
      is the infix of `s` right after its leading white space, what follows
      it is all white space, and its own ends are not white. */
  lemma TrimSpaceInfix(s: string)
    ensures var r := TrimSpace(s);
      var i := LeadingSpaces(s);
      && i + |r| <= |s| && r == s[i..i + |r|]
      && (forall k :: 0 <= k < i ==> IsSpace(s[k]))
      && (forall k :: i + |r| <= k < |s| ==> IsSpace(s[k]))
      && (r == [] || (!IsSpace(r[0]) && !IsSpace(r[|r| - 1])))
  {
    TrimSpaceSlice(s);
    TrimSpaceRightBorder(s);
    TrimSpaceEnds(s);
  }

  /** The trimmed text sits in `s` right after the leading white space. */
  lemma TrimSpaceSlice(s: string)
    ensures var i := LeadingSpaces(s);
      i + |TrimSpace(s)| <= |s| && TrimSpace(s) == s[i..i + |TrimSpace(s)|]
  {
    var i := LeadingSpaces(s);
    var l := s[i..];
    SliceOfSlice(s, i, |l| - TrailingSpaces(l));
  }

  /** A prefix of a suffix is an infix. */
  lemma SliceOfSlice<T>(s: seq<T>, i: nat, n: nat)
    requires i + n <= |s|
    ensures s[i..][..n] == s[i..i + n]
  {
  }

  /** Everything after the trimmed text is white space. */
  lemma TrimSpaceRightBorder(s: string)
    ensures forall k :: LeadingSpaces(s) + |TrimSpace(s)| <= k < |s| ==> IsSpace(s[k])
  {
    var i := LeadingSpaces(s);
    var l := s[i..];
    forall k | i + |TrimSpace(s)| <= k < |s|
      ensures IsSpace(s[k])
    {
      assert s[k] == l[k - i];
    }
  }

  /** The trimmed text neither starts nor ends with white space. */
  lemma TrimSpaceEnds(s: string)
    ensures var r := TrimSpace(s);
      r == [] || (!IsSpace(r[0]) && !IsSpace(r[|r| - 1]))
  {
    var i := LeadingSpaces(s);
    var l := s[i..];
    var b := TrailingSpaces(l);
    var r := l[..|l| - b];
    if r != [] {
      assert r[0] == s[i];
      assert r[|r| - 1] == l[|l| - b - 1];
    }
  }

  /** Text that does not start or end with white space is not changed. */
  lemma TrimSpaceNoop(s: string)
    requires s == [] || (!IsSpace(s[0]) && !IsSpace(s[|s| - 1]))
    ensures TrimSpace(s) == s
  {
    assert LeadingSpaces(s) == 0;
    assert s[0..] == s;
  }

  /** Trimming keeps only characters of the input. */
  lemma TrimSpaceChars(s: string)
    ensures forall c :: c in TrimSpace(s) ==> c in s
  {
    TrimSpaceInfix(s);
  }

  // ---------------------------------------------------------------------
  // Decimal numbers (`strconv.Itoa` and `strconv.Atoi`)

  function DigitChar(d: nat): (c: char)
    requires d < 10
    ensures IsDigit(c)
  {
    ('0' as int + d) as char
  }

  function DigitValue(c: char): (d: nat)
    requires IsDigit(c)
    ensures d < 10
  {
    c as int - '0' as int
  }

  /** `strconv.Itoa` for a non-negative number. */
  function DecimalString(n: nat): (s: string)
    ensures |s| >= 1 && AllDigits(s)
    decreases n
  {
    if n < 10 then [DigitChar(n)] else DecimalString(n / 10) + [DigitChar(n % 10)]
  }

  /** The value of a string of decimal digits, most significant first. */
  function DigitsValue(s: string): nat
    requires AllDigits(s)
    decreases |s|
  {
    if |s| == 0 then 0 else DigitsValue(s[..|s| - 1]) * 10 + DigitValue(s[|s| - 1])
  }

  /** Rendering a number and reading its digits back gives the number. */
  lemma {:induction false} DigitsValueOfDecimalString(n: nat)
    ensures DigitsValue(DecimalString(n)) == n
    decreases n
  {
    var s := DecimalString(n);
    if n >= 10 {
      DigitsValueOfDecimalString(n / 10);
      assert s[..|s| - 1] == DecimalString(n / 10);
    }
  }

  /** `strconv.Atoi` on a 64-bit platform: an optional sign followed by at
      least one decimal digit, whose value fits in an `int64`. */
  function ParseDecimal(s: string): (r: Option<int>)
    ensures r.Some? ==> MinInt64 <= r.value <= MaxInt64
    ensures r.Some? ==> |s| >= 1
  {
    if |s| == 0 then None
    else
      var negative := s[0] == '-';
      var digits := if s[0] == '+' || s[0] == '-' then s[1..] else s;
      if |digits| == 0 || !AllDigits(digits) then None
      else
        var v: int := if negative then -(DigitsValue(digits) as int) else DigitsValue(digits);
        if MinInt64 <= v <= MaxInt64 then Some(v) else None
  }

  /** Every `int64` written in decimal is read back by `ParseDecimal`. */
  lemma ParseDecimalOfDecimalString(n: int)
    requires MinInt64 <= n <= MaxInt64
    ensures n >= 0 ==> ParseDecimal(DecimalString(n)) == Some(n)
    ensures n < 0 ==> ParseDecimal("-" + DecimalString(-n)) == Some(n)
  {
    if n >= 0 {
      DigitsValueOfDecimalString(n);
    } else {
      DigitsValueOfDecimalString(-n);
      assert ("-" + DecimalString(-n))[1..] == DecimalString(-n);
    }
  }

  /** Only signed digit strings parse. */
  lemma ParseDecimalShape(s: string)
    requires ParseDecimal(s).Some?
    ensures var digits := if s[0] == '+' || s[0] == '-' then s[1..] else s;
      |digits| >= 1 && AllDigits(digits)
  {
  }
}

=== FILE: updater.dfy ===
/** The reference-data updater: one run reads the Xetra records from the
    loader and writes them to the security repository, one by one or in
    batches. The loader goroutine and its two channels become a `Feed`: the
    records received, in order, and how the stream ended. The select between
    the channels only decides where the feed stops: the loader reports its
    error after its last record, and a cancelled context cuts the feed at
    some point. Repository errors are only logged, so the calls a run makes
    never depend on them. */
module Updater {
  import opened Results
  import opened Domain
  import Xetra
  import MemoryRepo
  import Instrumenting

  datatype FeedEnd = Closed | LoaderError(reason: string) | Cancelled

  datatype Feed = Feed(records: seq<Security>, end: FeedEnd)

  /** Where the loader reads from. */
  datatype Source = OnlineDownload | LocalFile(path: string)

  /** The configured file path wins; without one the file is downloaded. */
  function SourceFor(xetraCsv: string): (src: Source)
    ensures src.OnlineDownload? <==> xetraCsv == ""
    ensures src.LocalFile? ==> src.path == xetraCsv
  {
    if xetraCsv == "" then OnlineDownload else LocalFile(xetraCsv)
  }

  /** The feed a parse run produces when the context is not cancelled: the
      emitted records, closed on clean end of file, the parse error
      otherwise. A crashing row ends the process, so it leaves no feed. */
  function FeedOf(out: Xetra.ParseOutput): (feed: Option<Feed>)
    ensures feed.None? <==> out.end == Xetra.Panicked
    ensures feed.Some? ==> feed.value.records == out.emitted
    ensures feed.Some? ==> (feed.value.end == Closed <==> out.end == Xetra.Closed)
    ensures feed.Some? && out.end.Failed? ==> feed.value.end == LoaderError(out.end.reason)
  {
    match out.end
    case Closed => Some(Feed(out.emitted, Closed))
    case Failed(reason) => Some(Feed(out.emitted, LoaderError(reason)))
    case Panicked => None
  }

  /** The repository calls a run makes. */
  datatype RepoCall = AddCall(sec: Security) | AddBulkCall(batch: seq<Security>)

  /** The calls made and the error the run returns (`None` for nil). */
  datatype UpdateRun = UpdateRun(calls: seq<RepoCall>, err: Option<string>)

  /** The error returned: only a loader error; cancellation returns nil. */
  function RunError(end: FeedEnd): (err: Option<string>)
    ensures err.Some? <==> end.LoaderError?
    ensures err.Some? ==> err.value == end.reason
  {
    if end.LoaderError? then Some(end.reason) else None
  }

  // ---------------------------------------------------------------------
  // Record-by-record path (batch size 1)

  function AddCalls(records: seq<Security>): (calls: seq<RepoCall>)
    ensures |calls| == |records|
    ensures forall i :: 0 <= i < |calls| ==> calls[i] == AddCall(records[i])
    decreases |records|
  {
    if |records| == 0 then [] else [AddCall(records[0])] + AddCalls(records[1..])
  }

  /** One `Add` per record received, in arrival order. */
  function AddPath(feed: Feed): (run: UpdateRun)
    ensures |run.calls| == |feed.records|
    ensures forall i :: 0 <= i < |run.calls| ==> run.calls[i] == AddCall(feed.records[i])
    ensures run.err == RunError(feed.end)
  {
    UpdateRun(AddCalls(feed.records), RunError(feed.end))
  }

  // ---------------------------------------------------------------------
  // Batch path

  /** The sequences joined end to end. */
  function Flatten(batches: seq<seq<Security>>): seq<Security>
    decreases |batches|
  {
    if |batches| == 0 then [] else batches[0] + Flatten(batches[1..])
  }

  /** The batches flushed while reading, and the list still pending. */
  datatype BulkState = BulkState(flushes: seq<seq<Security>>, pending: seq<Security>)

  /** The batch loop as written: a record arriving while the list holds
      fewer than `b` records is appended; a record arriving at a full list
      flushes the list and is itself not kept. */
  function BulkFold(records: seq<Security>, b: nat, list: seq<Security>): (st: BulkState)
    requires |list| <= b
    ensures forall j :: 0 <= j < |st.flushes| ==> |st.flushes[j]| == b
    ensures |st.pending| <= b
    decreases |records|
  {
    if |records| == 0 then BulkState([], list)
    else if |list| < b then BulkFold(records[1..], b, list + [records[0]])
    else
      var rest := BulkFold(records[1..], b, []);
      BulkState([list] + rest.flushes, rest.pending)
  }

  function BulkCalls(batches: seq<seq<Security>>): (calls: seq<RepoCall>)
    ensures |calls| == |batches|
    ensures forall i :: 0 <= i < |calls| ==> calls[i] == AddBulkCall(batches[i])
    decreases |batches|
  {
    if |batches| == 0 then [] else [AddBulkCall(batches[0])] + BulkCalls(batches[1..])
  }

  /** The batch path: every mid-stream flush has exactly `b` records; the
      pending list is flushed once more only when the stream closes. */
  function BulkPath(feed: Feed, b: nat): (run: UpdateRun)
    ensures var st := BulkFold(feed.records, b, []);
      |run.calls| == |st.flushes| + (if feed.end == Closed then 1 else 0)
    ensures var st := BulkFold(feed.records, b, []);
      |st.flushes| <= |run.calls| && run.calls[..|st.flushes|] == BulkCalls(st.flushes)
    ensures forall i :: 0 <= i < |run.calls| ==> run.calls[i].AddBulkCall? && |run.calls[i].batch| <= b
    ensures feed.end != Closed ==> forall i :: 0 <= i < |run.calls| ==> |run.calls[i].batch| == b
    ensures var st := BulkFold(feed.records, b, []);
      feed.end == Closed ==> run.calls[|st.flushes|] == AddBulkCall(st.pending)
    ensures run.err == RunError(feed.end)
  {
    var st := BulkFold(feed.records, b, []);
    var final := if feed.end == Closed then [AddBulkCall(st.pending)] else [];
    UpdateRun(BulkCalls(st.flushes) + final, RunError(feed.end))
  }

  /** One run: batch size 1 takes the record-by-record path, every other
      size the batch path. The batch loop is the corrected one (see
      `BulkFoldCorrected`); a size of 0, for which no batch can ever hold
      a record, keeps the loop as written. */
  function UpdateXetraFiles(feed: Feed, bulkUpdateSize: nat): (run: UpdateRun)
    ensures run.err == RunError(feed.end)
    ensures bulkUpdateSize == 1 ==> forall i :: 0 <= i < |run.calls| ==> run.calls[i].AddCall?
    ensures bulkUpdateSize != 1 ==> forall i :: 0 <= i < |run.calls| ==> run.calls[i].AddBulkCall?
    ensures bulkUpdateSize != 1 ==> forall i :: 0 <= i < |run.calls| ==> |run.calls[i].batch| <= bulkUpdateSize
  {
    if bulkUpdateSize == 1 then AddPath(feed)
    else if bulkUpdateSize == 0 then BulkPath(feed, 0)
    else BulkPathCorrected(feed, bulkUpdateSize)
  }

  // ---------------------------------------------------------------------
  // Which records are written

  /** The records of `xs` whose stream position (counted from `start`)
      is not congruent to `b` modulo `b + 1`. */
  function KeptPositions(xs: seq<Security>, b: nat, start: nat): seq<Security>
    decreases |xs|
  {
    if |xs| == 0 then []
    else (if start % (b + 1) == b then [] else [xs[0]]) + KeptPositions(xs[1..], b, start + 1)
  }

  lemma MulAtLeast(k: int, m: int)
    requires k >= 1 && m > 0
    ensures k * m >= m
  {
    if k > 1 {
      MulAtLeast(k - 1, m);
      assert k * m == (k - 1) * m + m;
    }
  }

  /** Quotient and remainder are determined by `n == q * m + r`. */
  lemma DivModUnique(n: int, m: int, q: int, r: int)
    requires m > 0 && 0 <= r < m && n == q * m + r
    ensures n % m == r && n / m == q
  {
    var q2, r2 := n / m, n % m;
    assert n == q2 * m + r2;
    if q2 < q {
      assert (q - q2) * m == q * m - q2 * m;
      MulAtLeast(q - q2, m);
    } else if q2 > q {
      assert (q2 - q) * m == q2 * m - q * m;
      MulAtLeast(q2 - q, m);
    }
  }

  lemma ModShift(s: nat, m: nat)
    requires m > 0
    ensures (s + m) % m == s % m
  {
    DivModUnique(s + m, m, s / m + 1, s % m);
  }

  /** Position counting restarts every `b + 1` records. */
  lemma {:induction false} KeptPositionsPeriodic(xs: seq<Security>, b: nat, start: nat)
    ensures KeptPositions(xs, b, start + (b + 1)) == KeptPositions(xs, b, start)
    decreases |xs|
  {
    if |xs| > 0 {
      ModShift(start, b + 1);
      KeptPositionsPeriodic(xs[1..], b, start + 1);
    }
  }

  lemma FlattenCons(x: seq<Security>, rest: seq<seq<Security>>)
    ensures Flatten([x] + rest) == x + Flatten(rest)
  {
    assert ([x] + rest)[1..] == rest;
  }

  /** A record arriving at a list of `n < b` records is kept. */
  lemma KeptStep(records: seq<Security>, b: nat, n: nat)
    requires |records| > 0 && n < b
    ensures KeptPositions(records, b, n) == [records[0]] + KeptPositions(records[1..], b, n + 1)
  {
    DivModUnique(n, b + 1, 0, n);
  }

  /** A record arriving at a full list is dropped and counting restarts. */
  lemma DroppedStep(records: seq<Security>, b: nat)
    requires |records| > 0
    ensures KeptPositions(records, b, b) == KeptPositions(records[1..], b, 0)
  {
    DivModUnique(b, b + 1, 0, b);
    assert KeptPositions(records, b, b) == KeptPositions(records[1..], b, b + 1);
    KeptPositionsPeriodic(records[1..], b, 0);
  }

  /** What the batch loop writes, flushes first and the pending list last:
      exactly the records whose position `k` (from 0) has
      `k % (b + 1) != b`; the others trigger a flush and are lost. */
  lemma {:induction false} BulkFoldKeeps(records: seq<Security>, b: nat, list: seq<Security>)
    requires |list| <= b
    ensures var st := BulkFold(records, b, list);
      Flatten(st.flushes) + st.pending == list + KeptPositions(records, b, |list|)
    decreases |records|
  {
    if |records| == 0 {
      assert list + [] == list;
    } else if |list| < b {
      BulkFoldKeeps(records[1..], b, list + [records[0]]);
      KeepsAppendCase(records, b, list);
    } else {
      BulkFoldKeeps(records[1..], b, []);
      KeepsFlushCase(records, b, list);
    }
  }

  lemma KeepsAppendCase(records: seq<Security>, b: nat, list: seq<Security>)
    requires |records| > 0 && |list| < b
    requires var st := BulkFold(records[1..], b, list + [records[0]]);
      Flatten(st.flushes) + st.pending == list + [records[0]] + KeptPositions(records[1..], b, |list| + 1)
    ensures var st := BulkFold(records, b, list);
      Flatten(st.flushes) + st.pending == list + KeptPositions(records, b, |list|)
  {
    assert BulkFold(records, b, list) == BulkFold(records[1..], b, list + [records[0]]);
    KeptStep(records, b, |list|);
    assert list + [records[0]] + KeptPositions(records[1..], b, |list| + 1)
        == list + ([records[0]] + KeptPositions(records[1..], b, |list| + 1));
  }

  lemma KeepsFlushCase(records: seq<Security>, b: nat, list: seq<Security>)
    requires |records| > 0 && |list| == b
    requires var st := BulkFold(records[1..], b, []);
      Flatten(st.flushes) + st.pending == [] + KeptPositions(records[1..], b, 0)
    ensures var st := BulkFold(records, b, list);
      Flatten(st.flushes) + st.pending == list + KeptPositions(records, b, |list|)
  {
    var rest := BulkFold(records[1..], b, []);
    var tail := KeptPositions(records[1..], b, 0);
    assert Flatten(rest.flushes) + rest.pending == tail;
    var st := BulkFold(records, b, list);
    assert st.flushes == [list] + rest.flushes && st.pending == rest.pending;
    FlattenCons(list, rest.flushes);
    DroppedStep(records, b);
  }

  /** A lost record is one at a position `k` with `k % (b + 1) == b`: with
      `b = 2`, the third of three records never reaches the repository. */
  lemma BulkLosesThirdRecord(s0: Security, s1: Security, s2: Security)
    ensures BulkPath(Feed([s0, s1, s2], Closed), 2).calls == [AddBulkCall([s0, s1]), AddBulkCall([])]
  {
    assert [s0, s1, s2][1..] == [s1, s2];
    assert [s1, s2][1..] == [s2];
    assert [s2][1..] == [];
    assert [] + [s0] == [s0];
    assert [s0] + [s1] == [s0, s1];
    assert BulkFold([s2], 2, [s0, s1]) == BulkState([[s0, s1]], []);
    assert BulkFold([s1, s2], 2, [s0]) == BulkFold([s2], 2, [s0, s1]);
    assert BulkFold([s0, s1, s2], 2, []) == BulkFold([s1, s2], 2, [s0]);
    assert BulkCalls([[s0, s1]]) == [AddBulkCall([s0, s1])];
  }

  /** The batch loop with the arriving record kept: a full list is flushed
      and the new list starts with the record that triggered the flush. */
  function BulkFoldCorrected(records: seq<Security>, b: nat, list: seq<Security>): (st: BulkState)
    requires 1 <= b && |list| <= b
    ensures forall j :: 0 <= j < |st.flushes| ==> |st.flushes[j]| == b
    ensures |st.pending| <= b
    decreases |records|
  {
    if |records| == 0 then BulkState([], list)
    else if |list| < b then BulkFoldCorrected(records[1..], b, list + [records[0]])
    else
      var rest := BulkFoldCorrected(records[1..], b, [records[0]]);
      BulkState([list] + rest.flushes, rest.pending)
  }

  /** The corrected loop loses nothing: flushes and pending list together
      are the records in arrival order. */
  lemma {:induction false} BulkFoldCorrectedLossless(records: seq<Security>, b: nat, list: seq<Security>)
    requires 1 <= b && |list| <= b
    ensures var st := BulkFoldCorrected(records, b, list);
      Flatten(st.flushes) + st.pending == list + records
    decreases |records|
  {
    var st := BulkFoldCorrected(records, b, list);
    if |records| == 0 {
      assert st.flushes == [] && st.pending == list;
    } else if |list| < b {
      BulkFoldCorrectedLossless(records[1..], b, list + [records[0]]);
      assert records == [records[0]] + records[1..];
      assert list + [records[0]] + records[1..] == list + records;
    } else {
      var rest := BulkFoldCorrected(records[1..], b, [records[0]]);
      BulkFoldCorrectedLossless(records[1..], b, [records[0]]);
      FlattenCons(list, rest.flushes);
      assert records == [records[0]] + records[1..];
      assert list + Flatten(rest.flushes) + rest.pending == list + (Flatten(rest.flushes) + rest.pending);
    }
  }

  // ---------------------------------------------------------------------
  // Effect on the in-memory repository

  /** The in-memory repository's answer to a sequence of calls. */
  function ApplyCalls(repo: MemoryRepo.SecurityRepo, calls: seq<RepoCall>): MemoryRepo.SecurityRepo
    decreases |calls|
  {
    if |calls| == 0 then repo
    else
      var next := match calls[0]
        case AddCall(sec) => MemoryRepo.AddSecurity(repo, sec)
        case AddBulkCall(batch) => MemoryRepo.AddAll(repo, batch);
      ApplyCalls(next, calls[1..])
  }

  lemma {:induction false} AddAllAppend(repo: MemoryRepo.SecurityRepo, xs: seq<Security>, ys: seq<Security>)
    ensures MemoryRepo.AddAll(repo, xs + ys) == MemoryRepo.AddAll(MemoryRepo.AddAll(repo, xs), ys)
    decreases |ys|
  {
    if |ys| == 0 {
      assert xs + ys == xs;
    } else {
      var n := |ys| - 1;
      assert (xs + ys)[..|xs + ys| - 1] == xs + ys[..n];
      assert (xs + ys)[|xs + ys| - 1] == ys[n];
      AddAllAppend(repo, xs, ys[..n]);
    }
  }

  /** Record by record, every received record is stored in arrival order,
      whichever way the stream ended. */
  lemma {:induction false} AddCallsStore(repo: MemoryRepo.SecurityRepo, records: seq<Security>)
    ensures ApplyCalls(repo, AddCalls(records)) == MemoryRepo.AddAll(repo, records)
    decreases |records|
  {
    if |records| > 0 {
      var calls := AddCalls(records);
      assert calls[0] == AddCall(records[0]) && calls[1..] == AddCalls(records[1..]);
      AddCallsStore(MemoryRepo.AddSecurity(repo, records[0]), records[1..]);
      AddAllAppend(repo, [records[0]], records[1..]);
      assert [records[0]] + records[1..] == records;
      assert [records[0]][..0] == [];
    }
  }

  lemma {:induction false} BulkCallsStore(repo: MemoryRepo.SecurityRepo, batches: seq<seq<Security>>)
    ensures ApplyCalls(repo, BulkCalls(batches)) == MemoryRepo.AddAll(repo, Flatten(batches))
    decreases |batches|
  {
    if |batches| > 0 {
      var calls := BulkCalls(batches);
      assert calls[1..] == BulkCalls(batches[1..]);
      BulkCallsStore(MemoryRepo.AddAll(repo, batches[0]), batches[1..]);
      AddAllAppend(repo, batches[0], Flatten(batches[1..]));
    }
  }

  lemma {:induction false} ApplyCallsAppend(repo: MemoryRepo.SecurityRepo, c1: seq<RepoCall>, c2: seq<RepoCall>)
    ensures ApplyCalls(repo, c1 + c2) == ApplyCalls(ApplyCalls(repo, c1), c2)
    decreases |c1|
  {
    if |c1| == 0 {
      assert c1 + c2 == c2;
    } else {
      assert (c1 + c2)[0] == c1[0];
      assert (c1 + c2)[1..] == c1[1..] + c2;
      var next := match c1[0]
        case AddCall(sec) => MemoryRepo.AddSecurity(repo, sec)
        case AddBulkCall(batch) => MemoryRepo.AddAll(repo, batch);
      ApplyCallsAppend(next, c1[1..], c2);
    }
  }

  /** A run with batch size 1 leaves the repository as if every received
      record had been added in arrival order. */
  lemma AddPathStoresAll(repo: MemoryRepo.SecurityRepo, feed: Feed)
    ensures ApplyCalls(repo, UpdateXetraFiles(feed, 1).calls) == MemoryRepo.AddAll(repo, feed.records)
  {
    AddCallsStore(repo, feed.records);
  }

  /** The batch loop as written, on a closed stream, leaves the repository as if the
      kept records, and only those, had been added in arrival order. */
  lemma BulkPathStoresKept(repo: MemoryRepo.SecurityRepo, feed: Feed, b: nat)
    requires feed.end == Closed
    ensures ApplyCalls(repo, BulkPath(feed, b).calls)
         == MemoryRepo.AddAll(repo, KeptPositions(feed.records, b, 0))
  {
    var st := BulkFold(feed.records, b, []);
    var calls := BulkPath(feed, b).calls;
    assert calls == BulkCalls(st.flushes) + [AddBulkCall(st.pending)];
    ApplyCallsAppend(repo, BulkCalls(st.flushes), [AddBulkCall(st.pending)]);
    BulkCallsStore(repo, st.flushes);
    assert [AddBulkCall(st.pending)][1..] == [];
    AddAllAppend(repo, Flatten(st.flushes), st.pending);
    BulkFoldKeeps(feed.records, b, []);
    assert [] + KeptPositions(feed.records, b, 0) == KeptPositions(feed.records, b, 0);
  }

  /** The batch path with the corrected loop: flushes while reading, then
      the pending list once the stream closes. */
  function BulkPathCorrected(feed: Feed, b: nat): (run: UpdateRun)
    requires b >= 1
    ensures var st := BulkFoldCorrected(feed.records, b, []);
      |run.calls| == |st.flushes| + (if feed.end == Closed then 1 else 0)
    ensures forall i :: 0 <= i < |run.calls| ==> run.calls[i].AddBulkCall? && |run.calls[i].batch| <= b
    ensures feed.end != Closed ==> forall i :: 0 <= i < |run.calls| ==> |run.calls[i].batch| == b
    ensures var st := BulkFoldCorrected(feed.records, b, []);
      feed.end == Closed ==> run.calls[|st.flushes|] == AddBulkCall(st.pending)
    ensures run.err == RunError(feed.end)
  {
    var st := BulkFoldCorrected(feed.records, b, []);
    var final := if feed.end == Closed then [AddBulkCall(st.pending)] else [];
    UpdateRun(BulkCalls(st.flushes) + final, RunError(feed.end))
  }

  /** With the corrected loop, a closed batch run stores every received
      record in arrival order, exactly like the record-by-record path. */
  lemma BulkPathCorrectedStoresAll(repo: MemoryRepo.SecurityRepo, feed: Feed, b: nat)
    requires b >= 1 && feed.end == Closed
    ensures ApplyCalls(repo, BulkPathCorrected(feed, b).calls) == MemoryRepo.AddAll(repo, feed.records)
    ensures ApplyCalls(repo, BulkPathCorrected(feed, b).calls) == ApplyCalls(repo, UpdateXetraFiles(feed, 1).calls)
  {
    var st := BulkFoldCorrected(feed.records, b, []);
    var calls := BulkPathCorrected(feed, b).calls;
    assert calls == BulkCalls(st.flushes) + [AddBulkCall(st.pending)];
    ApplyCallsAppend(repo, BulkCalls(st.flushes), [AddBulkCall(st.pending)]);
    BulkCallsStore(repo, st.flushes);
    assert [AddBulkCall(st.pending)][1..] == [];
    AddAllAppend(repo, Flatten(st.flushes), st.pending);
    BulkFoldCorrectedLossless(feed.records, b, []);
    assert [] + feed.records == feed.records;
    AddPathStoresAll(repo, feed);
  }

  /** A closed run with any positive batch size stores every received
      record in arrival order. */
  lemma UpdateStoresAll(repo: MemoryRepo.SecurityRepo, feed: Feed, b: nat)
    requires b >= 1 && feed.end == Closed
    ensures ApplyCalls(repo, UpdateXetraFiles(feed, b).calls) == MemoryRepo.AddAll(repo, feed.records)
  {
    if b == 1 {
      AddPathStoresAll(repo, feed);
    } else {
      BulkPathCorrectedStoresAll(repo, feed, b);
    }
  }

  // ---------------------------------------------------------------------
  // The health status

  /** A scheduled run: the status recording the run's start time is set
      whether the update succeeded or failed. */
  function RunUpdate(holder: Instrumenting.StatusHolder, start: int, feed: Feed, bulkUpdateSize: nat)
    : (result: (Instrumenting.StatusHolder, UpdateRun))
    ensures Instrumenting.GetDataUpdateStatus(result.0) == Instrumenting.DataUpdateStatus(start)
    ensures result.1.err == RunError(feed.end)
  {
    (Instrumenting.SetDataUpdateStatus(holder, Instrumenting.DataUpdateStatus(start)),
     UpdateXetraFiles(feed, bulkUpdateSize))
  }

  /** After any run, failed ones included, the health check passes for
      exactly two hours from the run's start. */
  lemma HealthAfterRun(holder: Instrumenting.StatusHolder, start: int, feed: Feed, b: nat, now: int)
    ensures Instrumenting.Healthy(Instrumenting.GetDataUpdateStatus(RunUpdate(holder, start, feed, b).0), now)
        <==> now <= start + Instrumenting.TwoHours
  {
  }
}

=== FILE: xetra.dfy ===
/** The Xetra reference file reader: turns the rows the CSV reader hands
    over into `Security` records. Downloading, unzipping and the CSV
    tokenisation itself are outside the model; the reader's results arrive
    as a sequence of `CsvRead` values, and the end of that sequence is the
    reader's end of file. */
module Xetra {
  import opened Results
  import opened Text
  import opened Domain

  /** The reader is configured for this many fields per row; rows with
      another count are reported as field-count errors and skipped. */
  const FieldsPerRecord: nat := 138

  const InstrumentField: nat := 2
  const IsinField: nat := 3
  const WknField: nat := 6
  const InstrumentTypeField: nat := 18
  const WarrantSubTypeField: nat := 106
  const UnderlyingField: nat := 109
  const ExpireDateField: nat := 110
  const StrikePriceField: nat := 121
  const WarrantTypeField: nat := 132

  /** The first field of the column header row. */
  const HeaderMarker: string := "Product Status"

  /** One answer of the CSV reader: a row (whatever its field count) or a
      read error of any other kind. */
  datatype CsvRead = Record(fields: seq<string>) | ReadFailure(reason: string)

  // ---------------------------------------------------------------------
  // Fixed string-to-code tables

  /** The Xetra instrument-type names, indexed by the type code they map
      to; index 0 (undefined) has no name. */
  const SecurityTypeNames: seq<string> := ["", "OPT", "FUT", "BOND", "CS", "ETF", "ETC", "WAR", "ETN"]

  /** Instrument type, compared case-insensitively. */
  function SecurityTypeOf(s: string): (t: int)
    ensures 0 <= t < |SecurityTypeNames|
    ensures t == TypeUndefined <==> Upper(s) !in SecurityTypeNames[1..]
    ensures t != TypeUndefined ==> SecurityTypeNames[t] == Upper(s)
  {
    var u := Upper(s);
    if u == "OPT" then TypeOption
    else if u == "FUT" then TypeFuture
    else if u == "BOND" then TypeBond
    else if u == "CS" then TypeCommonStock
    else if u == "ETF" then TypeExchangeTradedFund
    else if u == "ETC" then TypeExchangeTradedCommodity
    else if u == "WAR" then TypeWarrant
    else if u == "ETN" then TypeExchangeTradedNote
    else TypeUndefined
  }

  /** Each named type is recognised in any letter case. */
  lemma SecurityTypeNamesRecognised(t: int, s: string)
    requires 1 <= t < |SecurityTypeNames|
    requires Upper(s) == SecurityTypeNames[t]
    ensures SecurityTypeOf(s) == t
  {
  }

  /** Warrant direction: `CALL` or `PUT` in any letter case. */
  function WarrantTypeOf(s: string): (t: int)
    ensures t == WarrantTypeCall <==> Upper(s) == "CALL"
    ensures t == WarrantTypePut <==> Upper(s) == "PUT"
    ensures t == WarrantTypeUndefined <==> Upper(s) != "CALL" && Upper(s) != "PUT"
  {
    var u := Upper(s);
    if u == "CALL" then WarrantTypeCall
    else if u == "PUT" then WarrantTypePut
    else WarrantTypeUndefined
  }

  /** Warrant sub-type: exactly `60` or `50` is a knock-out, exactly `40`
      an open-end warrant, everything else undefined. */
  function WarrantSubTypeOf(s: string): (t: int)
    ensures t == WarrantSubTypeKnockout <==> s == "60" || s == "50"
    ensures t == WarrantSubTypeOS <==> s == "40"
    ensures t == WarrantSubTypeUndefined <==> s != "60" && s != "50" && s != "40"
  {
    if s == "60" then WarrantSubTypeKnockout
    else if s == "50" then WarrantSubTypeKnockout
    else if s == "40" then WarrantSubTypeOS
    else WarrantSubTypeUndefined
  }

  /** The six-character WKN inside the long form: the three-character
      country prefix is dropped. Shorter input makes the original panic. */
  function ShortenWkn(long: string): (short: string)
    requires |long| >= 3
    ensures |short| == |long| - 3
    ensures long == long[..3] + short
  {
    long[3..]
  }

  // ---------------------------------------------------------------------
  // Row mapping

  /** A row the reader accepts and that is not the column header. */
  predicate Accepted(read: CsvRead) {
    read.Record? && |read.fields| == FieldsPerRecord && read.fields[0] != HeaderMarker
  }

  /** An accepted row whose WKN field is too short to shorten: the original
      crashes on it. */
  predicate Panics(read: CsvRead) {
    Accepted(read) && |read.fields[WknField]| < 3
  }

  /** Maps one accepted row to a record. Name and underlying are copied
      verbatim; ISIN and WKN are upper-cased and the WKN loses its prefix;
      the three codes come from the fixed tables. Strike and expiry are set
      only from a non-empty field that parses; otherwise they stay 0 and
      absent. `parseFloat` and `parseDate` stand for the library parsers. */
  function MapRow(fields: seq<string>, parseFloat: string -> Option<real>,
                  parseDate: string -> Option<int>): (sec: Security)
    requires |fields| == FieldsPerRecord && |fields[WknField]| >= 3
    ensures sec.name == fields[InstrumentField] && sec.underlying == fields[UnderlyingField]
    ensures sec.isin == Upper(fields[IsinField]) && NoLower(sec.isin)
    ensures NoLower(sec.wkn) && |sec.wkn| == |fields[WknField]| - 3
    ensures Upper(fields[WknField]) == Upper(fields[WknField])[..3] + sec.wkn
    ensures sec.secType == SecurityTypeOf(fields[InstrumentTypeField])
    ensures sec.warrantType == WarrantTypeOf(fields[WarrantTypeField])
    ensures sec.warrantSubType == WarrantSubTypeOf(fields[WarrantSubTypeField])
    ensures var s := fields[StrikePriceField];
      sec.strike == (if s != "" && parseFloat(s).Some? then parseFloat(s).value else 0.0)
    ensures var s := fields[ExpireDateField];
      sec.expire == (if s != "" && parseDate(s).Some? then parseDate(s) else None)
  {
    var strikeField := fields[StrikePriceField];
    var expireField := fields[ExpireDateField];
    UpperNoLower(fields[IsinField]);
    UpperNoLower(fields[WknField]);
    Security(
      name := fields[InstrumentField],
      isin := Upper(fields[IsinField]),
      wkn := ShortenWkn(Upper(fields[WknField])),
      underlying := fields[UnderlyingField],
      secType := SecurityTypeOf(fields[InstrumentTypeField]),
      warrantType := WarrantTypeOf(fields[WarrantTypeField]),
      warrantSubType := WarrantSubTypeOf(fields[WarrantSubTypeField]),
      strike := if strikeField != "" && parseFloat(strikeField).Some? then parseFloat(strikeField).value else 0.0,
      expire := if expireField != "" && parseDate(expireField).Some? then parseDate(expireField) else None)
  }

  // ---------------------------------------------------------------------
  // The row loop

  /** How the row loop ended: at end of file with the output closed, with
      a read error returned (output left open), or by crashing on a WKN
      field shorter than three characters. */
  datatype ParseEnd = Closed | Failed(reason: string) | Panicked

  datatype ParseOutput = ParseOutput(emitted: seq<Security>, end: ParseEnd)

  /** The row loop: skips rows with the wrong field count and the header
      row, emits one record per other row in row order, stops at the first
      read error. */
  function ParseXetraCsv(rows: seq<CsvRead>, parseFloat: string -> Option<real>,
                         parseDate: string -> Option<int>): (out: ParseOutput)
    ensures |out.emitted| <= |rows|
    decreases |rows|
  {
    if |rows| == 0 then ParseOutput([], Closed)
    else match rows[0]
      case ReadFailure(reason) => ParseOutput([], Failed(reason))
      case Record(fields) =>
        if |fields| != FieldsPerRecord || fields[0] == HeaderMarker then
          ParseXetraCsv(rows[1..], parseFloat, parseDate)
        else if |fields[WknField]| < 3 then ParseOutput([], Panicked)
        else
          var rest := ParseXetraCsv(rows[1..], parseFloat, parseDate);
          ParseOutput([MapRow(fields, parseFloat, parseDate)] + rest.emitted, rest.end)
  }

  /** No read error and no crashing row. */
  predicate Clean(rows: seq<CsvRead>) {
    forall i :: 0 <= i < |rows| ==> rows[i].Record? && !Panics(rows[i])
  }

  /** What a single row contributes on its own. */
  lemma ParseOneRow(read: CsvRead, parseFloat: string -> Option<real>, parseDate: string -> Option<int>)
    ensures read.ReadFailure? ==> ParseXetraCsv([read], parseFloat, parseDate) == ParseOutput([], Failed(read.reason))
    ensures read.Record? && !Accepted(read) ==> ParseXetraCsv([read], parseFloat, parseDate) == ParseOutput([], Closed)
    ensures Panics(read) ==> ParseXetraCsv([read], parseFloat, parseDate) == ParseOutput([], Panicked)
    ensures Accepted(read) && !Panics(read) ==>
      ParseXetraCsv([read], parseFloat, parseDate) == ParseOutput([MapRow(read.fields, parseFloat, parseDate)], Closed)
  {
    assert [read][1..] == [];
  }

  /** The loop streams: a clean prefix emits its records first, in order,
      and the rest decides how the run ends. */
  lemma {:induction false} ParseAppend(r1: seq<CsvRead>, r2: seq<CsvRead>,
                                       parseFloat: string -> Option<real>, parseDate: string -> Option<int>)
    requires Clean(r1)
    ensures ParseXetraCsv(r1 + r2, parseFloat, parseDate)
         == ParseOutput(ParseXetraCsv(r1, parseFloat, parseDate).emitted
                        + ParseXetraCsv(r2, parseFloat, parseDate).emitted,
                        ParseXetraCsv(r2, parseFloat, parseDate).end)
    decreases |r1|
  {
    if |r1| == 0 {
      assert r1 + r2 == r2;
    } else {
      CleanTail(r1);
      ParseAppend(r1[1..], r2, parseFloat, parseDate);
      ConsSplit(r1, r2);
      ParseAppendStep(r1[0], r1[1..], r2, parseFloat, parseDate);
    }
  }

  /** The inductive step of `ParseAppend`: a clean row in front of a
      prefix for which the property holds. */
  lemma ParseAppendStep(row: CsvRead, tail: seq<CsvRead>, r2: seq<CsvRead>,
                        parseFloat: string -> Option<real>, parseDate: string -> Option<int>)
    requires row.Record? && !Panics(row)
    requires ParseXetraCsv(tail + r2, parseFloat, parseDate)
          == ParseOutput(ParseXetraCsv(tail, parseFloat, parseDate).emitted
                         + ParseXetraCsv(r2, parseFloat, parseDate).emitted,
                         ParseXetraCsv(r2, parseFloat, parseDate).end)
    ensures ParseXetraCsv([row] + (tail + r2), parseFloat, parseDate)
         == ParseOutput(ParseXetraCsv([row] + tail, parseFloat, parseDate).emitted
                        + ParseXetraCsv(r2, parseFloat, parseDate).emitted,
                        ParseXetraCsv(r2, parseFloat, parseDate).end)
  {
    ParseCons(row, tail + r2, parseFloat, parseDate);
    ParseCons(row, tail, parseFloat, parseDate);
    AppendAssoc(RowContribution(row, parseFloat, parseDate),
                ParseXetraCsv(tail, parseFloat, parseDate).emitted,
                ParseXetraCsv(r2, parseFloat, parseDate).emitted);
  }

  /** A non-empty sequence is its head in front of its tail, also when
      something follows. */
  lemma ConsSplit<T>(r1: seq<T>, r2: seq<T>)
    requires |r1| > 0
    ensures r1 == [r1[0]] + r1[1..]
    ensures r1 + r2 == [r1[0]] + (r1[1..] + r2)
  {
  }

  /** What a clean row adds in front of the rest of the output. */
  function RowContribution(read: CsvRead, parseFloat: string -> Option<real>,
                           parseDate: string -> Option<int>): (rows: seq<Security>)
    requires read.Record? && !Panics(read)
    ensures |rows| <= 1
  {
    if Accepted(read) then [MapRow(read.fields, parseFloat, parseDate)] else []
  }

  /** A clean first row only adds its contribution and never ends the
      stream. */
  lemma ParseCons(row: CsvRead, rest: seq<CsvRead>, parseFloat: string -> Option<real>, parseDate: string -> Option<int>)
    requires row.Record? && !Panics(row)
    ensures ParseXetraCsv([row] + rest, parseFloat, parseDate)
         == ParseOutput(RowContribution(row, parseFloat, parseDate)
                        + ParseXetraCsv(rest, parseFloat, parseDate).emitted,
                        ParseXetraCsv(rest, parseFloat, parseDate).end)
  {
    var rows := [row] + rest;
    assert rows[0] == row && rows[1..] == rest;
    if !Accepted(row) {
      assert [] + ParseXetraCsv(rest, parseFloat, parseDate).emitted
          == ParseXetraCsv(rest, parseFloat, parseDate).emitted;
    }
  }

  /** The rest of a clean input is clean. */
  lemma CleanTail(rows: seq<CsvRead>)
    requires |rows| > 0 && Clean(rows)
    ensures Clean(rows[1..])
  {
    forall i | 0 <= i < |rows[1..]|
      ensures rows[1..][i].Record? && !Panics(rows[1..][i])
    {
      assert rows[1..][i] == rows[i + 1];
    }
  }

  /** The output is closed exactly when the input is clean. */
  lemma {:induction false} ParseClosedIffClean(rows: seq<CsvRead>,
                                               parseFloat: string -> Option<real>, parseDate: string -> Option<int>)
    ensures ParseXetraCsv(rows, parseFloat, parseDate).end == Closed <==> Clean(rows)
    decreases |rows|
  {
    if |rows| > 0 {
      ParseClosedIffClean(rows[1..], parseFloat, parseDate);
      if Clean(rows) {
        assert Clean(rows[1..]) by {
          forall i | 0 <= i < |rows[1..]|
            ensures rows[1..][i].Record? && !Panics(rows[1..][i])
          {
            assert rows[1..][i] == rows[i + 1];
          }
        }
      } else if rows[0].Record? && !Panics(rows[0]) {
        var i :| 0 <= i < |rows| && !(rows[i].Record? && !Panics(rows[i]));
        assert rows[1..][i - 1] == rows[i];
      }
    }
  }

  /** A read error other than a wrong field count aborts the loop: the
      records of the rows before it are emitted, the error is returned and
      nothing after it is read. */
  lemma ParseStopsAtFailure(rows: seq<CsvRead>, i: nat,
                            parseFloat: string -> Option<real>, parseDate: string -> Option<int>)
    requires i < |rows| && rows[i].ReadFailure? && Clean(rows[..i])
    ensures ParseXetraCsv(rows, parseFloat, parseDate)
         == ParseOutput(ParseXetraCsv(rows[..i], parseFloat, parseDate).emitted, Failed(rows[i].reason))
  {
    assert rows == rows[..i] + rows[i..];
    ParseAppend(rows[..i], rows[i..], parseFloat, parseDate);
    assert rows[i..][0] == rows[i];
  }

  /** Banner rows with the wrong field count and the header row can be
      removed without changing anything. */
  lemma ParseSkipsRow(rows: seq<CsvRead>, i: nat,
                      parseFloat: string -> Option<real>, parseDate: string -> Option<int>)
    requires i < |rows| && rows[i].Record? && !Accepted(rows[i]) && Clean(rows[..i])
    ensures ParseXetraCsv(rows[..i] + rows[i + 1..], parseFloat, parseDate)
         == ParseXetraCsv(rows, parseFloat, parseDate)
  {
    var rest := rows[i + 1..];
    SplitAtRow(rows, i);
    ParseAppend(rows[..i], [rows[i]] + rest, parseFloat, parseDate);
    ParseAppend(rows[..i], rest, parseFloat, parseDate);
    ParseCons(rows[i], rest, parseFloat, parseDate);
    assert RowContribution(rows[i], parseFloat, parseDate) + ParseXetraCsv(rest, parseFloat, parseDate).emitted
        == ParseXetraCsv(rest, parseFloat, parseDate).emitted;
  }

  /** A sequence around one of its positions. */
  lemma SplitAtRow<T>(rows: seq<T>, i: nat)
    requires i < |rows|
    ensures rows == rows[..i] + ([rows[i]] + rows[i + 1..])
  {
  }
}
